=== FILE: README.md ===
# dustcollector, modelled in Dafny

dustcollector finds EBS snapshots in an AWS account that can be deleted. An
`Expedition` goes through these steps:

1. It pages through the account's snapshots and keeps those started before a
   cutoff date.
2. It checks which of their volumes still exist.
3. It correlates each snapshot ("nugget") with the images, launch
   configurations, launch templates and autoscaling groups that use it.
4. It groups the nuggets by volume into "bars".
5. It writes an ordered deletion plan: launch templates, then launch
   configurations, then AMIs, then snapshots.

Bars and nuggets can also be dumped as CSV rows.

This project models the decision logic between the AWS calls. That covers the
slice helpers and in-memory lookups of `dustcollector-common.go`, and the
analysis steps of `dustcollector.go`. Every AWS call becomes an input:

- the pages of snapshots, as a sequence of sequences;
- whether a volume exists, as a function `string -> bool`;
- the images, launch configurations, launch templates and autoscaling groups
  already described;
- the accounts an image is shared with, as a function `string -> seq<string>`;
- the date parser and the date formatter, as functions.

Go pointers are modelled as follows:

- Bars hold the indices of their nuggets.
- A nugget's parent bar is an index, with `None` for a nil pointer.
- A `*string` is a `StrRef` object. Pointer deduplication therefore keeps the
  caller's references.

The modules follow the program's structure:

- **Slices**: `containsString`/`containsStringPointer`, `dedupeString`/`dedupeStringPointer`, `makeBatchesStringPointer`.
- **Resources**: the provider records.
- **Records**: `Nugget` and `Bar`.
- **Lookups**: `lcInASGs`, `ltInASGs`, `lcsWithSnapImage`, `ltsWithSnapImage`.
- **Intake**: the date filter, the page-stop rule, volume lookups and `HasVol` marking of `getSnapshots`/`buildNuggets`.
- **Correlation**: the loop of `populateNuggets`.
- **Grouping**: `addBars`/`addBar`.
- **Plan**: `setRecommendations`.
- **Rows**: `Bar.dumpString`/`Nugget.dumpString` and the `strings`/`strconv` helpers they use.
- **Config**: `New`.
- **Expeditions**: the `Expedition` class, whose methods update its fields in place.

Go's loops are Dafny methods. Each is proved equal to a specification function, and the lemmas say what that function means.

Where the code and its comments disagree, the code is followed:

- The `ExpeditionInput` comments give the default file names as `outfile-summary.txt`, `outfile-nuggets.csv` and `outfile-bars.csv`.
- `New` assigns `out-summary.txt`, `out-nuggets.csv` and `out-bars.csv`, and those are the values modelled.

The model reproduces these quirks of the code as written:

- A bar takes `HasVol` from the nugget that created it, and later members never change it.
- On every match, the LCs, LTs and ASGs of a nugget are overwritten, not accumulated.
- `barsToDelete` gets one entry per deletable nugget. `totalGbs` therefore counts a bar's size once per deletable member.
- `countHasVol` counts bars, not snapshots.
- Pagination continues while `pageNum <= maxPages`, so up to `maxPages + 1` pages are processed.
- `makeBatchesStringPointer` divides with Go's truncating `/` and `%`. A negative batch size yields only the remainder batch.

## Model

| member | source | states |
|---|---|---|
| Slices.ContainsString | dustcollector-common.go:19-26 | true exactly when some element equals the search string |
| Slices.ContainsStringPointer | dustcollector-common.go:10-17 | true exactly when some element's pointee equals the search pointee |
| Slices.DedupeString | dustcollector-common.go:38-46 | the loop returns the first-occurrence deduplication of its input |
| Slices.DedupeSameElements | dustcollector-common.go:38-46 | the deduplicated list has exactly the input's elements |
| Slices.DedupeNoDuplicates | dustcollector-common.go:38-46 | no element occurs twice in the deduplicated list |
| Slices.DedupeFirstOccurrenceOrder | dustcollector-common.go:38-46 | the deduplicated elements appear in order of their first occurrence in the input |
| Slices.DedupeOfDistinct | dustcollector-common.go:38-46 | a list without duplicates is returned unchanged |
| Slices.DedupeIdempotent | dustcollector-common.go:38-46 | deduplicating twice is the same as deduplicating once |
| Slices.DedupeStringPointer | dustcollector-common.go:28-36 | the loop returns the references kept by first-occurrence deduplication by pointee |
| Slices.DedupeRefsValues | dustcollector-common.go:28-36 | the pointees of the result are the deduplicated pointees of the input, and every kept reference is one of the input's |
| Slices.BatchCounts | dustcollector-common.go:188 | with Go's truncating division, a positive size gives quotient times size plus remainder equal to the length and a remainder below the size, and the batch count is the ceiling; a negative size gives no full batch |
| Slices.BatchesShape | dustcollector-common.go:188-209 | full batches plus the remainder batch concatenate back to the input, and the count is the ceiling of length over size |
| Slices.MakeBatches | dustcollector-common.go:187-211 | for a positive size the batches concatenate to the input in order, number ceil(len/size), every full batch has exactly `size` elements and the last has `len % size` when that is non-zero; for a negative size the result is only the trailing remainder batch |
| Lookups.LcInAsgs | dustcollector-common.go:107-118 | the names, in group order, of the groups whose launch configuration name is set and equal; the flag is true exactly when that list is non-empty |
| Lookups.LtInAsgs | dustcollector-common.go:123-136 | the same for groups whose launch template is set and carries the given name |
| Lookups.AsgsUsingLcMembers | dustcollector-common.go:107-118 | a name is listed exactly when some group using the configuration has that name; at most one name per group |
| Lookups.AsgsUsingLtMembers | dustcollector-common.go:123-136 | a name is listed exactly when some group using the template has that name; at most one name per group |
| Lookups.LcsWithSnapImage | dustcollector-common.go:165-182 | each configuration's name, in input order, once when its image matches and once more per EBS mapping of the snapshot |
| Lookups.AppendMappingHits | dustcollector-common.go:170-179 | the inner loop appends the name once per mapping that is an EBS mapping with the snapshot id |
| Lookups.LtsWithSnapImage | dustcollector-common.go:143-158 | each template's name, in input order, once when its image matches and once more per mapping of the snapshot |
| Lookups.AppendTemplateMappingHits | dustcollector-common.go:148-155 | the inner loop appends the name once per mapping whose snapshot id is set and equal |
| Lookups.MappingHitsPositive | dustcollector-common.go:170-179 | a configuration's mappings count a hit exactly when one of them is an EBS mapping of the snapshot |
| Lookups.TemplateMappingHitsPositive | dustcollector-common.go:148-155 | a template's mappings count a hit exactly when one of them refers to the snapshot |
| Lookups.LcReferencesMembers | dustcollector-common.go:165-182 | a name is listed exactly when some configuration with that name uses the image or maps the snapshot |
| Lookups.LtReferencesMembers | dustcollector-common.go:143-158 | a name is listed exactly when some template with that name uses the image or maps the snapshot |
| Intake.FilterSnapshots | dustcollector.go:574-587 | the page's snapshots started strictly before the cutoff, in page order |
| Intake.BeforeCutoffKeeps | dustcollector.go:580-586 | each snapshot is kept as often as it occurs when it started before the cutoff, and dropped otherwise |
| Intake.PagesProcessed | dustcollector.go:599 | the first page is always handled, at most `maxPages + 1` pages are handled, and fewer pages than available only when the callback stopped the paging |
| Intake.EnqueuedPages | dustcollector.go:594-598 | no enqueued page is empty, and the enqueued pages together hold exactly the filtered snapshots of all pages, in order |
| Intake.HarvestedEnqueued | dustcollector.go:557-610 | building the enqueued pages one after another, as the queue's consumer does, gives the intake page by page; no page is enqueued when the batch size is zero |
| Intake.ExistingVolumesMembers | dustcollector.go:618-635 | a volume id is recorded exactly when it was looked up and the volume exists |
| Intake.NewNuggets | dustcollector.go:643-650 | one fresh nugget per snapshot, in page order |
| Intake.MarkHasVol | dustcollector.go:663-669 | every nugget ends with HasVol set exactly when it was set before or a found volume has its volume id, with no other field changed |
| Intake.LookedUpAll | dustcollector.go:651-658 | with a positive batch size every volume id of the page is looked up |
| Intake.BuildPageMarks | dustcollector.go:638-671 | for any non-zero batch size: the earlier nuggets and found volumes stay in front; a volume is found afterwards exactly when it was found before or is looked up now and exists; each appended nugget is its snapshot's fresh nugget with HasVol set exactly when its volume was found before or is looked up now and exists |
| Intake.BuildPageExtends | dustcollector.go:638-671 | a built page keeps the earlier state in front, finds only existing volumes, and appends fresh nuggets whose HasVol is set only for a volume found before or existing, and, with a positive batch size, for every such volume |
| Intake.HarvestedMarks | dustcollector.go:557-671 | the same for the whole intake over several pages |
| Intake.SnapsMarkAll | dustcollector.go:643-670 | marking changes no nugget's snapshot |
| Intake.HarvestedSnaps | dustcollector.go:557-610 | after the intake, the nuggets' snapshots are the earlier ones followed by every handled page's snapshots started before the cutoff, in order |
| Grouping.LastBarWith | dustcollector.go:195-201 | the bar found has the volume id and no later bar has it; none is found exactly when no bar has it |
| Grouping.AddBarStepKeeps | dustcollector.go:195-210 | addBar keeps every existing bar's volume id and HasVol, and changes nothing of any nugget but its parent |
| Grouping.AddBarStepGroups | dustcollector.go:192-212 | one addBar extends a grouping of the first n nuggets to the first n+1 |
| Grouping.AddAllGroups | dustcollector.go:186-190 | addBars from no bars groups all nuggets: one bar per distinct volume id in order of first occurrence, member indices in increasing order, HasVol from the first member, every nugget pointing at its bar |
| Grouping.AddAllKeeps | dustcollector.go:186-190 | addBars changes only the nuggets' parent bars |
| Grouping.AddAllSnaps | dustcollector.go:186-190 | addBars keeps every nugget's snapshot, in order |
| Grouping.GroupedBarsDistinct | dustcollector.go:195-211 | after grouping, bar volume ids are pairwise distinct |
| Grouping.GroupedMembership | dustcollector.go:195-211 | after grouping, every nugget lies in exactly one bar, the one of its volume id, and that bar is its parent |
| Grouping.GroupedOrder | dustcollector.go:186-212 | after grouping, members follow nugget order, a bar's first member is its volume's first nugget, and bars follow first occurrences |
| Grouping.GroupedTotal | dustcollector.go:186-212 | after grouping, the bar memberships add up to the number of nuggets |
| Correlation.ApplyMatch | dustcollector.go:155-177 | one match appends the image id, replaces LCs and LTs by the lookups for (snapshot, image), leaves ASGs as the lookup for the last LT, else the last LC, else unchanged, and takes the image's sharing accounts |
| Correlation.MatchMappings | dustcollector.go:152-180 | the mapping loop applies a match for each EBS mapping of the nugget's snapshot, in order |
| Correlation.CorrelateKeeps | dustcollector.go:150-182 | correlation never changes a nugget's snapshot, HasVol or parent |
| Correlation.CorrelateMappingsAmiIds | dustcollector.go:152-180 | one image appends its id once per matching mapping |
| Correlation.CorrelateAmiIds | dustcollector.go:150-182 | the AMI ids grow by every matching (image, mapping) pair's image id, in image order, duplicates included |
| Correlation.CorrelateMappingsMiss | dustcollector.go:152-180 | an image without a matching mapping leaves the nugget unchanged |
| Correlation.CorrelateUnmatched | dustcollector.go:150-182 | a nugget no image maps is left unchanged |
| Correlation.CorrelateMappingsHit | dustcollector.go:152-180 | after an image with a match, LCs, LTs and sharing are those of that image's match, and ASGs are too when that match finds a configuration or template |
| Correlation.CorrelateLastMatchWins | dustcollector.go:150-182 | LCs, LTs and sharing are those of the last matching image's match, and ASGs are too when that match finds a configuration or template |
| Plan.ClassifyMembers | dustcollector.go:231-242 | the member loop adds exactly the deletable members to the plan and to barsToDelete, and counts the others as spared |
| Plan.Classify | dustcollector.go:229-246 | the bar loop yields the plan lists of the deletable members of volume-less bars, their parent bars, the bars with a volume and the spared members |
| Plan.BarEntriesExactly | dustcollector.go:231-238 | a nugget enters the plan from a bar exactly when it is a member and has no ASG and no AMI sharing |
| Plan.PlanEntriesExactly | dustcollector.go:229-246 | a nugget enters the plan exactly when it is deletable and a member of a bar without a volume |
| Plan.GatheredMembers | dustcollector.go:234-237 | the snapshot list grows by the deletable nuggets' snapshot ids in order, and the LT, LC and AMI lists by exactly their entries |
| Plan.BarEntriesSpared | dustcollector.go:231-241 | every member of a volume-less bar is either planned or counted in countAsgShare |
| Plan.CountsPartition | dustcollector.go:229-246 | planned, spared and members of bars with a volume add up to all members |
| Plan.CountHasVolBounded | dustcollector.go:243-245 | countHasVol, which counts bars, is at most the number of snapshots in those bars |
| Plan.GroupedCounts | dustcollector.go:229-246 | after grouping, planned plus spared plus members of bars with a volume equals the number of nuggets |
| Plan.GroupedLinked | dustcollector.go:197-208 | after grouping, every member's parent is the bar that lists it |
| Plan.GroupedPlan | dustcollector.go:229-238 | after grouping, a nugget is planned exactly when it is deletable and the first nugget of its volume has no volume |
| Plan.OrphanedAt | dustcollector.go:209 | a grouped nugget sits in a volume-less bar exactly when its volume's first nugget has HasVol false |
| Plan.SumGbs | dustcollector.go:298-303 | the loop sums the first nugget's size of every volume-less bar in barsToDelete |
| Plan.BarGbs | dustcollector.go:298-303 | one bar adds its first nugget's size once per deletable member |
| Plan.TotalGbsUpTo | dustcollector.go:298-303 | totalGbs over the first n bars is the sum of each bar's size times its deletable members |
| Plan.GroupedTotalGbs | dustcollector.go:298-303 | after grouping, totalGbs counts each volume-less bar's size once per deletable member, not once per bar |
| Plan.LinkedDerefable | dustcollector.go:299-301 | every barsToDelete entry can be followed to a bar with a first nugget |
| Plan.AppendSection | dustcollector.go:265-268 | the message grows by the header and one tab-prefixed line per entry |
| Plan.WritePlan | dustcollector.go:265-280 | the list section holds the four lists in the fixed order LTs, LCs, AMIs, snapshots, each under its header |
| Plan.ParseSection | dustcollector.go:265-268 | reading a section back yields its header and exactly its entries |
| Plan.ParseRender | dustcollector.go:265-280 | reading a rendered message back yields its sections |
| Plan.PlanLinesRoundTrip | dustcollector.go:265-280 | the message reads back as the four headed lists, in order |
| Rows.SplitJoin | dustcollector.go:459 | splitting a join of separator-free parts returns the parts |
| Rows.ListRoundTrip | dustcollector.go:515 | a "\|"-joined field of clean parts reads back as those parts; no parts gives "" |
| Rows.FormatIntRoundTrip | dustcollector.go:468 | FormatInt base 10 reads back as the same integer, negatives included |
| Rows.SnapshotIds | dustcollector.go:454-456 | the members' snapshot ids, in member order |
| Rows.BarDump | dustcollector.go:451-470 | the dump, including the single-member case, is the bar's row |
| Rows.BarRowReadsBack | dustcollector.go:451-470 | a bar row is five fields: the first member's owner, the member snapshot ids joined in member order, HasVol, and the first member's date and volume size, each read back |
| Rows.TagStrings | dustcollector.go:511-514 | each tag as key=value, in tag order |
| Rows.NuggetDump | dustcollector.go:508-536 | the dump equals the nugget's row |
| Rows.DedupedListReadsBack | dustcollector.go:516-520 | a joined association list reads back duplicate-free, with the same elements as the nugget's list |
| Rows.NuggetRowListsReadBack | dustcollector.go:516-520 | fields 3-7 read back as the deduplicated AMI ids, LCs, LTs, ASGs and sharing accounts |
| Rows.NuggetRowFieldsReadBack | dustcollector.go:521-534 | owner, snapshot id, HasVol, date, tags in order, volume size and description read back from the row |
| Config.New | dustcollector.go:812-875 | the date filter defaults first; a missing session stops construction with nothing else set; otherwise page, size, batch and file defaults are 25, 500, 30 and the out-* names, both in the settings and written back into the caller's input, which keeps its session and logger; an error is returned exactly when the session or logger is missing |
| Expeditions.PageNuggets | dustcollector.go:641-650 | one fresh nugget per snapshot and its volume id reference, in page order |
| Expeditions.PageBatches | dustcollector.go:641-654 | the fresh nuggets and batches of the deduplicated volume ids that cover what the lookups resolve |
| Expeditions.BatchesResolve | dustcollector.go:652-654 | the batches cover all deduplicated ids for a positive size, and only the remainder for a negative one |
| Expeditions.FoundInBatchesFlatten | dustcollector.go:655-661 | looking batches up one after another finds what a lookup of their concatenation finds |
| Expeditions.Expedition.constructor | dustcollector.go:812-875 | the expedition holds New's settings and empty lists |
| Expeditions.Expedition.DescribeVolumes | dustcollector.go:618-635 | realVols grows by the looked-up ids whose volume exists, in order |
| Expeditions.Expedition.DescribeBatches | dustcollector.go:655-661 | realVols grows by the existing volumes of all batches, in batch order |
| Expeditions.Expedition.BuildNuggets | dustcollector.go:638-671 | one page's fresh nuggets are marked against all volumes found so far and appended |
| Expeditions.Expedition.HandlePage | dustcollector.go:571-599 | the callback builds the filtered page when it is non-empty and asks for more exactly while pageNum <= maxPages |
| Expeditions.Expedition.GetSnapshots | dustcollector.go:557-610 | the intake over the pages the paginator hands over |
| Expeditions.Expedition.PopulateNuggets | dustcollector.go:150-182 | every nugget is correlated with every image in order, and the count is unchanged |
| Expeditions.Expedition.AddBar | dustcollector.go:192-212 | the bars and nuggets after one addBar call |
| Expeditions.Expedition.AddBars | dustcollector.go:186-190 | from no bars, the grouping holds afterwards, and the nuggets' snapshots are unchanged |
| Expeditions.Expedition.SetRecommendations | dustcollector.go:224-311 | the plan lists are the deduplicated gathered lists, the message lists them, and the counters and totalGbs are those of the plan |
| Expeditions.Expedition.Collect | dustcollector.go:686-691 | the nuggets and found volumes are the intake over the handled pages with every nugget then correlated; the snapshots are the earlier ones plus the filtered snapshots of the handled pages; each appended nugget has HasVol only for a volume found before or existing, and, with a positive batch size, for every such volume |
| Expeditions.Expedition.Organize | dustcollector.go:699-700 | the bars and nuggets are those of adding every nugget in order to no bars, so the nuggets are grouped and linked with their snapshots kept; the four lists are the deduplicated plan gathered from the bars, and the message lists them |
| Expeditions.Expedition.Start | dustcollector.go:675-702 | a date parse error is returned with nothing else changed; otherwise the found volumes are those of the intake, the bars and nuggets are those of grouping the collected nuggets, the four lists are the deduplicated plan gathered from them, and the message lists the plan |
| Expeditions.CorrelateAllKeeps | dustcollector.go:150-182 | correlating all nuggets keeps each one's snapshot, HasVol and parent, and appends the images mapping its snapshot to its AMI ids |
| Expeditions.CollectedKeeps | dustcollector.go:686-691 | after collecting, the nuggets held before are correlated in place, the snapshots are the earlier ones plus the handled pages' snapshots before the cutoff, and every volume found exists or was found before |
| Expeditions.CollectedMarks | dustcollector.go:643-691 | each nugget appended by collecting belongs to no bar, has as AMI ids the images mapping its snapshot, and has HasVol only for a volume found before or existing, and, with a positive batch size, for every such volume |

## Left out

- AWS calls are not modelled: `describeLaunchTemplates`, `describeLaunchConfigurations`, `describeImagesOwnedByThisAccount`, `describeASGs`, `imageSharedTo`, `snapshotSharedTo`, `getAccountNumber` and the EC2 paging call. Their results are inputs, and their errors are not modelled.
- The volume lookup's call is not modelled. `volumeExists` stands in for it, and the errors the code ignores are not modelled.
- Goroutines, the `queue` channel, `monitorQueue` and the wait groups are not modelled. Pages are processed one after another in order. The unsynchronised appends to `realVols` and `Nuggets` are a data race in the source, and only their sequential effect is modelled.
- `totalSavings`, `EbsSnapRate` and its default are floating point. Only the integer `totalGbs` is modelled.
- `totalGbs` is an `int64`, and its overflow is not modelled.
- `time.Parse` and `Format("2006-01-02")` are not modelled. Dates are integers, and parsing and formatting are function parameters.
- The prose lines of the recommendations message are not modelled: the `fmt.Sprintf` introduction, counts and savings sentence, and the fixed caveat paragraph (dustcollector.go:258-263). Only the list section, with its headers and tabbed entries, is modelled.
- Logging, `setDefaultLogger`, and the `RequestLimitExceeded` check in `Start` are not modelled.
- `ExportRecommendations`, `ExportBars` and `ExportNuggets` are file writing and are not modelled. `GetRecommendations` only returns the field.
- `pageSize` is stored but has no effect on the model.
- The session and the logger are opaque handles. Only whether they are present matters.
- `New` sets the `EbsSnapRate` default; it is floating point and not modelled.
- `doc.go` is package documentation only and is not part of this model.
- Expeditions.Expedition.Start: requires a fresh expedition with no bars. It assumes the AWS steps between the date filter and grouping succeed.
- Expeditions.Expedition.Start: requires a non-zero volume batch size whenever some page has snapshots before the cutoff. Go divides by it in that case, and a zero would panic.
- Expeditions.Expedition.SetRecommendations: returns `countHasVol`, `countAsgShare` and `totalGbs`. Go only prints them.
- Expeditions.Expedition.Collect and Expeditions.Expedition.Organize split `Start` in two, with no Go counterpart of their own.
- Expeditions.Expedition.AddBars: its grouping guarantee is stated only when it starts from no bars, which is how `Start` calls it.
- Lookups.LtsWithSnapImage, Lookups.LcsWithSnapImage and Rows.NuggetDump: the nil dereferences that panic in Go are not modelled. These are a launch template mapping without an EBS part (dustcollector-common.go:149), a template or configuration without an image id (dustcollector-common.go:145, 167), and a snapshot without a volume size or description (dustcollector.go:532-533). The model treats these fields as always present.
- Slices.MakeBatches: requires a non-zero batch size. Go's division by zero panics.

=== FILE: config.dfy ===
/**
 * Construction of an Expedition from an ExpeditionInput: every field the
 * caller left unset gets its default, and a missing session or logger is
 * reported as an error. The AWS session and the logger are opaque handles
 * here; only whether they are present matters.
 */
module Config {
  import opened Wrappers

  const DefaultDateFilter := "2019-01-01"
  const DefaultMaxPages := 25
  const DefaultPageSize := 500
  const DefaultVolumeBatchSize := 30
  const DefaultOutfileRecommendations := "out-summary.txt"
  const DefaultOutfileNuggets := "out-nuggets.csv"
  const DefaultOutfileBars := "out-bars.csv"

  const SessionRequired := "Session is required"
  const LoggerRequired := "log15 logger is required"

  /** The caller's configuration; `None` stands for a nil pointer. */
  datatype ExpeditionInput = ExpeditionInput(
    session: Option<nat>,
    maxPages: Option<int>,
    pageSize: Option<int>,
    volumeBatchSize: Option<int>,
    dateFilter: Option<string>,
    outfileRecommendations: Option<string>,
    outfileNuggets: Option<string>,
    outfileBars: Option<string>,
    logger: Option<nat>)

  /** The configuration an Expedition keeps; fields never set hold Go's zero values. */
  datatype Settings = Settings(
    dateFilter: string,
    session: Option<nat>,
    maxPages: int,
    pageSize: int,
    volBatchSize: int,
    outfileRecommendations: string,
    outfileNuggets: string,
    outfileBars: string,
    logger: Option<nat>)

  const ZeroSettings := Settings("", None, 0, 0, 0, "", "", "", None)

  /**
   * What `New` hands back: the input with its defaults filled in (the Go code
   * writes them through the input's pointers), the Expedition's settings, and
   * the error, if any.
   */
  datatype Outcome = Outcome(input: ExpeditionInput, settings: Settings, err: Option<string>)

  function OrElse<T>(o: Option<T>, d: T): T
  {
    if o.Some? then o.value else d
  }

  /** Fills in every default that comes after the session check. */
  function WithDefaults(input: ExpeditionInput): ExpeditionInput
  {
    input.(maxPages := Some(OrElse(input.maxPages, DefaultMaxPages)),
           pageSize := Some(OrElse(input.pageSize, DefaultPageSize)),
           volumeBatchSize := Some(OrElse(input.volumeBatchSize, DefaultVolumeBatchSize)),
           outfileRecommendations := Some(OrElse(input.outfileRecommendations, DefaultOutfileRecommendations)),
           outfileNuggets := Some(OrElse(input.outfileNuggets, DefaultOutfileNuggets)),
           outfileBars := Some(OrElse(input.outfileBars, DefaultOutfileBars)))
  }

  /** Applies the defaults in the order the constructor does, stopping at the first missing requirement. */
  function New(input: ExpeditionInput): (r: Outcome)
    // the date filter is defaulted before anything can fail
    ensures r.input.dateFilter == Some(OrElse(input.dateFilter, DefaultDateFilter))
    ensures r.settings.dateFilter == r.input.dateFilter.value
    // a missing session stops construction with nothing else set
    ensures input.session.None? ==>
      r.err == Some(SessionRequired) && r.settings == ZeroSettings.(dateFilter := r.settings.dateFilter)
      && r.input == input.(dateFilter := r.input.dateFilter)
    // with a session, every numeric and file default is applied
    ensures input.session.Some? ==>
      r.settings.session == input.session
      && r.settings.maxPages == OrElse(input.maxPages, DefaultMaxPages)
      && r.settings.pageSize == OrElse(input.pageSize, DefaultPageSize)
      && r.settings.volBatchSize == OrElse(input.volumeBatchSize, DefaultVolumeBatchSize)
      && r.settings.outfileRecommendations == OrElse(input.outfileRecommendations, DefaultOutfileRecommendations)
      && r.settings.outfileNuggets == OrElse(input.outfileNuggets, DefaultOutfileNuggets)
      && r.settings.outfileBars == OrElse(input.outfileBars, DefaultOutfileBars)
      && r.input.maxPages.Some? && r.input.pageSize.Some? && r.input.volumeBatchSize.Some?
    // and the same defaults are written back into the caller's input, which keeps its session and logger
    ensures input.session.Some? ==>
      r.input == input.(dateFilter := r.input.dateFilter,
                        maxPages := Some(OrElse(input.maxPages, DefaultMaxPages)),
                        pageSize := Some(OrElse(input.pageSize, DefaultPageSize)),
                        volumeBatchSize := Some(OrElse(input.volumeBatchSize, DefaultVolumeBatchSize)),
                        outfileRecommendations := Some(OrElse(input.outfileRecommendations, DefaultOutfileRecommendations)),
                        outfileNuggets := Some(OrElse(input.outfileNuggets, DefaultOutfileNuggets)),
                        outfileBars := Some(OrElse(input.outfileBars, DefaultOutfileBars)))
    // then the logger is the last requirement
    ensures input.session.Some? ==>
      (r.err == Some(LoggerRequired) <==> input.logger.None?)
      && (r.err.None? <==> input.logger.Some?)
      && r.settings.logger == input.logger
    // an error is reported exactly when a requirement is missing
    ensures r.err.None? <==> input.session.Some? && input.logger.Some?
  {
    var df := OrElse(input.dateFilter, DefaultDateFilter);
    var in1 := input.(dateFilter := Some(df));
    var s1 := ZeroSettings.(dateFilter := df);
    if input.session.None? then
      Outcome(in1, s1, Some(SessionRequired))
    else
      var in2 := WithDefaults(in1);
      var s2 := s1.(session := input.session,
                    maxPages := in2.maxPages.value,
                    pageSize := in2.pageSize.value,
                    volBatchSize := in2.volumeBatchSize.value,
                    outfileRecommendations := in2.outfileRecommendations.value,
                    outfileNuggets := in2.outfileNuggets.value,
                    outfileBars := in2.outfileBars.value);
      if input.logger.None? then
        Outcome(in2, s2, Some(LoggerRequired))
      else
        Outcome(in2, s2.(logger := input.logger), None)
  }
}

=== FILE: correlation.dfy ===
/**
 The correlation loop of populateNuggets (dustcollector.go): for every
 image, every nugget and every block-device mapping of the image that is an
 EBS mapping of the nugget's snapshot, the image id is appended to the
 nugget's AMI ids and its launch configurations, launch templates,
 autoscaling groups and sharing accounts are looked up again and replace
 the previous ones.
 */
module Correlation {
  import opened Wrappers
  import opened Resources
  import opened Records
  import opened Lookups

  /** The provider records fetched once per run and only read afterwards. */
  datatype ResourceIndex = ResourceIndex(
    lcs: seq<LaunchConfiguration>,
    lts: seq<LaunchTemplateVersion>,
    asgs: seq<AutoScalingGroup>)

  /**
   The ASGs a nugget ends with after the two reassignment loops: each loop
   overwrites the list, so the lookup for the last launch template wins,
   else the one for the last launch configuration; with neither, the
   previous list stays.
   */
  function AsgsAfterMatch(previous: seq<string>, lcNames: seq<string>, ltNames: seq<string>,
                          asgs: seq<AutoScalingGroup>): seq<string>
  {
    if |ltNames| > 0 then AsgsUsingLt(ltNames[|ltNames| - 1], asgs)
    else if |lcNames| > 0 then AsgsUsingLc(lcNames[|lcNames| - 1], asgs)
    else previous
  }

  /** A nugget after one (image, mapping) match. */
  function OnMatch(n: Nugget, imageId: string, index: ResourceIndex, sharedWith: string -> seq<string>): Nugget
  {
    var lcNames := LcReferences(index.lcs, n.snap.snapshotId, imageId);
    var ltNames := LtReferences(index.lts, n.snap.snapshotId, imageId);
    n.(amiIds := n.amiIds + [imageId],
       lcs := lcNames,
       lts := ltNames,
       asgs := AsgsAfterMatch(n.asgs, lcNames, ltNames, index.asgs),
       amiSharedWith := sharedWith(imageId))
  }

  /** A nugget after the mappings `bdms` of image `imageId` have been scanned. */
  function CorrelateMappings(n: Nugget, imageId: string, bdms: seq<BlockDeviceMapping>,
                             index: ResourceIndex, sharedWith: string -> seq<string>): Nugget
  {
    if |bdms| == 0 then n
    else
      var m := CorrelateMappings(n, imageId, bdms[..|bdms| - 1], index, sharedWith);
      if MapsSnapshot(bdms[|bdms| - 1], m.snap.snapshotId) then OnMatch(m, imageId, index, sharedWith) else m
  }

  /** A nugget after all `images` have been scanned, in order. */
  function Correlate(n: Nugget, images: seq<Image>, index: ResourceIndex, sharedWith: string -> seq<string>): Nugget
  {
    if |images| == 0 then n
    else
      var img := images[|images| - 1];
      CorrelateMappings(Correlate(n, images[..|images| - 1], index, sharedWith),
                        img.imageId, img.blockDeviceMappings, index, sharedWith)
  }

  /**
   The body run on each match: append the image id, look up launch
   configurations and templates for (snapshot, image), reassign the ASGs
   once per configuration and then once per template, and take the image's
   sharing accounts.
   */
  method ApplyMatch(snap: Nugget, imageId: string, index: ResourceIndex, sharedWith: string -> seq<string>)
    returns (r: Nugget)
    ensures r == OnMatch(snap, imageId, index, sharedWith)
  {
    var lcNames := LcsWithSnapImage(index.lcs, snap.snap.snapshotId, imageId);
    var ltNames := LtsWithSnapImage(index.lts, snap.snap.snapshotId, imageId);
    var asgNames := snap.asgs;
    for k := 0 to |lcNames|
      invariant asgNames == if k == 0 then snap.asgs else AsgsUsingLc(lcNames[k - 1], index.asgs)
    {
      var _, found := LcInAsgs(lcNames[k], index.asgs);
      asgNames := found;
    }
    assert asgNames == AsgsAfterMatch(snap.asgs, lcNames, [], index.asgs);
    for k := 0 to |ltNames|
      invariant asgNames == if k == 0 then AsgsAfterMatch(snap.asgs, lcNames, [], index.asgs)
                            else AsgsUsingLt(ltNames[k - 1], index.asgs)
    {
      var _, found := LtInAsgs(ltNames[k], index.asgs);
      asgNames := found;
    }
    assert asgNames == AsgsAfterMatch(snap.asgs, lcNames, ltNames, index.asgs);
    r := snap.(amiIds := snap.amiIds + [imageId], lcs := lcNames, lts := ltNames,
               asgs := asgNames, amiSharedWith := sharedWith(imageId));
  }

  /**
   The innermost loop of populateNuggets for one (image, nugget) pair: each
   block-device mapping with an EBS snapshot id equal to the nugget's
   snapshot id runs the match body.
   */
  method MatchMappings(snap: Nugget, image: Image, index: ResourceIndex, sharedWith: string -> seq<string>)
    returns (r: Nugget)
    ensures r == CorrelateMappings(snap, image.imageId, image.blockDeviceMappings, index, sharedWith)
  {
    var bdms := image.blockDeviceMappings;
    r := snap;
    for m := 0 to |bdms|
      invariant r == CorrelateMappings(snap, image.imageId, bdms[..m], index, sharedWith)
    {
      assert bdms[..m + 1][..m] == bdms[..m];
      var bdm := bdms[m];
      if bdm.ebs.Some? {
        if bdm.ebs.value.snapshotId.Some? {
          if r.snap.snapshotId == bdm.ebs.value.snapshotId.value {
            r := ApplyMatch(r, image.imageId, index, sharedWith);
          }
        }
      }
    }
    assert bdms[..|bdms|] == bdms;
  }

  /** Every nugget of `ns` after all `images` have been scanned. */
  function CorrelateAll(ns: seq<Nugget>, images: seq<Image>, index: ResourceIndex,
                        sharedWith: string -> seq<string>): seq<Nugget>
  {
    seq(|ns|, k requires 0 <= k < |ns| => Correlate(ns[k], images, index, sharedWith))
  }

  /** Correlation never touches a nugget's snapshot, HasVol or parent bar. */
  lemma {:induction false} CorrelateMappingsKeeps(n: Nugget, imageId: string, bdms: seq<BlockDeviceMapping>,
                                                  index: ResourceIndex, sharedWith: string -> seq<string>)
    ensures var m := CorrelateMappings(n, imageId, bdms, index, sharedWith);
      m.snap == n.snap && m.hasVol == n.hasVol && m.parentBar == n.parentBar
  {
    if |bdms| > 0 {
      CorrelateMappingsKeeps(n, imageId, bdms[..|bdms| - 1], index, sharedWith);
    }
  }

  /** Correlation never touches a nugget's snapshot, HasVol or parent bar. */
  lemma {:induction false} CorrelateKeeps(n: Nugget, images: seq<Image>, index: ResourceIndex, sharedWith: string -> seq<string>)
    ensures var m := Correlate(n, images, index, sharedWith);
      m.snap == n.snap && m.hasVol == n.hasVol && m.parentBar == n.parentBar
  {
    if |images| > 0 {
      var img := images[|images| - 1];
      CorrelateKeeps(n, images[..|images| - 1], index, sharedWith);
      CorrelateMappingsKeeps(Correlate(n, images[..|images| - 1], index, sharedWith),
                             img.imageId, img.blockDeviceMappings, index, sharedWith);
    }
  }

  /** The image ids appended for snapshot `snapshotId`: each image once per mapping of that snapshot. */
  function MatchedImageIds(images: seq<Image>, snapshotId: string): seq<string>
  {
    if |images| == 0 then []
    else
      var img := images[|images| - 1];
      MatchedImageIds(images[..|images| - 1], snapshotId) + Repeat(img.imageId, MappingHits(img.blockDeviceMappings, snapshotId))
  }

  lemma {:induction false} CorrelateMappingsAmiIds(n: Nugget, imageId: string, bdms: seq<BlockDeviceMapping>,
                                                   index: ResourceIndex, sharedWith: string -> seq<string>)
    ensures CorrelateMappings(n, imageId, bdms, index, sharedWith).amiIds
         == n.amiIds + Repeat(imageId, MappingHits(bdms, n.snap.snapshotId))
  {
    if |bdms| > 0 {
      var p := bdms[..|bdms| - 1];
      CorrelateMappingsAmiIds(n, imageId, p, index, sharedWith);
      CorrelateMappingsKeeps(n, imageId, p, index, sharedWith);
    }
  }

  /**
   Correlation appends to a nugget's AMI ids every image that maps its
   snapshot, once per such mapping and in image order; an image mapping the
   snapshot twice appears twice.
   */
  lemma {:induction false} CorrelateAmiIds(n: Nugget, images: seq<Image>, index: ResourceIndex, sharedWith: string -> seq<string>)
    ensures Correlate(n, images, index, sharedWith).amiIds == n.amiIds + MatchedImageIds(images, n.snap.snapshotId)
  {
    if |images| > 0 {
      var p := images[..|images| - 1];
      var img := images[|images| - 1];
      CorrelateAmiIds(n, p, index, sharedWith);
      CorrelateKeeps(n, p, index, sharedWith);
      CorrelateMappingsAmiIds(Correlate(n, p, index, sharedWith), img.imageId, img.blockDeviceMappings, index, sharedWith);
    }
  }

  lemma {:induction false} CorrelateMappingsMiss(n: Nugget, imageId: string, bdms: seq<BlockDeviceMapping>,
                                                 index: ResourceIndex, sharedWith: string -> seq<string>)
    requires MappingHits(bdms, n.snap.snapshotId) == 0
    ensures CorrelateMappings(n, imageId, bdms, index, sharedWith) == n
  {
    if |bdms| > 0 {
      CorrelateMappingsMiss(n, imageId, bdms[..|bdms| - 1], index, sharedWith);
    }
  }

  /** A nugget whose snapshot no image maps comes out of correlation unchanged. */
  lemma {:induction false} CorrelateUnmatched(n: Nugget, images: seq<Image>, index: ResourceIndex, sharedWith: string -> seq<string>)
    requires forall k :: 0 <= k < |images| ==> MappingHits(images[k].blockDeviceMappings, n.snap.snapshotId) == 0
    ensures Correlate(n, images, index, sharedWith) == n
  {
    if |images| > 0 {
      var p := images[..|images| - 1];
      CorrelateUnmatched(n, p, index, sharedWith);
      CorrelateMappingsMiss(n, images[|images| - 1].imageId, images[|images| - 1].blockDeviceMappings, index, sharedWith);
    }
  }

  /** What the last match of an image leaves in a nugget, whatever the nugget held before. */
  ghost predicate LeftByMatch(m: Nugget, snapshotId: string, imageId: string, index: ResourceIndex,
                              sharedWith: string -> seq<string>)
  {
    var lcNames := LcReferences(index.lcs, snapshotId, imageId);
    var ltNames := LtReferences(index.lts, snapshotId, imageId);
    && m.lcs == lcNames
    && m.lts == ltNames
    && m.amiSharedWith == sharedWith(imageId)
    && (lcNames != [] || ltNames != [] ==> m.asgs == AsgsAfterMatch([], lcNames, ltNames, index.asgs))
  }

  lemma {:induction false} CorrelateMappingsHit(n: Nugget, imageId: string, bdms: seq<BlockDeviceMapping>,
                                                index: ResourceIndex, sharedWith: string -> seq<string>)
    requires MappingHits(bdms, n.snap.snapshotId) > 0
    ensures LeftByMatch(CorrelateMappings(n, imageId, bdms, index, sharedWith), n.snap.snapshotId, imageId, index, sharedWith)
  {
    var p := bdms[..|bdms| - 1];
    CorrelateMappingsKeeps(n, imageId, p, index, sharedWith);
    if !MapsSnapshot(bdms[|bdms| - 1], n.snap.snapshotId) {
      CorrelateMappingsHit(n, imageId, p, index, sharedWith);
    }
  }

  /**
   LCs, LTs, AMISharedWith (and ASGs, when some configuration or template
   was found) are overwritten on every match, so after correlation they are
   those of the last image that maps the snapshot; earlier matches leave
   only their image ids behind.
   */
  lemma {:induction false} CorrelateLastMatchWins(n: Nugget, images: seq<Image>, k: nat, index: ResourceIndex,
                                                  sharedWith: string -> seq<string>)
    requires k < |images| && MappingHits(images[k].blockDeviceMappings, n.snap.snapshotId) > 0
    requires forall j :: k < j < |images| ==> MappingHits(images[j].blockDeviceMappings, n.snap.snapshotId) == 0
    ensures LeftByMatch(Correlate(n, images, index, sharedWith), n.snap.snapshotId, images[k].imageId, index, sharedWith)
  {
    var p := images[..|images| - 1];
    var img := images[|images| - 1];
    var before := Correlate(n, p, index, sharedWith);
    CorrelateKeeps(n, p, index, sharedWith);
    if k == |images| - 1 {
      CorrelateMappingsHit(before, img.imageId, img.blockDeviceMappings, index, sharedWith);
    } else {
      CorrelateLastMatchWins(n, p, k, index, sharedWith);
      CorrelateMappingsMiss(before, img.imageId, img.blockDeviceMappings, index, sharedWith);
    }
  }
}

=== FILE: expedition.dfy ===
/**
 The Expedition of dustcollector.go: the object that collects snapshots,
 correlates them with images, launch configurations, launch templates and
 autoscaling groups, groups them by volume and writes the deletion plan.
 Each AWS call is replaced by an input: the pages of snapshots, a function
 telling whether a volume exists, the images and other resources already
 described, and a function giving the accounts an image is shared with.
 */
module Expeditions {
  import opened Wrappers
  import opened Resources
  import opened Records
  import opened Slices
  import opened Lookups
  import opened Intake
  import opened Grouping
  import opened Correlation
  import opened Plan
  import opened Config

  class Expedition {
    /** The snapshots grouped by volume; member and parent links are indices. */
    var Bars: seq<Bar>
    /** The snapshots with their associations. */
    var Nuggets: seq<Nugget>
    var LtsToDelete: seq<string>
    var LcsToDelete: seq<string>
    var AmiToDelete: seq<string>
    var SnapToDelete: seq<string>
    /** The ids of the volumes the volume lookups found, in the order found. */
    var realVols: seq<string>
    /** The list part of the recommendations message. */
    var recommendations: seq<string>
    /** The parsed date filter; snapshots started at or after it are ignored. */
    var cutoffDate: int

    const dateFilter: string
    const maxPages: int
    const pageSize: int
    const volBatchSize: int

    /** The Expedition `New` returns, holding the settings it computed. */
    constructor (settings: Settings)
      ensures dateFilter == settings.dateFilter && maxPages == settings.maxPages
      ensures pageSize == settings.pageSize && volBatchSize == settings.volBatchSize
      ensures Bars == [] && Nuggets == [] && realVols == [] && recommendations == []
      ensures LtsToDelete == [] && LcsToDelete == [] && AmiToDelete == [] && SnapToDelete == []
      ensures cutoffDate == 0
    {
      dateFilter := settings.dateFilter;
      maxPages := settings.maxPages;
      pageSize := settings.pageSize;
      volBatchSize := settings.volBatchSize;
      Bars := [];
      Nuggets := [];
      LtsToDelete := [];
      LcsToDelete := [];
      AmiToDelete := [];
      SnapToDelete := [];
      realVols := [];
      recommendations := [];
      cutoffDate := 0;
    }

    // -------------------------------------------------------------------------
    // Snapshot intake

    /** Looks each volume up on its own and records the ones that exist. */
    method DescribeVolumes(inVols: seq<StrRef>, volumeExists: string -> bool)
      modifies this`realVols
      ensures realVols == old(realVols) + ExistingVolumes(Values(inVols), volumeExists)
    {
      for i := 0 to |inVols|
        invariant realVols == old(realVols) + ExistingVolumes(Values(inVols[..i]), volumeExists)
      {
        var vol := inVols[i];
        LookupStep(inVols, i, volumeExists);
        if volumeExists(vol.value) {
          ConcatAssoc(old(realVols), ExistingVolumes(Values(inVols[..i]), volumeExists), [vol.value]);
          realVols := realVols + [vol.value];
        }
      }
      assert inVols[..|inVols|] == inVols;
    }

    /** The batch loop of buildNuggets: each batch's volumes are looked up, batch after batch. */
    method DescribeBatches(batchVols: seq<seq<StrRef>>, volumeExists: string -> bool)
      modifies this`realVols
      ensures realVols == old(realVols) + ExistingVolumes(Values(Flatten(batchVols)), volumeExists)
    {
      for b := 0 to |batchVols|
        invariant realVols == old(realVols) + FoundInBatches(batchVols[..b], volumeExists)
      {
        BatchStep(batchVols, b, volumeExists);
        ConcatAssoc(old(realVols), FoundInBatches(batchVols[..b], volumeExists),
                    ExistingVolumes(Values(batchVols[b]), volumeExists));
        DescribeVolumes(batchVols[b], volumeExists);
      }
      assert batchVols[..|batchVols|] == batchVols;
      FoundInBatchesFlatten(batchVols, volumeExists);
    }

    /**
     buildNuggets for one filtered page: one fresh nugget per snapshot, the
     distinct volume ids looked up batch by batch, then every new nugget
     marked against all volumes found so far and appended.
     */
    method BuildNuggets(page: seq<Snapshot>, volumeExists: string -> bool)
      requires volBatchSize != 0
      modifies this`realVols, this`Nuggets
      ensures Harvest(Nuggets, realVols) == BuildPage(old(Harvest(Nuggets, realVols)), page, volBatchSize, volumeExists)
    {
      var nuggets, batchVols := PageBatches(page, volBatchSize);
      DescribeBatches(batchVols, volumeExists);
      var marked := MarkHasVol(nuggets, realVols);
      assert marked == MarkAll(nuggets, realVols);
      Nuggets := Nuggets + marked;
    }

    /**
     The page callback of getSnapshots: filter the page by date, build
     nuggets from it when anything is left, and ask for the next page while
     `pageNum <= maxPages`.
     */
    method HandlePage(page: seq<Snapshot>, pageNum: int, volumeExists: string -> bool) returns (more: bool)
      requires volBatchSize != 0 || BeforeCutoff(page, cutoffDate) == []
      modifies this`realVols, this`Nuggets
      ensures more == (pageNum <= maxPages)
      ensures Harvest(Nuggets, realVols) ==
        if BeforeCutoff(page, cutoffDate) != []
        then BuildPage(old(Harvest(Nuggets, realVols)), BeforeCutoff(page, cutoffDate), volBatchSize, volumeExists)
        else old(Harvest(Nuggets, realVols))
    {
      var filteredSnapshots := FilterSnapshots(page, cutoffDate);
      if |filteredSnapshots| > 0 {
        BuildNuggets(filteredSnapshots, volumeExists);
      }
      more := pageNum <= maxPages;
    }

    /**
     getSnapshots over the pages the service would return: the paginator
     hands over pages in order until the callback asks to stop or the pages
     run out, and each handed-over page is processed as it comes.
     */
    method GetSnapshots(pages: seq<seq<Snapshot>>, volumeExists: string -> bool)
      requires volBatchSize != 0 ||
        forall k :: 0 <= k < PagesProcessed(|pages|, maxPages) ==> BeforeCutoff(pages[k], cutoffDate) == []
      modifies this`realVols, this`Nuggets
      ensures Harvest(Nuggets, realVols) ==
        Harvested(old(Harvest(Nuggets, realVols)), pages[..PagesProcessed(|pages|, maxPages)],
                  cutoffDate, volBatchSize, volumeExists)
    {
      var pageNum := 0;
      var more := true;
      while pageNum < |pages| && more
        invariant pageNum <= PagesProcessed(|pages|, maxPages)
        invariant more <==> pageNum == 0 || pageNum <= maxPages
        invariant !more ==> pageNum == PagesProcessed(|pages|, maxPages)
        invariant Harvest(Nuggets, realVols) ==
          Harvested(old(Harvest(Nuggets, realVols)), pages[..pageNum], cutoffDate, volBatchSize, volumeExists)
        decreases |pages| - pageNum
      {
        HarvestedStep(old(Harvest(Nuggets, realVols)), pages, pageNum, cutoffDate, volBatchSize, volumeExists);
        PagesProcessedStep(|pages|, maxPages, pageNum);
        var page := pages[pageNum];
        pageNum := pageNum + 1;
        more := HandlePage(page, pageNum, volumeExists);
      }
    }

    // -------------------------------------------------------------------------
    // Correlation

    /**
     populateNuggets once the resources are described: for every image, for
     every nugget, every mapping of the image that carries the nugget's
     snapshot runs the match body.
     */
    method PopulateNuggets(images: seq<Image>, index: ResourceIndex, sharedWith: string -> seq<string>)
      modifies this`Nuggets
      ensures |Nuggets| == |old(Nuggets)|
      ensures forall k :: 0 <= k < |Nuggets| ==> Nuggets[k] == Correlate(old(Nuggets)[k], images, index, sharedWith)
    {
      for ii := 0 to |images|
        invariant |Nuggets| == |old(Nuggets)|
        invariant forall k :: 0 <= k < |Nuggets| ==> Nuggets[k] == Correlate(old(Nuggets)[k], images[..ii], index, sharedWith)
      {
        assert images[..ii + 1][..ii] == images[..ii];
        var image := images[ii];
        for k := 0 to |Nuggets|
          invariant |Nuggets| == |old(Nuggets)|
          invariant forall j :: 0 <= j < k ==> Nuggets[j] == Correlate(old(Nuggets)[j], images[..ii + 1], index, sharedWith)
          invariant forall j :: k <= j < |Nuggets| ==> Nuggets[j] == Correlate(old(Nuggets)[j], images[..ii], index, sharedWith)
        {
          var snap := MatchMappings(Nuggets[k], image, index, sharedWith);
          Nuggets := Nuggets[k := snap];
        }
      }
      assert images[..|images|] == images;
    }

    // -------------------------------------------------------------------------
    // Grouping

    /**
     addBar for the nugget at index `i`: the nugget joins every bar of its
     volume and points at the last of them; with no such bar a new one is
     made, taking the nugget's HasVol.
     */
    method AddBar(i: nat)
      requires i < |Nuggets|
      modifies this`Bars, this`Nuggets
      ensures (Bars, Nuggets) == AddBarStep(old(Bars), old(Nuggets), i)
    {
      var v := Nuggets[i].snap.volumeId;
      var found := false;
      for b := 0 to |Bars|
        invariant |Bars| == |old(Bars)|
        invariant forall c :: 0 <= c < b ==> Bars[c] == WithNugget(old(Bars)[c], v, i)
        invariant forall c :: b <= c < |Bars| ==> Bars[c] == old(Bars)[c]
        invariant found <==> LastBarWith(old(Bars)[..b], v).Some?
        invariant Nuggets == old(Nuggets)[i := old(Nuggets)[i].(parentBar :=
                    if found then LastBarWith(old(Bars)[..b], v) else old(Nuggets)[i].parentBar)]
      {
        assert old(Bars)[..b + 1][..b] == old(Bars)[..b];
        if Bars[b].volumeId == v {
          Nuggets := Nuggets[i := Nuggets[i].(parentBar := Some(b))];
          Bars := Bars[b := Bars[b].(nuggets := Bars[b].nuggets + [i])];
          found := true;
        }
      }
      assert old(Bars)[..|old(Bars)|] == old(Bars);
      if !found {
        assert Bars == old(Bars);
        var bar := Bar(v, [i], Nuggets[i].hasVol);
        Nuggets := Nuggets[i := Nuggets[i].(parentBar := Some(|Bars|))];
        Bars := Bars + [bar];
      } else {
        ghost var r := AddBarStep(old(Bars), old(Nuggets), i);
        assert forall c :: 0 <= c < |Bars| ==> r.0[c] == Bars[c];
        assert r.0 == Bars;
        assert r.1 == Nuggets;
      }
    }

    /** addBars: addBar for every nugget in order; from no bars this groups all nuggets by volume. */
    method AddBars()
      modifies this`Bars, this`Nuggets
      ensures (Bars, Nuggets) == AddAll(old(Bars), old(Nuggets), |old(Nuggets)|)
      ensures old(Bars) == [] ==> Grouped(Nuggets, Bars)
      ensures Snaps(Nuggets) == Snaps(old(Nuggets))
    {
      ghost var bars0, nuggets0 := Bars, Nuggets;
      for i := 0 to |Nuggets|
        invariant |Nuggets| == |nuggets0|
        invariant (Bars, Nuggets) == AddAll(bars0, nuggets0, i)
      {
        AddBar(i);
        AddAllNext(bars0, nuggets0, i, Bars, Nuggets);
      }
      if bars0 == [] {
        AddAllGroups(nuggets0, |nuggets0|);
      }
      AddAllSnaps(bars0, nuggets0, |nuggets0|);
    }

    // -------------------------------------------------------------------------
    // Deletion plan

    /** The four plan lists as they stand. */
    function Lists(): PlanLists
      reads this
    {
      PlanLists(LtsToDelete, LcsToDelete, AmiToDelete, SnapToDelete)
    }

    /**
     setRecommendations: classify the nuggets bar by bar, deduplicate the
     four plan lists, write them out under their headers and add up the
     sizes of the bars to delete. The counters and the GB total, which the
     source only prints, are returned.
     */
    method SetRecommendations() returns (countHasVol: nat, countAsgShare: nat, totalGbs: int)
      requires Linked(Nuggets, Bars)
      modifies this`LtsToDelete, this`LcsToDelete, this`AmiToDelete, this`SnapToDelete, this`recommendations
      ensures Derefable(Nuggets, Bars, Parents(Nuggets, PlanEntries(Nuggets, Bars)))
      ensures var p := Gathered(old(Lists()), Nuggets, PlanEntries(Nuggets, Bars));
        Lists() == PlanLists(Dedupe(p.lts), Dedupe(p.lcs), Dedupe(p.amis), Dedupe(p.snaps))
      ensures recommendations == PlanLines(Lists())
      ensures countHasVol == CountHasVol(Bars)
      ensures countAsgShare == CountSpared(Nuggets, Bars)
      ensures totalGbs == TotalGbs(Nuggets, Bars, Parents(Nuggets, PlanEntries(Nuggets, Bars)))
    {
      var plan, barsToDelete;
      plan, countHasVol, countAsgShare, barsToDelete := Classify(Nuggets, Bars, Lists());
      var lts := DedupeString(plan.lts);
      var lcs := DedupeString(plan.lcs);
      var amis := DedupeString(plan.amis);
      var snaps := DedupeString(plan.snaps);
      var msg := WritePlan(PlanLists(lts, lcs, amis, snaps));
      LinkedDerefable(Nuggets, Bars);
      totalGbs := SumGbs(Nuggets, Bars, barsToDelete);
      LtsToDelete, LcsToDelete, AmiToDelete, SnapToDelete := lts, lcs, amis, snaps;
      recommendations := msg;
    }

    // -------------------------------------------------------------------------
    // The whole expedition

    /**
     The part of Start that gathers data: take in the snapshot pages, then
     correlate the nuggets. The new state is the harvest of the processed
     pages with every nugget correlated; the appended nuggets are the
     snapshots of those pages that started before the cutoff, in order, and
     their HasVol is set only for a volume found before or existing, and,
     with a positive batch size, for every such volume.
     */
    method Collect(pages: seq<seq<Snapshot>>, volumeExists: string -> bool,
                   images: seq<Image>, index: ResourceIndex, sharedWith: string -> seq<string>)
      requires volBatchSize != 0 ||
        forall k :: 0 <= k < PagesProcessed(|pages|, maxPages) ==> BeforeCutoff(pages[k], cutoffDate) == []
      modifies this`realVols, this`Nuggets
      ensures Harvest(Nuggets, realVols) ==
        Collected(old(Harvest(Nuggets, realVols)), pages[..PagesProcessed(|pages|, maxPages)], cutoffDate,
                  volBatchSize, volumeExists, images, index, sharedWith)
      ensures Snaps(Nuggets) == Snaps(old(Nuggets)) + BeforeCutoff(Flatten(pages[..PagesProcessed(|pages|, maxPages)]), cutoffDate)
      ensures forall k :: |old(Nuggets)| <= k < |Nuggets| ==>
        && MarkedSoundly(Nuggets[k], old(realVols), volumeExists)
        && (volBatchSize > 0 ==> MarkedFully(Nuggets[k], old(realVols), volumeExists))
    {
      ghost var h0 := Harvest(Nuggets, realVols);
      assert h0.nuggets == old(Nuggets);
      ghost var processed := pages[..PagesProcessed(|pages|, maxPages)];
      GetSnapshots(pages, volumeExists);
      ghost var taken := Nuggets;
      PopulateNuggets(images, index, sharedWith);
      assert Nuggets == CorrelateAll(taken, images, index, sharedWith);
      CollectedKeeps(h0, processed, cutoffDate, volBatchSize, volumeExists, images, index, sharedWith);
      CollectedMarks(h0, processed, cutoffDate, volBatchSize, volumeExists, images, index, sharedWith);
    }

    /**
     Start: parse the date filter, stopping with its error; otherwise take
     in the snapshot pages, correlate the nuggets, group them into bars and
     write the plan. `parseDate` returns the parsed time and the parse error,
     as the time library does.
     */
    method Start(parseDate: string -> (int, Option<string>), pages: seq<seq<Snapshot>>, volumeExists: string -> bool,
                 images: seq<Image>, index: ResourceIndex, sharedWith: string -> seq<string>)
      returns (err: Option<string>)
      requires Bars == []
      requires parseDate(dateFilter).1.None? ==>
        volBatchSize != 0 ||
        forall k :: 0 <= k < PagesProcessed(|pages|, maxPages) ==> BeforeCutoff(pages[k], parseDate(dateFilter).0) == []
      modifies this
      ensures err == parseDate(dateFilter).1
      ensures cutoffDate == parseDate(dateFilter).0
      ensures err.Some? ==>
        Nuggets == old(Nuggets) && Bars == old(Bars) && realVols == old(realVols)
        && Lists() == old(Lists()) && recommendations == old(recommendations)
      ensures err.None? ==>
        var c := Collected(old(Harvest(Nuggets, realVols)), pages[..PagesProcessed(|pages|, maxPages)], cutoffDate,
                           volBatchSize, volumeExists, images, index, sharedWith);
        && realVols == c.realVols
        && (Bars, Nuggets) == AddAll([], c.nuggets, |c.nuggets|)
      ensures err.None? ==>
        var found := BeforeCutoff(Flatten(pages[..PagesProcessed(|pages|, maxPages)]), cutoffDate);
        && Grouped(Nuggets, Bars)
        && Linked(Nuggets, Bars)
        && Snaps(Nuggets) == Snaps(old(Nuggets)) + found
      ensures err.None? ==>
        var p := Gathered(old(Lists()), Nuggets, PlanEntries(Nuggets, Bars));
        && Lists() == PlanLists(Dedupe(p.lts), Dedupe(p.lcs), Dedupe(p.amis), Dedupe(p.snaps))
        && recommendations == PlanLines(Lists())
    {
      var parsed := parseDate(dateFilter);
      cutoffDate, err := parsed.0, parsed.1;
      if err.None? {
        ghost var lists0 := Lists();
        assert lists0 == old(Lists());
        Collect(pages, volumeExists, images, index, sharedWith);
        assert Lists() == lists0;
        ghost var c := Harvest(Nuggets, realVols);
        Organize();
        assert realVols == c.realVols;
        assert (Bars, Nuggets) == AddAll([], c.nuggets, |c.nuggets|);
      } else {
        assert Lists() == old(Lists());
      }
    }

    /**
     The rest of Start once the nuggets are collected: group the nuggets into
     bars, then classify them and write the plan.
     */
    method Organize()
      requires Bars == []
      modifies this`Nuggets, this`Bars
      modifies this`LtsToDelete, this`LcsToDelete, this`AmiToDelete, this`SnapToDelete, this`recommendations
      ensures (Bars, Nuggets) == AddAll([], old(Nuggets), |old(Nuggets)|)
      ensures Grouped(Nuggets, Bars) && Linked(Nuggets, Bars)
      ensures Snaps(Nuggets) == Snaps(old(Nuggets))
      ensures var p := Gathered(old(Lists()), Nuggets, PlanEntries(Nuggets, Bars));
        Lists() == PlanLists(Dedupe(p.lts), Dedupe(p.lcs), Dedupe(p.amis), Dedupe(p.snaps))
      ensures recommendations == PlanLines(Lists())
    {
      AddBars();
      GroupedLinked(Nuggets, Bars);
      var _, _, _ := SetRecommendations();
    }
  }

  /**
   What Collect leaves from the harvest `h`: the intake over the processed
   pages, with every nugget then correlated.
   */
  function Collected(h: Harvest, processed: seq<seq<Snapshot>>, cutoffDate: int, batchSize: int,
                     volumeExists: string -> bool, images: seq<Image>, index: ResourceIndex,
                     sharedWith: string -> seq<string>): Harvest
    requires Buildable(processed, cutoffDate, batchSize)
  {
    var r := Harvested(h, processed, cutoffDate, batchSize, volumeExists);
    Harvest(CorrelateAll(r.nuggets, images, index, sharedWith), r.realVols)
  }

  /** Correlating a harvested nugget keeps its snapshot, HasVol and parent bar, and appends the images mapping it. */
  lemma CorrelateAllKeeps(ns: seq<Nugget>, images: seq<Image>, index: ResourceIndex, sharedWith: string -> seq<string>)
    ensures Snaps(CorrelateAll(ns, images, index, sharedWith)) == Snaps(ns)
    ensures forall k :: 0 <= k < |ns| ==>
      var m := CorrelateAll(ns, images, index, sharedWith)[k];
      && m.snap == ns[k].snap && m.hasVol == ns[k].hasVol && m.parentBar == ns[k].parentBar
      && m.amiIds == ns[k].amiIds + MatchedImageIds(images, ns[k].snap.snapshotId)
  {
    var c := CorrelateAll(ns, images, index, sharedWith);
    forall k | 0 <= k < |ns|
      ensures c[k].snap == ns[k].snap && c[k].hasVol == ns[k].hasVol && c[k].parentBar == ns[k].parentBar
      ensures c[k].amiIds == ns[k].amiIds + MatchedImageIds(images, ns[k].snap.snapshotId)
    {
      CorrelateKeeps(ns[k], images, index, sharedWith);
      CorrelateAmiIds(ns[k], images, index, sharedWith);
    }
    assert forall k :: 0 <= k < |ns| ==> Snaps(c)[k] == Snaps(ns)[k];
  }

  /**
   After Collect the nuggets held before are correlated in place, one
   nugget is appended per snapshot of the processed pages started before
   the cutoff, in order, and every volume found exists or was found before.
   */
  lemma CollectedKeeps(h: Harvest, processed: seq<seq<Snapshot>>, cutoffDate: int, batchSize: int,
                       volumeExists: string -> bool, images: seq<Image>, index: ResourceIndex,
                       sharedWith: string -> seq<string>)
    requires Buildable(processed, cutoffDate, batchSize)
    ensures var c := Collected(h, processed, cutoffDate, batchSize, volumeExists, images, index, sharedWith);
      && Snaps(c.nuggets) == Snaps(h.nuggets) + BeforeCutoff(Flatten(processed), cutoffDate)
      && (forall k :: 0 <= k < |h.nuggets| ==> c.nuggets[k] == Correlate(h.nuggets[k], images, index, sharedWith))
      && (forall v :: v in c.realVols ==> v in h.realVols || volumeExists(v))
  {
    var r := Harvested(h, processed, cutoffDate, batchSize, volumeExists);
    var c := Collected(h, processed, cutoffDate, batchSize, volumeExists, images, index, sharedWith);
    HarvestedSnaps(h, processed, cutoffDate, batchSize, volumeExists);
    HarvestedMarks(h, processed, cutoffDate, batchSize, volumeExists);
    CorrelateAllKeeps(r.nuggets, images, index, sharedWith);
    assert Snaps(c.nuggets) == Snaps(r.nuggets);
    forall k | 0 <= k < |h.nuggets|
      ensures c.nuggets[k] == Correlate(h.nuggets[k], images, index, sharedWith)
    {
      assert r.nuggets[k] == r.nuggets[..|h.nuggets|][k];
    }
  }

  /**
   Each nugget Collect appends belongs to no bar, carries the images mapping
   its snapshot as AMI ids, and has HasVol set only for a volume found
   before or existing, and, with a positive batch size, for every such
   volume.
   */
  lemma CollectedMarks(h: Harvest, processed: seq<seq<Snapshot>>, cutoffDate: int, batchSize: int,
                       volumeExists: string -> bool, images: seq<Image>, index: ResourceIndex,
                       sharedWith: string -> seq<string>)
    requires Buildable(processed, cutoffDate, batchSize)
    ensures var c := Collected(h, processed, cutoffDate, batchSize, volumeExists, images, index, sharedWith);
      forall k :: |h.nuggets| <= k < |c.nuggets| ==>
        && c.nuggets[k].parentBar == None
        && c.nuggets[k].amiIds == MatchedImageIds(images, c.nuggets[k].snap.snapshotId)
        && MarkedSoundly(c.nuggets[k], h.realVols, volumeExists)
        && (batchSize > 0 ==> MarkedFully(c.nuggets[k], h.realVols, volumeExists))
  {
    var r := Harvested(h, processed, cutoffDate, batchSize, volumeExists);
    var c := Collected(h, processed, cutoffDate, batchSize, volumeExists, images, index, sharedWith);
    HarvestedMarks(h, processed, cutoffDate, batchSize, volumeExists);
    forall k | |h.nuggets| <= k < |c.nuggets|
      ensures c.nuggets[k].parentBar == None
      ensures c.nuggets[k].amiIds == MatchedImageIds(images, c.nuggets[k].snap.snapshotId)
      ensures MarkedSoundly(c.nuggets[k], h.realVols, volumeExists)
      ensures batchSize > 0 ==> MarkedFully(c.nuggets[k], h.realVols, volumeExists)
    {
      var n := r.nuggets[k];
      assert c.nuggets[k] == Correlate(n, images, index, sharedWith);
      assert Fresh(n) && MarkedSoundly(n, h.realVols, volumeExists);
      assert batchSize > 0 ==> MarkedFully(n, h.realVols, volumeExists);
      CorrelateKeeps(n, images, index, sharedWith);
      CorrelateAmiIds(n, images, index, sharedWith);
    }
  }

  /** The volumes found when the batches are looked up one after another. */
  function FoundInBatches(batches: seq<seq<StrRef>>, volumeExists: string -> bool): seq<string>
  {
    if |batches| == 0 then []
    else FoundInBatches(batches[..|batches| - 1], volumeExists) + ExistingVolumes(Values(batches[|batches| - 1]), volumeExists)
  }

  lemma LookupStep(inVols: seq<StrRef>, i: nat, volumeExists: string -> bool)
    requires i < |inVols|
    ensures ExistingVolumes(Values(inVols[..i + 1]), volumeExists)
         == ExistingVolumes(Values(inVols[..i]), volumeExists)
            + (if volumeExists(inVols[i].value) then [inVols[i].value] else [])
  {
    assert Values(inVols[..i + 1])[..i] == Values(inVols[..i]);
  }

  lemma BatchStep(batches: seq<seq<StrRef>>, b: nat, volumeExists: string -> bool)
    requires b < |batches|
    ensures FoundInBatches(batches[..b + 1], volumeExists)
         == FoundInBatches(batches[..b], volumeExists) + ExistingVolumes(Values(batches[b]), volumeExists)
  {
    assert batches[..b + 1][..b] == batches[..b];
  }

  /** Looking the batches up one by one finds what looking up their concatenation finds. */
  lemma {:induction false} FoundInBatchesFlatten(batches: seq<seq<StrRef>>, volumeExists: string -> bool)
    ensures FoundInBatches(batches, volumeExists) == ExistingVolumes(Values(Flatten(batches)), volumeExists)
  {
    if |batches| > 0 {
      var p := batches[..|batches| - 1];
      var last := batches[|batches| - 1];
      FoundInBatchesFlatten(p, volumeExists);
      ValuesAppend(Flatten(p), last);
      ExistingVolumesAppend(Values(Flatten(p)), Values(last), volumeExists);
    }
  }

  /**
   The first loop of buildNuggets: a fresh nugget per snapshot of the page
   and a pointer to each snapshot's volume id, both in page order.
   */
  method PageNuggets(page: seq<Snapshot>) returns (nuggets: seq<Nugget>, inVols: seq<StrRef>)
    ensures nuggets == NewNuggets(page)
    ensures Values(inVols) == VolumeIds(nuggets)
  {
    nuggets := [];
    inVols := [];
    for i := 0 to |page|
      invariant |nuggets| == |inVols| == i
      invariant forall k :: 0 <= k < i ==> nuggets[k] == NewNugget(page[k])
      invariant forall k :: 0 <= k < i ==> inVols[k].value == page[k].volumeId
    {
      var vol := new StrRef(page[i].volumeId);
      inVols := inVols + [vol];
      nuggets := nuggets + [NewNugget(page[i])];
    }
    assert nuggets == NewNuggets(page);
    assert Values(inVols) == VolumeIds(nuggets);
  }

  /**
   The part of buildNuggets before the lookups: the page's fresh nuggets,
   and their volume ids deduplicated and cut into batches.
   */
  method PageBatches(page: seq<Snapshot>, batchSize: int) returns (nuggets: seq<Nugget>, batchVols: seq<seq<StrRef>>)
    requires batchSize != 0
    ensures nuggets == NewNuggets(page)
    ensures Values(Flatten(batchVols)) == Resolved(Dedupe(VolumeIds(NewNuggets(page))), batchSize)
  {
    var inVols;
    nuggets, inVols := PageNuggets(page);
    var inVolsD := DedupeStringPointer(inVols);
    DedupeRefsValues(inVols);
    batchVols := MakeBatches(inVolsD, batchSize);
    BatchesResolve(inVolsD, batchVols, batchSize);
  }

  /**
   The ids the batches of the deduplicated volume pointers hand to the
   lookups: all of them for a positive batch size, only the trailing
   remainder for a negative one.
   */
  lemma BatchesResolve(refs: seq<StrRef>, batches: seq<seq<StrRef>>, batchSize: int)
    requires batchSize != 0
    requires batchSize > 0 ==> Flatten(batches) == refs
    requires batchSize < 0 ==>
      var rem := |refs| % Abs(batchSize);
      rem <= |refs| && batches == if rem > 0 then [refs[|refs| - rem..]] else []
    ensures Values(Flatten(batches)) == Resolved(Values(refs), batchSize)
  {
    if batchSize < 0 {
      var rem := |refs| % Abs(batchSize);
      if rem > 0 {
        assert Flatten(batches) == Flatten(batches[..0]) + refs[|refs| - rem..];
      }
    }
  }
}

=== FILE: grouping.dfy ===
/**
 Grouping of nuggets into bars by volume id (addBar / addBars of
 dustcollector.go): the step one call of addBar performs, and the grouping
 invariant that addBars establishes over the whole list of nuggets.
 */
module Grouping {
  import opened Wrappers
  import opened Records
  import opened Slices

  /** The indices, ascending, at which `v` occurs in `ids`. */
  function IndicesOf(ids: seq<string>, v: string): (r: seq<nat>)
    ensures forall k :: 0 <= k < |r| ==> r[k] < |ids| && ids[r[k]] == v
  {
    if |ids| == 0 then []
    else IndicesOf(ids[..|ids| - 1], v) + (if ids[|ids| - 1] == v then [|ids| - 1] else [])
  }

  /** `IndicesOf` lists every occurrence of `v`, in strictly increasing order. */
  lemma {:induction false} IndicesOfExactly(ids: seq<string>, v: string)
    ensures forall i :: i in IndicesOf(ids, v) <==> 0 <= i < |ids| && ids[i] == v
    ensures forall x, y :: 0 <= x < y < |IndicesOf(ids, v)| ==> IndicesOf(ids, v)[x] < IndicesOf(ids, v)[y]
  {
    if |ids| > 0 {
      IndicesOfExactly(ids[..|ids| - 1], v);
    }
  }

  lemma IndicesOfAppend(ids: seq<string>, v: string, w: string)
    ensures IndicesOf(ids + [v], w) == IndicesOf(ids, w) + (if v == w then [|ids|] else [])
  {
    assert (ids + [v])[..|ids|] == ids;
  }

  /** The index of the last bar of volume `v`, None when there is none. */
  function LastBarWith(bars: seq<Bar>, v: string): (r: Option<nat>)
    ensures r.None? <==> forall b :: 0 <= b < |bars| ==> bars[b].volumeId != v
    ensures r.Some? ==> r.value < |bars| && bars[r.value].volumeId == v
    ensures r.Some? ==> forall b :: r.value < b < |bars| ==> bars[b].volumeId != v
  {
    if |bars| == 0 then None
    else if bars[|bars| - 1].volumeId == v then Some(|bars| - 1)
    else LastBarWith(bars[..|bars| - 1], v)
  }

  /** A bar after addBar has looked at it for a nugget of volume `v` at index `i`. */
  function WithNugget(bar: Bar, v: string, i: nat): Bar
  {
    if bar.volumeId == v then bar.(nuggets := bar.nuggets + [i]) else bar
  }

  /**
   The effect of one addBar call for the nugget at index `i`: every bar of
   the nugget's volume gets the nugget appended and the nugget's parent
   becomes the last such bar; when there is none, a new bar holding only
   the nugget is appended, taking the nugget's HasVol.
   */
  function AddBarStep(bars: seq<Bar>, nuggets: seq<Nugget>, i: nat): (r: (seq<Bar>, seq<Nugget>))
    requires i < |nuggets|
    ensures |r.0| >= |bars| && |r.1| == |nuggets|
  {
    var v := nuggets[i].snap.volumeId;
    match LastBarWith(bars, v)
    case Some(b) =>
      (seq(|bars|, k requires 0 <= k < |bars| => WithNugget(bars[k], v, i)),
       nuggets[i := nuggets[i].(parentBar := Some(b))])
    case None =>
      (bars + [Bar(v, [i], nuggets[i].hasVol)],
       nuggets[i := nuggets[i].(parentBar := Some(|bars|))])
  }

  /** addBar keeps the volume and HasVol of every existing bar and changes only the nugget's parent. */
  lemma AddBarStepKeeps(bars: seq<Bar>, nuggets: seq<Nugget>, i: nat)
    requires i < |nuggets|
    ensures var r := AddBarStep(bars, nuggets, i);
      && (forall b :: 0 <= b < |bars| ==> r.0[b].volumeId == bars[b].volumeId && r.0[b].hasVol == bars[b].hasVol)
      && (forall k :: 0 <= k < |nuggets| ==> r.1[k] == nuggets[k].(parentBar := r.1[k].parentBar))
  {
  }

  /**
   The bars group the nuggets whose volume ids are `ids` (a prefix of the
   nuggets' volume ids): one bar per distinct volume id, in order of first
   occurrence; each bar lists the indices of the nuggets of its volume in
   increasing order and carries the HasVol of its first nugget.
   */
  ghost predicate BarsFollow(nuggets: seq<Nugget>, ids: seq<string>, bars: seq<Bar>)
  {
    && |ids| <= |nuggets|
    && |bars| == |Dedupe(ids)|
    && (forall b :: 0 <= b < |bars| ==>
          && bars[b].volumeId == Dedupe(ids)[b]
          && bars[b].nuggets == IndicesOf(ids, bars[b].volumeId)
          && |bars[b].nuggets| > 0
          && bars[b].hasVol == nuggets[bars[b].nuggets[0]].hasVol)
  }

  /** Each of the first `n` nuggets points at a bar of its own volume. */
  ghost predicate ParentsSet(nuggets: seq<Nugget>, n: nat, bars: seq<Bar>)
  {
    && n <= |nuggets|
    && forall i :: 0 <= i < n ==>
         && nuggets[i].parentBar.Some?
         && nuggets[i].parentBar.value < |bars|
         && bars[nuggets[i].parentBar.value].volumeId == nuggets[i].snap.volumeId
  }

  /** The bars group the first `n` nuggets by volume id, and those nuggets point back at them. */
  ghost predicate GroupedUpTo(nuggets: seq<Nugget>, n: nat, bars: seq<Bar>)
  {
    && n <= |nuggets|
    && BarsFollow(nuggets, VolumeIds(nuggets)[..n], bars)
    && ParentsSet(nuggets, n, bars)
  }

  /** The grouping of all nuggets, as addBars leaves it. */
  ghost predicate Grouped(nuggets: seq<Nugget>, bars: seq<Bar>)
  {
    GroupedUpTo(nuggets, |nuggets|, bars)
  }

  lemma NoBarsGroupNothing(nuggets: seq<Nugget>)
    ensures GroupedUpTo(nuggets, 0, [])
  {
    assert VolumeIds(nuggets)[..0] == [];
  }

  lemma {:induction false} IndicesOfAbsent(ids: seq<string>, v: string)
    requires v !in ids
    ensures IndicesOf(ids, v) == []
  {
    if |ids| > 0 {
      IndicesOfAbsent(ids[..|ids| - 1], v);
    }
  }

  lemma StepKeepsParents(bars: seq<Bar>, nuggets: seq<Nugget>, n: nat)
    requires ParentsSet(nuggets, n, bars) && n < |nuggets|
    ensures ParentsSet(AddBarStep(bars, nuggets, n).1, n + 1, AddBarStep(bars, nuggets, n).0)
  {
    var (bars', nuggets') := AddBarStep(bars, nuggets, n);
    assert |bars'| >= |bars|;
    assert forall b :: 0 <= b < |bars| ==> bars'[b].volumeId == bars[b].volumeId;
    assert forall i :: 0 <= i < n ==> nuggets'[i] == nuggets[i];
  }

  lemma StepIntoExistingBar(bars: seq<Bar>, nuggets: seq<Nugget>, n: nat, ids: seq<string>, b0: nat)
    requires BarsFollow(nuggets, ids, bars) && |ids| == n < |nuggets|
    requires LastBarWith(bars, nuggets[n].snap.volumeId) == Some(b0)
    ensures BarsFollow(AddBarStep(bars, nuggets, n).1, ids + [nuggets[n].snap.volumeId], AddBarStep(bars, nuggets, n).0)
  {
    var v := nuggets[n].snap.volumeId;
    var order := Dedupe(ids);
    var (bars', nuggets') := AddBarStep(bars, nuggets, n);
    var ids' := ids + [v];
    assert ids'[..n] == ids;
    assert v in order by { assert order[b0] == v; }
    assert Dedupe(ids') == order;
    forall b | 0 <= b < |bars'|
      ensures bars'[b].volumeId == order[b]
      ensures bars'[b].nuggets == IndicesOf(ids', bars'[b].volumeId)
      ensures |bars'[b].nuggets| > 0
      ensures bars'[b].hasVol == nuggets'[bars'[b].nuggets[0]].hasVol
    {
      assert bars'[b] == WithNugget(bars[b], v, n);
      IndicesOfAppend(ids, v, bars[b].volumeId);
      assert bars[b].nuggets[0] < n;
    }
  }

  lemma StepIntoNewBar(bars: seq<Bar>, nuggets: seq<Nugget>, n: nat, ids: seq<string>)
    requires BarsFollow(nuggets, ids, bars) && |ids| == n < |nuggets|
    requires LastBarWith(bars, nuggets[n].snap.volumeId) == None
    ensures BarsFollow(AddBarStep(bars, nuggets, n).1, ids + [nuggets[n].snap.volumeId], AddBarStep(bars, nuggets, n).0)
  {
    var v := nuggets[n].snap.volumeId;
    var order := Dedupe(ids);
    var (bars', nuggets') := AddBarStep(bars, nuggets, n);
    var ids' := ids + [v];
    assert ids'[..n] == ids;
    assert v !in order;
    DedupeSameElements(ids);
    assert Dedupe(ids') == order + [v];
    IndicesOfAbsent(ids, v);
    forall b | 0 <= b < |bars'|
      ensures bars'[b].volumeId == (order + [v])[b]
      ensures bars'[b].nuggets == IndicesOf(ids', bars'[b].volumeId)
      ensures |bars'[b].nuggets| > 0
      ensures bars'[b].hasVol == nuggets'[bars'[b].nuggets[0]].hasVol
    {
      IndicesOfAppend(ids, v, bars'[b].volumeId);
      if b < |bars| {
        assert bars'[b] == bars[b];
        assert bars[b].nuggets[0] < n;
      }
    }
  }

  /** One addBar step extends the grouping from the first `n` nuggets to the first `n + 1`. */
  lemma AddBarStepGroups(bars: seq<Bar>, nuggets: seq<Nugget>, n: nat)
    requires GroupedUpTo(nuggets, n, bars) && n < |nuggets|
    ensures GroupedUpTo(AddBarStep(bars, nuggets, n).1, n + 1, AddBarStep(bars, nuggets, n).0)
  {
    var v := nuggets[n].snap.volumeId;
    var ids := VolumeIds(nuggets)[..n];
    var nuggets' := AddBarStep(bars, nuggets, n).1;
    assert VolumeIds(nuggets') == VolumeIds(nuggets);
    assert VolumeIds(nuggets')[..n + 1] == ids + [v];
    StepKeepsParents(bars, nuggets, n);
    match LastBarWith(bars, v)
    case Some(b0) => StepIntoExistingBar(bars, nuggets, n, ids, b0);
    case None => StepIntoNewBar(bars, nuggets, n, ids);
  }

  /** After grouping, no two bars have the same volume id. */
  lemma GroupedBarsDistinct(nuggets: seq<Nugget>, bars: seq<Bar>)
    requires Grouped(nuggets, bars)
    ensures forall a, b :: 0 <= a < b < |bars| ==> bars[a].volumeId != bars[b].volumeId
  {
    DedupeNoDuplicates(VolumeIds(nuggets)[..|nuggets|]);
  }

  /**
   After grouping, every nugget lies in exactly one bar: the bar of its
   volume id, which is also its parent bar.
   */
  lemma GroupedMembership(nuggets: seq<Nugget>, bars: seq<Bar>)
    requires Grouped(nuggets, bars)
    ensures forall i :: 0 <= i < |nuggets| ==>
      && nuggets[i].parentBar.Some?
      && nuggets[i].parentBar.value < |bars|
      && bars[nuggets[i].parentBar.value].volumeId == nuggets[i].snap.volumeId
      && forall b :: 0 <= b < |bars| ==> (i in bars[b].nuggets <==> b == nuggets[i].parentBar.value)
  {
    var ids := VolumeIds(nuggets)[..|nuggets|];
    GroupedBarsDistinct(nuggets, bars);
    forall i, b | 0 <= i < |nuggets| && 0 <= b < |bars|
      ensures i in bars[b].nuggets <==> b == nuggets[i].parentBar.value
    {
      IndicesOfExactly(ids, bars[b].volumeId);
    }
  }

  /** The first index at which `v` occurs is the first entry of `IndicesOf`. */
  lemma FirstOccurrenceLeads(ids: seq<string>, v: string)
    requires v in ids
    ensures |IndicesOf(ids, v)| > 0 && IndicesOf(ids, v)[0] == FirstIndex(ids, v)
  {
    IndicesOfExactly(ids, v);
    var f := FirstIndex(ids, v);
    assert f in IndicesOf(ids, v);
    var k :| 0 <= k < |IndicesOf(ids, v)| && IndicesOf(ids, v)[k] == f;
    var i0 := IndicesOf(ids, v)[0];
    assert i0 <= f;
    assert ids[i0] == v;
    assert forall j :: 0 <= j < f ==> ids[..f][j] == ids[j];
  }

  /**
   After grouping, members of a bar follow the order of the nuggets, and
   bars follow the order in which their volume ids first occur, which is
   the position of each bar's first member.
   */
  lemma GroupedOrder(nuggets: seq<Nugget>, bars: seq<Bar>)
    requires Grouped(nuggets, bars)
    ensures forall b :: 0 <= b < |bars| ==>
      forall x, y :: 0 <= x < y < |bars[b].nuggets| ==> bars[b].nuggets[x] < bars[b].nuggets[y]
    ensures forall b :: 0 <= b < |bars| ==>
      bars[b].nuggets[0] == FirstIndex(VolumeIds(nuggets), bars[b].volumeId)
    ensures forall a, b :: 0 <= a < b < |bars| ==> bars[a].nuggets[0] < bars[b].nuggets[0]
  {
    var ids := VolumeIds(nuggets)[..|nuggets|];
    assert ids == VolumeIds(nuggets);
    DedupeFirstOccurrenceOrder(ids);
    forall b | 0 <= b < |bars|
      ensures forall x, y :: 0 <= x < y < |bars[b].nuggets| ==> bars[b].nuggets[x] < bars[b].nuggets[y]
      ensures bars[b].nuggets[0] == FirstIndex(ids, bars[b].volumeId)
    {
      IndicesOfExactly(ids, bars[b].volumeId);
      assert bars[b].volumeId in Dedupe(ids);
      FirstOccurrenceLeads(ids, bars[b].volumeId);
    }
  }

  /** The number of members over all bars. */
  function TotalMembers(bars: seq<Bar>): nat
  {
    if |bars| == 0 then 0 else TotalMembers(bars[..|bars| - 1]) + |bars[|bars| - 1].nuggets|
  }

  /** The number of occurrences in `ids` of the values listed in `ws`. */
  function SumIndices(ids: seq<string>, ws: seq<string>): nat
  {
    if |ws| == 0 then 0 else SumIndices(ids, ws[..|ws| - 1]) + |IndicesOf(ids, ws[|ws| - 1])|
  }

  lemma {:induction false} SumIndicesAppend(ids: seq<string>, v: string, ws: seq<string>)
    requires NoDuplicates(ws)
    ensures SumIndices(ids + [v], ws) == SumIndices(ids, ws) + (if v in ws then 1 else 0)
  {
    if |ws| > 0 {
      var p := ws[..|ws| - 1];
      SumIndicesAppend(ids, v, p);
      IndicesOfAppend(ids, v, ws[|ws| - 1]);
      assert ws == p + [ws[|ws| - 1]];
    }
  }

  lemma {:induction false} SumIndicesDedupe(ids: seq<string>)
    ensures SumIndices(ids, Dedupe(ids)) == |ids|
  {
    if |ids| > 0 {
      var p := ids[..|ids| - 1];
      var v := ids[|ids| - 1];
      var d := Dedupe(p);
      SumIndicesDedupe(p);
      DedupeNoDuplicates(p);
      DedupeSameElements(p);
      assert ids == p + [v];
      SumIndicesAppend(p, v, d);
      if v in d {
        assert Dedupe(ids) == d;
      } else {
        assert Dedupe(ids) == d + [v];
        IndicesOfAppend(p, v, v);
        IndicesOfAbsent(p, v);
        assert (d + [v])[..|d|] == d;
        assert SumIndices(ids, d + [v]) == SumIndices(ids, d) + |IndicesOf(ids, v)|;
      }
    }
  }

  /** Bars whose member counts are those of the values in `order` hold that many members in all. */
  lemma {:induction false} TotalMembersUpTo(ids: seq<string>, order: seq<string>, bars: seq<Bar>, k: nat)
    requires k <= |bars| && k <= |order|
    requires forall b :: 0 <= b < k ==> |bars[b].nuggets| == |IndicesOf(ids, order[b])|
    ensures TotalMembers(bars[..k]) == SumIndices(ids, order[..k])
  {
    if k > 0 {
      TotalMembersUpTo(ids, order, bars, k - 1);
      assert bars[..k][..k - 1] == bars[..k - 1];
      assert order[..k][..k - 1] == order[..k - 1];
    }
  }

  /** After grouping, the bars hold as many members as there are nuggets. */
  lemma GroupedTotal(nuggets: seq<Nugget>, bars: seq<Bar>)
    requires Grouped(nuggets, bars)
    ensures TotalMembers(bars) == |nuggets|
  {
    var ids := VolumeIds(nuggets)[..|nuggets|];
    TotalMembersUpTo(ids, Dedupe(ids), bars, |bars|);
    SumIndicesDedupe(ids);
    assert bars[..|bars|] == bars;
    assert Dedupe(ids)[..|bars|] == Dedupe(ids);
  }

  /** The bars and nuggets after addBar has run for the first `n` nuggets, in order. */
  function AddAll(bars: seq<Bar>, nuggets: seq<Nugget>, n: nat): (r: (seq<Bar>, seq<Nugget>))
    requires n <= |nuggets|
    ensures |r.1| == |nuggets|
  {
    if n == 0 then (bars, nuggets)
    else
      var p := AddAll(bars, nuggets, n - 1);
      AddBarStep(p.0, p.1, n - 1)
  }

  lemma AddAllNext(bars: seq<Bar>, nuggets: seq<Nugget>, i: nat, nextBars: seq<Bar>, nextNuggets: seq<Nugget>)
    requires i < |nuggets|
    requires (nextBars, nextNuggets) == AddBarStep(AddAll(bars, nuggets, i).0, AddAll(bars, nuggets, i).1, i)
    ensures (nextBars, nextNuggets) == AddAll(bars, nuggets, i + 1)
  {
  }

  /** Grouping changes nothing in a nugget but its parent bar. */
  lemma {:induction false} AddAllKeeps(bars: seq<Bar>, nuggets: seq<Nugget>, n: nat)
    requires n <= |nuggets|
    ensures var r := AddAll(bars, nuggets, n).1;
      forall k :: 0 <= k < |nuggets| ==> r[k] == nuggets[k].(parentBar := r[k].parentBar)
  {
    if n > 0 {
      AddAllKeeps(bars, nuggets, n - 1);
      var p := AddAll(bars, nuggets, n - 1);
      AddBarStepKeeps(p.0, p.1, n - 1);
    }
  }

  /** Grouping keeps every nugget's snapshot. */
  lemma AddAllSnaps(bars: seq<Bar>, nuggets: seq<Nugget>, n: nat)
    requires n <= |nuggets|
    ensures Snaps(AddAll(bars, nuggets, n).1) == Snaps(nuggets)
  {
    AddAllKeeps(bars, nuggets, n);
    SnapsKept(nuggets, AddAll(bars, nuggets, n).1);
  }

  /** Running addBar for every nugget, starting from no bars, groups all the nuggets. */
  lemma {:induction false} AddAllGroups(nuggets: seq<Nugget>, n: nat)
    requires n <= |nuggets|
    ensures GroupedUpTo(AddAll([], nuggets, n).1, n, AddAll([], nuggets, n).0)
  {
    if n == 0 {
      NoBarsGroupNothing(nuggets);
    } else {
      AddAllGroups(nuggets, n - 1);
      var p := AddAll([], nuggets, n - 1);
      AddBarStepGroups(p.0, p.1, n - 1);
    }
  }
}

=== FILE: intake.dfy ===
/**
 The snapshot intake of dustcollector.go (getSnapshots and buildNuggets)
 without its goroutines: the per-page date filter and page-stop rule, the
 volume-existence lookups, and the marking of each new nugget's HasVol.
 */
module Intake {
  import opened Resources
  import opened Records
  import opened Slices

  // ---------------------------------------------------------------------------
  // Per-page date filter

  /** The snapshots of a page started strictly before the cutoff, in page order. */
  function BeforeCutoff(page: seq<Snapshot>, cutoffDate: int): seq<Snapshot>
  {
    if |page| == 0 then []
    else
      var last := page[|page| - 1];
      BeforeCutoff(page[..|page| - 1], cutoffDate) + (if last.startTime < cutoffDate then [last] else [])
  }

  /** The filtering loop of the page callback in getSnapshots. */
  method FilterSnapshots(page: seq<Snapshot>, cutoffDate: int) returns (filteredSnapshots: seq<Snapshot>)
    ensures filteredSnapshots == BeforeCutoff(page, cutoffDate)
  {
    filteredSnapshots := [];
    for i := 0 to |page|
      invariant filteredSnapshots == BeforeCutoff(page[..i], cutoffDate)
    {
      assert page[..i + 1][..i] == page[..i];
      if page[i].startTime < cutoffDate {
        filteredSnapshots := filteredSnapshots + [page[i]];
      }
    }
    assert page[..|page|] == page;
  }

  /**
   The filter keeps every snapshot started before the cutoff, as often as
   it occurs in the page, and nothing else.
   */
  lemma {:induction false} BeforeCutoffKeeps(page: seq<Snapshot>, cutoffDate: int)
    ensures forall s :: multiset(BeforeCutoff(page, cutoffDate))[s] ==
                          if s.startTime < cutoffDate then multiset(page)[s] else 0
  {
    if |page| > 0 {
      var p := page[..|page| - 1];
      BeforeCutoffKeeps(p, cutoffDate);
      assert page == p + [page[|page| - 1]];
    }
  }

  /** Filtering a concatenation filters each part. */
  lemma {:induction false} BeforeCutoffAppend(a: seq<Snapshot>, b: seq<Snapshot>, cutoffDate: int)
    ensures BeforeCutoff(a + b, cutoffDate) == BeforeCutoff(a, cutoffDate) + BeforeCutoff(b, cutoffDate)
  {
    if |b| > 0 {
      var p := b[..|b| - 1];
      BeforeCutoffAppend(a, p, cutoffDate);
      assert (a + b)[..|a + b| - 1] == a + p;
    } else {
      assert a + b == a;
    }
  }

  // ---------------------------------------------------------------------------
  // Page-stop rule and the queue of filtered pages

  /**
   How many pages the paginator hands to the callback: it always hands over
   the first page, and after page `pageNum` it goes on only while the
   callback returned `pageNum <= maxPages`.
   */
  function PagesProcessed(available: nat, maxPages: int): (r: nat)
    ensures r <= available
    // the first page is always handed over
    ensures available > 0 ==> r >= 1
    // at most maxPages + 1 pages are ever handed over
    ensures maxPages >= 0 ==> r <= maxPages + 1
    // fewer pages than are available only when the callback stopped the paginator
    ensures r < available ==> r > maxPages
  {
    if available == 0 then 0
    else if maxPages + 1 < 1 then 1
    else if available < maxPages + 1 then available
    else maxPages + 1
  }

  /** The filtered pages that are enqueued: a page left empty by the filter is dropped. */
  function Enqueued(pages: seq<seq<Snapshot>>, cutoffDate: int): seq<seq<Snapshot>>
  {
    if |pages| == 0 then []
    else
      var f := BeforeCutoff(pages[|pages| - 1], cutoffDate);
      Enqueued(pages[..|pages| - 1], cutoffDate) + (if f != [] then [f] else [])
  }

  /**
   No enqueued page is empty, and the enqueued pages together hold exactly
   the snapshots of all pages that started before the cutoff, in order.
   */
  lemma {:induction false} EnqueuedPages(pages: seq<seq<Snapshot>>, cutoffDate: int)
    ensures forall k :: 0 <= k < |Enqueued(pages, cutoffDate)| ==> Enqueued(pages, cutoffDate)[k] != []
    ensures Flatten(Enqueued(pages, cutoffDate)) == BeforeCutoff(Flatten(pages), cutoffDate)
  {
    if |pages| > 0 {
      var p := pages[..|pages| - 1];
      var last := pages[|pages| - 1];
      EnqueuedPages(p, cutoffDate);
      BeforeCutoffAppend(Flatten(p), last, cutoffDate);
      assert Flatten(pages) == Flatten(p) + last;
      var f := BeforeCutoff(last, cutoffDate);
      var q := Enqueued(p, cutoffDate);
      if f != [] {
        FlattenSnoc(q, f);
        assert Enqueued(pages, cutoffDate) == q + [f];
      } else {
        assert Enqueued(pages, cutoffDate) == q;
      }
    }
  }

  // ---------------------------------------------------------------------------
  // Volume lookups and HasVol marking

  /** The ids, in order, for which the per-volume describe call returns a volume. */
  function ExistingVolumes(ids: seq<string>, volumeExists: string -> bool): seq<string>
  {
    if |ids| == 0 then []
    else
      var last := ids[|ids| - 1];
      ExistingVolumes(ids[..|ids| - 1], volumeExists) + (if volumeExists(last) then [last] else [])
  }

  lemma {:induction false} ExistingVolumesAppend(a: seq<string>, b: seq<string>, volumeExists: string -> bool)
    ensures ExistingVolumes(a + b, volumeExists) == ExistingVolumes(a, volumeExists) + ExistingVolumes(b, volumeExists)
  {
    if |b| > 0 {
      ExistingVolumesAppend(a, b[..|b| - 1], volumeExists);
      assert (a + b)[..|a + b| - 1] == a + b[..|b| - 1];
    } else {
      assert a + b == a;
    }
  }

  /** An id is found exactly when it is looked up and the volume exists. */
  lemma {:induction false} ExistingVolumesMembers(ids: seq<string>, volumeExists: string -> bool)
    ensures forall v :: v in ExistingVolumes(ids, volumeExists) <==> v in ids && volumeExists(v)
  {
    if |ids| > 0 {
      var p := ids[..|ids| - 1];
      ExistingVolumesMembers(p, volumeExists);
      assert ids == p + [ids[|ids| - 1]];
    }
  }

  /**
   The ids whose lookup is actually issued once the deduplicated ids are cut
   into batches of `batchSize`: all of them for a positive size; for a
   negative size only the trailing remainder batch, since Go's truncating
   division yields no full batch.
   */
  function Resolved(ids: seq<string>, batchSize: int): seq<string>
    requires batchSize != 0
  {
    if batchSize > 0 then ids
    else
      var rem := |ids| % Abs(batchSize);
      if rem > 0 then ids[|ids| - rem..] else []
  }

  /** The nuggets of a page before marking: one per snapshot, in page order. */
  function NewNuggets(page: seq<Snapshot>): (r: seq<Nugget>)
    ensures |r| == |page| && forall k :: 0 <= k < |page| ==> r[k] == NewNugget(page[k])
  {
    if |page| == 0 then [] else NewNuggets(page[..|page| - 1]) + [NewNugget(page[|page| - 1])]
  }

  /** A nugget after the marking loop: HasVol is set when some found volume has its volume id. */
  function Marked(n: Nugget, realVols: seq<string>): Nugget
  {
    n.(hasVol := n.hasVol || n.snap.volumeId in realVols)
  }

  /**
   The marking loop of buildNuggets: for each found volume, every nugget
   with that volume id gets HasVol set. No other field changes.
   */
  method MarkHasVol(nuggets: seq<Nugget>, realVols: seq<string>) returns (marked: seq<Nugget>)
    ensures |marked| == |nuggets|
    ensures forall k :: 0 <= k < |nuggets| ==> marked[k] == Marked(nuggets[k], realVols)
  {
    marked := nuggets;
    for i := 0 to |realVols|
      invariant |marked| == |nuggets|
      invariant forall k :: 0 <= k < |nuggets| ==> marked[k] == Marked(nuggets[k], realVols[..i])
    {
      var vol := realVols[i];
      assert realVols[..i + 1] == realVols[..i] + [vol];
      for j := 0 to |marked|
        invariant |marked| == |nuggets|
        invariant forall k :: 0 <= k < j ==> marked[k] == Marked(nuggets[k], realVols[..i + 1])
        invariant forall k :: j <= k < |nuggets| ==> marked[k] == Marked(nuggets[k], realVols[..i])
      {
        if vol == marked[j].snap.volumeId {
          marked := marked[j := marked[j].(hasVol := true)];
        }
      }
    }
    assert realVols[..|realVols|] == realVols;
  }

  // ---------------------------------------------------------------------------
  // The intake as a whole

  /** The two lists the intake grows: the nuggets and the ids of the volumes found. */
  datatype Harvest = Harvest(nuggets: seq<Nugget>, realVols: seq<string>)

  /** Every nugget of `ns` after the marking loop. */
  function MarkAll(ns: seq<Nugget>, realVols: seq<string>): seq<Nugget>
  {
    seq(|ns|, k requires 0 <= k < |ns| => Marked(ns[k], realVols))
  }

  /** The volume ids of a page whose lookup buildNuggets issues: its distinct ids, cut into batches. */
  function LookedUp(page: seq<Snapshot>, batchSize: int): seq<string>
    requires batchSize != 0
  {
    Resolved(Dedupe(VolumeIds(NewNuggets(page))), batchSize)
  }

  /** With a positive batch size every volume id of the page is looked up. */
  lemma LookedUpAll(page: seq<Snapshot>, batchSize: int)
    requires batchSize > 0
    ensures forall k :: 0 <= k < |page| ==> page[k].volumeId in LookedUp(page, batchSize)
  {
    var ids := VolumeIds(NewNuggets(page));
    DedupeSameElements(ids);
    forall k | 0 <= k < |page|
      ensures page[k].volumeId in ids
    {
      assert ids[k] == page[k].volumeId;
    }
  }

  /**
   One buildNuggets call on a filtered page: the page's distinct volume ids
   that the batches cover are looked up, the found ones are added to the
   volumes found so far, and the page's nuggets, marked against all volumes
   found so far, are appended.
   */
  function BuildPage(h: Harvest, page: seq<Snapshot>, batchSize: int, volumeExists: string -> bool): Harvest
    requires batchSize != 0
  {
    var found := h.realVols + ExistingVolumes(LookedUp(page, batchSize), volumeExists);
    Harvest(h.nuggets + MarkAll(NewNuggets(page), found), found)
  }

  /** Go divides by the batch size only for a page with snapshots left after filtering. */
  predicate Buildable(pages: seq<seq<Snapshot>>, cutoffDate: int, batchSize: int)
  {
    batchSize != 0 || forall k :: 0 <= k < |pages| ==> BeforeCutoff(pages[k], cutoffDate) == []
  }

  /**
   The intake over the pages handed to the page callback, in order: each
   page is filtered by date, and a page with snapshots left is built.
   */
  function Harvested(h: Harvest, pages: seq<seq<Snapshot>>, cutoffDate: int, batchSize: int,
                     volumeExists: string -> bool): Harvest
    requires Buildable(pages, cutoffDate, batchSize)
  {
    if |pages| == 0 then h
    else
      var prev := Harvested(h, pages[..|pages| - 1], cutoffDate, batchSize, volumeExists);
      var f := BeforeCutoff(pages[|pages| - 1], cutoffDate);
      if f != [] then BuildPage(prev, f, batchSize, volumeExists) else prev
  }

  /** The consumer of the page queue: buildNuggets on each enqueued page, in order. */
  function BuildAll(h: Harvest, queue: seq<seq<Snapshot>>, batchSize: int, volumeExists: string -> bool): Harvest
    requires batchSize != 0 || queue == []
  {
    if |queue| == 0 then h
    else BuildPage(BuildAll(h, queue[..|queue| - 1], batchSize, volumeExists), queue[|queue| - 1], batchSize, volumeExists)
  }

  /**
   Filtering and enqueueing the pages, then building every enqueued page in
   order, is the intake page by page.
   */
  lemma {:induction false} HarvestedEnqueued(h: Harvest, pages: seq<seq<Snapshot>>, cutoffDate: int, batchSize: int,
                                             volumeExists: string -> bool)
    requires Buildable(pages, cutoffDate, batchSize)
    ensures batchSize != 0 || Enqueued(pages, cutoffDate) == []
    ensures Harvested(h, pages, cutoffDate, batchSize, volumeExists)
         == BuildAll(h, Enqueued(pages, cutoffDate), batchSize, volumeExists)
  {
    if |pages| > 0 {
      var p := pages[..|pages| - 1];
      assert Buildable(p, cutoffDate, batchSize);
      HarvestedEnqueued(h, p, cutoffDate, batchSize, volumeExists);
      var q := Enqueued(p, cutoffDate);
      var f := BeforeCutoff(pages[|pages| - 1], cutoffDate);
      if f != [] {
        assert Enqueued(pages, cutoffDate) == q + [f];
        assert (q + [f])[..|q|] == q;
      } else {
        assert Enqueued(pages, cutoffDate) == q;
      }
    }
  }

  /**
   Harvesting one more page builds that page's filtered snapshots, when any
   are left, on top of the harvest of the pages before it.
   */
  lemma HarvestedStep(h: Harvest, pages: seq<seq<Snapshot>>, i: nat, cutoffDate: int, batchSize: int,
                      volumeExists: string -> bool)
    requires i < |pages|
    requires batchSize != 0 || forall k :: 0 <= k <= i ==> BeforeCutoff(pages[k], cutoffDate) == []
    ensures Buildable(pages[..i], cutoffDate, batchSize) && Buildable(pages[..i + 1], cutoffDate, batchSize)
    ensures Harvested(h, pages[..i + 1], cutoffDate, batchSize, volumeExists) ==
      var prev := Harvested(h, pages[..i], cutoffDate, batchSize, volumeExists);
      var f := BeforeCutoff(pages[i], cutoffDate);
      if f != [] then BuildPage(prev, f, batchSize, volumeExists) else prev
  {
    assert pages[..i + 1][..i] == pages[..i];
  }

  /**
   The page count after one more page: the callback's answer after page
   `i + 1` stops the paginator exactly at the number of pages processed.
   */
  lemma PagesProcessedStep(available: nat, maxPages: int, i: nat)
    requires i < available && i <= PagesProcessed(available, maxPages)
    requires i == 0 || i <= maxPages
    ensures i + 1 <= PagesProcessed(available, maxPages)
    ensures i + 1 > maxPages ==> i + 1 == PagesProcessed(available, maxPages)
  {
  }

  /** A nugget as the intake leaves it: the fresh nugget of its snapshot, HasVol aside. */
  predicate Fresh(n: Nugget)
  {
    n == NewNugget(n.snap).(hasVol := n.hasVol)
  }

  /**
   Building a page keeps the nuggets and the volumes found so far in front,
   adds exactly the looked-up ids whose volume exists, and appends for each
   snapshot of the page its fresh nugget, with HasVol set exactly when its
   volume was found on an earlier page or is looked up now and exists.
   */
  lemma BuildPageMarks(h: Harvest, page: seq<Snapshot>, batchSize: int, volumeExists: string -> bool)
    requires batchSize != 0
    ensures var r := BuildPage(h, page, batchSize, volumeExists);
      && |r.nuggets| == |h.nuggets| + |page|
      && r.nuggets[..|h.nuggets|] == h.nuggets
      && |r.realVols| >= |h.realVols|
      && r.realVols[..|h.realVols|] == h.realVols
    ensures forall v :: v in BuildPage(h, page, batchSize, volumeExists).realVols <==>
      v in h.realVols || (v in LookedUp(page, batchSize) && volumeExists(v))
    ensures forall k :: 0 <= k < |page| ==>
      BuildPage(h, page, batchSize, volumeExists).nuggets[|h.nuggets| + k] ==
        NewNugget(page[k]).(hasVol := page[k].volumeId in h.realVols ||
                                      (page[k].volumeId in LookedUp(page, batchSize) && volumeExists(page[k].volumeId)))
  {
    ExistingVolumesMembers(LookedUp(page, batchSize), volumeExists);
  }

  /** A nugget's HasVol is set only for a volume found before the intake or existing. */
  predicate MarkedSoundly(n: Nugget, realVols: seq<string>, volumeExists: string -> bool)
  {
    n.hasVol ==> n.snap.volumeId in realVols || volumeExists(n.snap.volumeId)
  }

  /** A nugget's HasVol is set whenever its volume was found before the intake or exists. */
  predicate MarkedFully(n: Nugget, realVols: seq<string>, volumeExists: string -> bool)
  {
    n.snap.volumeId in realVols || volumeExists(n.snap.volumeId) ==> n.hasVol
  }

  /**
   What the intake may leave when it starts from `h`: the nuggets and the
   volumes found before stay in front, every volume found exists or was
   found before, and every appended nugget is a fresh nugget whose HasVol
   is set only for a volume found before or existing, and, with a positive
   batch size, always for such a volume.
   */
  predicate Extends(h: Harvest, r: Harvest, batchSize: int, volumeExists: string -> bool)
  {
    && |r.nuggets| >= |h.nuggets|
    && r.nuggets[..|h.nuggets|] == h.nuggets
    && |r.realVols| >= |h.realVols|
    && r.realVols[..|h.realVols|] == h.realVols
    && (forall v :: v in r.realVols ==> v in h.realVols || volumeExists(v))
    && forall k :: |h.nuggets| <= k < |r.nuggets| ==>
         && Fresh(r.nuggets[k])
         && MarkedSoundly(r.nuggets[k], h.realVols, volumeExists)
         && (batchSize > 0 ==> MarkedFully(r.nuggets[k], h.realVols, volumeExists))
  }

  lemma BuildPageExtends(h: Harvest, page: seq<Snapshot>, batchSize: int, volumeExists: string -> bool)
    requires batchSize != 0
    ensures Extends(h, BuildPage(h, page, batchSize, volumeExists), batchSize, volumeExists)
  {
    BuildPageMarks(h, page, batchSize, volumeExists);
    if batchSize > 0 {
      LookedUpAll(page, batchSize);
    }
    var r := BuildPage(h, page, batchSize, volumeExists);
    forall k | |h.nuggets| <= k < |r.nuggets|
      ensures Fresh(r.nuggets[k]) && MarkedSoundly(r.nuggets[k], h.realVols, volumeExists)
      ensures batchSize > 0 ==> MarkedFully(r.nuggets[k], h.realVols, volumeExists)
    {
      assert r.nuggets[k] == r.nuggets[|h.nuggets| + (k - |h.nuggets|)];
    }
  }

  lemma ExtendsTrans(h: Harvest, m: Harvest, r: Harvest, batchSize: int, volumeExists: string -> bool)
    requires Extends(h, m, batchSize, volumeExists) && Extends(m, r, batchSize, volumeExists)
    ensures Extends(h, r, batchSize, volumeExists)
  {
    assert r.nuggets[..|h.nuggets|] == r.nuggets[..|m.nuggets|][..|h.nuggets|];
    assert r.realVols[..|h.realVols|] == r.realVols[..|m.realVols|][..|h.realVols|];
    forall v | v in h.realVols
      ensures v in m.realVols
    {
      var i :| 0 <= i < |h.realVols| && h.realVols[i] == v;
      assert m.realVols[..|h.realVols|][i] == v;
    }
    forall k | |h.nuggets| <= k < |m.nuggets|
      ensures r.nuggets[k] == m.nuggets[k]
    {
      assert r.nuggets[k] == r.nuggets[..|m.nuggets|][k];
    }
  }

  /**
   The intake over several pages keeps the nuggets and the volumes found
   before it in front, finds only volumes that exist, and appends fresh
   nuggets whose HasVol is set only for a volume found before or existing;
   with a positive batch size, every appended nugget whose volume was found
   before or exists has HasVol set.
   */
  lemma {:induction false} HarvestedMarks(h: Harvest, pages: seq<seq<Snapshot>>, cutoffDate: int, batchSize: int,
                                          volumeExists: string -> bool)
    requires Buildable(pages, cutoffDate, batchSize)
    ensures Extends(h, Harvested(h, pages, cutoffDate, batchSize, volumeExists), batchSize, volumeExists)
  {
    if |pages| > 0 {
      var p := pages[..|pages| - 1];
      assert Buildable(p, cutoffDate, batchSize);
      var prev := Harvested(h, p, cutoffDate, batchSize, volumeExists);
      HarvestedMarks(h, p, cutoffDate, batchSize, volumeExists);
      var f := BeforeCutoff(pages[|pages| - 1], cutoffDate);
      if f != [] {
        BuildPageExtends(prev, f, batchSize, volumeExists);
        ExtendsTrans(h, prev, BuildPage(prev, f, batchSize, volumeExists), batchSize, volumeExists);
      }
    } else {
      assert h.nuggets[..|h.nuggets|] == h.nuggets;
      assert h.realVols[..|h.realVols|] == h.realVols;
    }
  }

  /** Marking leaves the snapshots of a page's fresh nuggets as they were. */
  lemma SnapsMarkAll(page: seq<Snapshot>, realVols: seq<string>)
    ensures Snaps(MarkAll(NewNuggets(page), realVols)) == page
  {
    assert forall i :: 0 <= i < |page| ==> Snaps(MarkAll(NewNuggets(page), realVols))[i] == page[i];
  }

  /**
   The nuggets the intake appends are the snapshots of all handed-over
   pages that started before the cutoff, in order, whatever the batch size.
   */
  lemma {:induction false} HarvestedSnaps(h: Harvest, pages: seq<seq<Snapshot>>, cutoffDate: int, batchSize: int,
                                          volumeExists: string -> bool)
    requires Buildable(pages, cutoffDate, batchSize)
    ensures Snaps(Harvested(h, pages, cutoffDate, batchSize, volumeExists).nuggets)
         == Snaps(h.nuggets) + BeforeCutoff(Flatten(pages), cutoffDate)
  {
    if |pages| > 0 {
      var p := pages[..|pages| - 1];
      var last := pages[|pages| - 1];
      HarvestedSnaps(h, p, cutoffDate, batchSize, volumeExists);
      BeforeCutoffAppend(Flatten(p), last, cutoffDate);
      assert Flatten(pages) == Flatten(p) + last;
      var prev := Harvested(h, p, cutoffDate, batchSize, volumeExists);
      var f := BeforeCutoff(last, cutoffDate);
      var before := BeforeCutoff(Flatten(p), cutoffDate);
      if f != [] {
        var r := BuildPage(prev, f, batchSize, volumeExists);
        var added := MarkAll(NewNuggets(f), r.realVols);
        assert r.nuggets == prev.nuggets + added;
        SnapsMarkAll(f, r.realVols);
        SnapsAppend(prev.nuggets, added);
        ConcatAssoc(Snaps(h.nuggets), before, f);
      } else {
        assert before + f == before;
      }
    }
  }
}

=== FILE: lookups.dfy ===
/**
 In-memory lookups of dustcollector-common.go over records already fetched
 from the provider: which autoscaling groups run a given launch
 configuration or template, and which launch configurations or templates
 refer to a given image or snapshot. Each Go function is a loop appending
 to a local slice; each is modelled as a method with that loop, proved
 equal to a specification function whose meaning is proved as lemmas.
 */
module Lookups {
  import opened Wrappers
  import opened Resources

  /** `k` copies of `x`. */
  function Repeat(x: string, k: nat): (r: seq<string>)
    ensures |r| == k && forall i :: 0 <= i < k ==> r[i] == x
  {
    if k == 0 then [] else Repeat(x, k - 1) + [x]
  }

  // ---------------------------------------------------------------------------
  // lcInASGs / ltInASGs

  /** Names, in group order, of the groups that run launch configuration `lcName`. */
  function AsgsUsingLc(lcName: string, asgs: seq<AutoScalingGroup>): seq<string>
  {
    if |asgs| == 0 then []
    else
      var last := asgs[|asgs| - 1];
      AsgsUsingLc(lcName, asgs[..|asgs| - 1])
        + (if UsesLaunchConfiguration(last, lcName) then [last.autoScalingGroupName] else [])
  }

  /** Names, in group order, of the groups that run launch template `ltName`. */
  function AsgsUsingLt(ltName: string, asgs: seq<AutoScalingGroup>): seq<string>
  {
    if |asgs| == 0 then []
    else
      var last := asgs[|asgs| - 1];
      AsgsUsingLt(ltName, asgs[..|asgs| - 1])
        + (if UsesLaunchTemplate(last, ltName) then [last.autoScalingGroupName] else [])
  }

  /** Go's lcInASGs. */
  method LcInAsgs(lcName: string, allAsgs: seq<AutoScalingGroup>) returns (inASGs: bool, asgNames: seq<string>)
    ensures asgNames == AsgsUsingLc(lcName, allAsgs)
    ensures inASGs <==> asgNames != []
  {
    inASGs, asgNames := false, [];
    for i := 0 to |allAsgs|
      invariant asgNames == AsgsUsingLc(lcName, allAsgs[..i])
      invariant inASGs <==> asgNames != []
    {
      assert allAsgs[..i + 1][..i] == allAsgs[..i];
      var asgLcName := allAsgs[i].launchConfigurationName;
      if asgLcName.Some? {
        if asgLcName.value == lcName {
          inASGs := true;
          asgNames := asgNames + [allAsgs[i].autoScalingGroupName];
        }
      }
    }
    assert allAsgs[..|allAsgs|] == allAsgs;
  }

  /** Go's ltInASGs. */
  method LtInAsgs(ltName: string, allAsgs: seq<AutoScalingGroup>) returns (inASGs: bool, asgNames: seq<string>)
    ensures asgNames == AsgsUsingLt(ltName, allAsgs)
    ensures inASGs <==> asgNames != []
  {
    inASGs, asgNames := false, [];
    for i := 0 to |allAsgs|
      invariant asgNames == AsgsUsingLt(ltName, allAsgs[..i])
      invariant inASGs <==> asgNames != []
    {
      assert allAsgs[..i + 1][..i] == allAsgs[..i];
      if allAsgs[i].launchTemplate.Some? {
        var asgLtName := allAsgs[i].launchTemplate.value.launchTemplateName;
        if asgLtName.Some? {
          if asgLtName.value == ltName {
            inASGs := true;
            asgNames := asgNames + [allAsgs[i].autoScalingGroupName];
          }
        }
      }
    }
    assert allAsgs[..|allAsgs|] == allAsgs;
  }

  /**
   A name is listed for `lcName` exactly when some group with that name runs
   launch configuration `lcName`; at most one entry is listed per group.
   */
  lemma {:induction false} AsgsUsingLcMembers(lcName: string, asgs: seq<AutoScalingGroup>)
    ensures |AsgsUsingLc(lcName, asgs)| <= |asgs|
    ensures forall x :: x in AsgsUsingLc(lcName, asgs) <==>
      exists i :: 0 <= i < |asgs| && UsesLaunchConfiguration(asgs[i], lcName) && asgs[i].autoScalingGroupName == x
  {
    if |asgs| > 0 {
      var p := asgs[..|asgs| - 1];
      AsgsUsingLcMembers(lcName, p);
      forall x | x in AsgsUsingLc(lcName, p)
        ensures exists i :: 0 <= i < |asgs| && UsesLaunchConfiguration(asgs[i], lcName) && asgs[i].autoScalingGroupName == x
      {
        var i :| 0 <= i < |p| && UsesLaunchConfiguration(p[i], lcName) && p[i].autoScalingGroupName == x;
        assert asgs[i] == p[i];
      }
      forall x, i | 0 <= i < |asgs| - 1 && UsesLaunchConfiguration(asgs[i], lcName) && asgs[i].autoScalingGroupName == x
        ensures x in AsgsUsingLc(lcName, p)
      {
        assert p[i] == asgs[i];
      }
    }
  }

  /**
   A name is listed for `ltName` exactly when some group with that name runs
   launch template `ltName`; at most one entry is listed per group.
   */
  lemma {:induction false} AsgsUsingLtMembers(ltName: string, asgs: seq<AutoScalingGroup>)
    ensures |AsgsUsingLt(ltName, asgs)| <= |asgs|
    ensures forall x :: x in AsgsUsingLt(ltName, asgs) <==>
      exists i :: 0 <= i < |asgs| && UsesLaunchTemplate(asgs[i], ltName) && asgs[i].autoScalingGroupName == x
  {
    if |asgs| > 0 {
      var p := asgs[..|asgs| - 1];
      AsgsUsingLtMembers(ltName, p);
      forall x | x in AsgsUsingLt(ltName, p)
        ensures exists i :: 0 <= i < |asgs| && UsesLaunchTemplate(asgs[i], ltName) && asgs[i].autoScalingGroupName == x
      {
        var i :| 0 <= i < |p| && UsesLaunchTemplate(p[i], ltName) && p[i].autoScalingGroupName == x;
        assert asgs[i] == p[i];
      }
      forall x, i | 0 <= i < |asgs| - 1 && UsesLaunchTemplate(asgs[i], ltName) && asgs[i].autoScalingGroupName == x
        ensures x in AsgsUsingLt(ltName, p)
      {
        assert p[i] == asgs[i];
      }
    }
  }

  // ---------------------------------------------------------------------------
  // lcsWithSnapImage / ltsWithSnapImage

  /** Number of image or launch-configuration mappings that are EBS mappings of `snapshotId`. */
  function MappingHits(bdms: seq<BlockDeviceMapping>, snapshotId: string): nat
  {
    if |bdms| == 0 then 0
    else MappingHits(bdms[..|bdms| - 1], snapshotId) + (if MapsSnapshot(bdms[|bdms| - 1], snapshotId) then 1 else 0)
  }

  /** Number of launch-template mappings that refer to `snapshotId`. */
  function TemplateMappingHits(bdms: seq<LaunchTemplateBlockDeviceMapping>, snapshotId: string): nat
  {
    if |bdms| == 0 then 0
    else TemplateMappingHits(bdms[..|bdms| - 1], snapshotId) + (if TemplateMapsSnapshot(bdms[|bdms| - 1], snapshotId) then 1 else 0)
  }

  /** How often a launch configuration is listed: once for its image, once per matching mapping. */
  function LcHits(lc: LaunchConfiguration, snapshotId: string, imageId: string): nat
  {
    (if lc.imageId == imageId then 1 else 0) + MappingHits(lc.blockDeviceMappings, snapshotId)
  }

  /** How often a launch template is listed: once for its image, once per matching mapping. */
  function LtHits(lt: LaunchTemplateVersion, snapshotId: string, imageId: string): nat
  {
    (if lt.imageId == imageId then 1 else 0) + TemplateMappingHits(lt.blockDeviceMappings, snapshotId)
  }

  /** The names lcsWithSnapImage lists: each configuration's name `LcHits` times, in input order. */
  function LcReferences(lcs: seq<LaunchConfiguration>, snapshotId: string, imageId: string): seq<string>
  {
    if |lcs| == 0 then []
    else
      var last := lcs[|lcs| - 1];
      LcReferences(lcs[..|lcs| - 1], snapshotId, imageId)
        + Repeat(last.launchConfigurationName, LcHits(last, snapshotId, imageId))
  }

  /** The names ltsWithSnapImage lists: each template's name `LtHits` times, in input order. */
  function LtReferences(lts: seq<LaunchTemplateVersion>, snapshotId: string, imageId: string): seq<string>
  {
    if |lts| == 0 then []
    else
      var last := lts[|lts| - 1];
      LtReferences(lts[..|lts| - 1], snapshotId, imageId)
        + Repeat(last.launchTemplateName, LtHits(last, snapshotId, imageId))
  }

  /** Go's lcsWithSnapImage. */
  method LcsWithSnapImage(lcs: seq<LaunchConfiguration>, snapshotId: string, imageId: string)
    returns (lcNames: seq<string>)
    ensures lcNames == LcReferences(lcs, snapshotId, imageId)
  {
    lcNames := [];
    for i := 0 to |lcs|
      invariant lcNames == LcReferences(lcs[..i], snapshotId, imageId)
    {
      LcReferencesStep(lcs, i, snapshotId, imageId);
      var lc := lcs[i];
      ghost var before := lcNames;
      if lc.imageId == imageId {
        lcNames := lcNames + [lc.launchConfigurationName];
      }
      ImageHit(before, lc.launchConfigurationName, lc.imageId == imageId);
      lcNames := AppendMappingHits(lcNames, lc.launchConfigurationName, lc.blockDeviceMappings, snapshotId);
      RepeatJoin(before, lc.launchConfigurationName, if lc.imageId == imageId then 1 else 0,
                 MappingHits(lc.blockDeviceMappings, snapshotId));
    }
    assert lcs[..|lcs|] == lcs;
  }

  /** The inner loop of lcsWithSnapImage: `name` once more per mapping of `snapshotId`. */
  method AppendMappingHits(names: seq<string>, name: string, bdms: seq<BlockDeviceMapping>, snapshotId: string)
    returns (r: seq<string>)
    ensures r == names + Repeat(name, MappingHits(bdms, snapshotId))
  {
    r := names;
    for k := 0 to |bdms|
      invariant r == names + Repeat(name, MappingHits(bdms[..k], snapshotId))
    {
      MappingHitsStep(bdms, k, snapshotId);
      if bdms[k].ebs.Some? {
        var bdmSnap := bdms[k].ebs.value.snapshotId;
        if bdmSnap.Some? {
          if bdmSnap.value == snapshotId {
            OneMoreName(names, name, MappingHits(bdms[..k], snapshotId));
            r := r + [name];
          }
        }
      }
    }
    assert bdms[..|bdms|] == bdms;
  }

  /** Go's ltsWithSnapImage. */
  method LtsWithSnapImage(lts: seq<LaunchTemplateVersion>, snapshotId: string, imageId: string)
    returns (ltNames: seq<string>)
    ensures ltNames == LtReferences(lts, snapshotId, imageId)
  {
    ltNames := [];
    for i := 0 to |lts|
      invariant ltNames == LtReferences(lts[..i], snapshotId, imageId)
    {
      LtReferencesStep(lts, i, snapshotId, imageId);
      var lt := lts[i];
      ghost var before := ltNames;
      if lt.imageId == imageId {
        ltNames := ltNames + [lt.launchTemplateName];
      }
      ImageHit(before, lt.launchTemplateName, lt.imageId == imageId);
      ltNames := AppendTemplateMappingHits(ltNames, lt.launchTemplateName, lt.blockDeviceMappings, snapshotId);
      RepeatJoin(before, lt.launchTemplateName, if lt.imageId == imageId then 1 else 0,
                 TemplateMappingHits(lt.blockDeviceMappings, snapshotId));
    }
    assert lts[..|lts|] == lts;
  }

  /** The inner loop of ltsWithSnapImage: `name` once more per mapping of `snapshotId`. */
  method AppendTemplateMappingHits(names: seq<string>, name: string, bdms: seq<LaunchTemplateBlockDeviceMapping>, snapshotId: string)
    returns (r: seq<string>)
    ensures r == names + Repeat(name, TemplateMappingHits(bdms, snapshotId))
  {
    r := names;
    for k := 0 to |bdms|
      invariant r == names + Repeat(name, TemplateMappingHits(bdms[..k], snapshotId))
    {
      TemplateMappingHitsStep(bdms, k, snapshotId);
      var bdmSnap := bdms[k].ebs.snapshotId;
      if bdmSnap.Some? {
        if bdmSnap.value == snapshotId {
          OneMoreName(names, name, TemplateMappingHits(bdms[..k], snapshotId));
          r := r + [name];
        }
      }
    }
    assert bdms[..|bdms|] == bdms;
  }

  lemma ImageHit(before: seq<string>, x: string, hit: bool)
    ensures (if hit then before + [x] else before) == before + Repeat(x, if hit then 1 else 0)
  {
    assert Repeat(x, 0) == [];
  }

  lemma RepeatJoin(before: seq<string>, x: string, a: nat, b: nat)
    ensures before + Repeat(x, a) + Repeat(x, b) == before + Repeat(x, a + b)
  {
    assert Repeat(x, a) + Repeat(x, b) == Repeat(x, a + b);
  }

  lemma OneMoreName(before: seq<string>, x: string, n: nat)
    ensures before + Repeat(x, n) + [x] == before + Repeat(x, n + 1)
  {
    assert Repeat(x, n + 1) == Repeat(x, n) + [x];
  }

  lemma MappingHitsStep(bdms: seq<BlockDeviceMapping>, k: nat, snapshotId: string)
    requires k < |bdms|
    ensures MappingHits(bdms[..k + 1], snapshotId)
         == MappingHits(bdms[..k], snapshotId) + (if MapsSnapshot(bdms[k], snapshotId) then 1 else 0)
  {
    assert bdms[..k + 1][..k] == bdms[..k];
  }

  lemma TemplateMappingHitsStep(bdms: seq<LaunchTemplateBlockDeviceMapping>, k: nat, snapshotId: string)
    requires k < |bdms|
    ensures TemplateMappingHits(bdms[..k + 1], snapshotId)
         == TemplateMappingHits(bdms[..k], snapshotId) + (if TemplateMapsSnapshot(bdms[k], snapshotId) then 1 else 0)
  {
    assert bdms[..k + 1][..k] == bdms[..k];
  }

  lemma LcReferencesStep(lcs: seq<LaunchConfiguration>, i: nat, snapshotId: string, imageId: string)
    requires i < |lcs|
    ensures LcReferences(lcs[..i + 1], snapshotId, imageId)
         == LcReferences(lcs[..i], snapshotId, imageId)
            + Repeat(lcs[i].launchConfigurationName, LcHits(lcs[i], snapshotId, imageId))
  {
    assert lcs[..i + 1][..i] == lcs[..i];
  }

  lemma LtReferencesStep(lts: seq<LaunchTemplateVersion>, i: nat, snapshotId: string, imageId: string)
    requires i < |lts|
    ensures LtReferences(lts[..i + 1], snapshotId, imageId)
         == LtReferences(lts[..i], snapshotId, imageId)
            + Repeat(lts[i].launchTemplateName, LtHits(lts[i], snapshotId, imageId))
  {
    assert lts[..i + 1][..i] == lts[..i];
  }

  /** Some mapping is an EBS mapping of `snapshotId` exactly when the hit count is positive. */
  lemma {:induction false} MappingHitsPositive(bdms: seq<BlockDeviceMapping>, snapshotId: string)
    ensures MappingHits(bdms, snapshotId) > 0 <==> exists m :: 0 <= m < |bdms| && MapsSnapshot(bdms[m], snapshotId)
  {
    if |bdms| > 0 {
      var p := bdms[..|bdms| - 1];
      MappingHitsPositive(p, snapshotId);
      assert forall m :: 0 <= m < |p| ==> p[m] == bdms[m];
    }
  }

  /** Some template mapping refers to `snapshotId` exactly when the hit count is positive. */
  lemma {:induction false} TemplateMappingHitsPositive(bdms: seq<LaunchTemplateBlockDeviceMapping>, snapshotId: string)
    ensures TemplateMappingHits(bdms, snapshotId) > 0 <==> exists m :: 0 <= m < |bdms| && TemplateMapsSnapshot(bdms[m], snapshotId)
  {
    if |bdms| > 0 {
      var p := bdms[..|bdms| - 1];
      TemplateMappingHitsPositive(p, snapshotId);
      assert forall m :: 0 <= m < |p| ==> p[m] == bdms[m];
    }
  }

  /** True when a launch configuration refers to the image or, through a mapping, to the snapshot. */
  predicate LcRefersTo(lc: LaunchConfiguration, snapshotId: string, imageId: string)
  {
    lc.imageId == imageId
    || exists m :: 0 <= m < |lc.blockDeviceMappings| && MapsSnapshot(lc.blockDeviceMappings[m], snapshotId)
  }

  /** True when a launch template refers to the image or, through a mapping, to the snapshot. */
  predicate LtRefersTo(lt: LaunchTemplateVersion, snapshotId: string, imageId: string)
  {
    lt.imageId == imageId
    || exists m :: 0 <= m < |lt.blockDeviceMappings| && TemplateMapsSnapshot(lt.blockDeviceMappings[m], snapshotId)
  }

  /**
   A name is listed by lcsWithSnapImage exactly when some launch
   configuration of that name refers to the image or the snapshot.
   */
  lemma {:induction false} LcReferencesMembers(lcs: seq<LaunchConfiguration>, snapshotId: string, imageId: string)
    ensures forall x :: x in LcReferences(lcs, snapshotId, imageId) <==>
      exists i :: 0 <= i < |lcs| && lcs[i].launchConfigurationName == x && LcRefersTo(lcs[i], snapshotId, imageId)
  {
    if |lcs| > 0 {
      var p := lcs[..|lcs| - 1];
      var last := lcs[|lcs| - 1];
      LcReferencesMembers(p, snapshotId, imageId);
      MappingHitsPositive(last.blockDeviceMappings, snapshotId);
      assert forall i :: 0 <= i < |p| ==> p[i] == lcs[i];
      var tail := Repeat(last.launchConfigurationName, LcHits(last, snapshotId, imageId));
      assert forall x :: x in tail <==> x == last.launchConfigurationName && LcRefersTo(last, snapshotId, imageId);
    }
  }

  /**
   A name is listed by ltsWithSnapImage exactly when some launch template
   of that name refers to the image or the snapshot.
   */
  lemma {:induction false} LtReferencesMembers(lts: seq<LaunchTemplateVersion>, snapshotId: string, imageId: string)
    ensures forall x :: x in LtReferences(lts, snapshotId, imageId) <==>
      exists i :: 0 <= i < |lts| && lts[i].launchTemplateName == x && LtRefersTo(lts[i], snapshotId, imageId)
  {
    if |lts| > 0 {
      var p := lts[..|lts| - 1];
      var last := lts[|lts| - 1];
      LtReferencesMembers(p, snapshotId, imageId);
      TemplateMappingHitsPositive(last.blockDeviceMappings, snapshotId);
      assert forall i :: 0 <= i < |p| ==> p[i] == lts[i];
      var tail := Repeat(last.launchTemplateName, LtHits(last, snapshotId, imageId));
      assert forall x :: x in tail <==> x == last.launchTemplateName && LtRefersTo(last, snapshotId, imageId);
    }
  }
}

=== FILE: plan.dfy ===
/**
 setRecommendations (dustcollector.go): the deletion plan. Bars whose
 volume still exists are spared and counted; in every other bar each
 nugget with no autoscaling group and no AMI sharing is deletable, and its
 launch templates, launch configurations, AMI ids and snapshot id are
 added to the plan lists, while every other nugget is counted as spared.
 The plan lists are then deduplicated, written out under four fixed
 headers, and the GB total is summed over the parent bars of the
 deletable nuggets.
 */
module Plan {
  import opened Wrappers
  import opened Records
  import opened Slices
  import opened Grouping

  /** A nugget that no autoscaling group uses and no AMI sharing reaches. */
  predicate Deletable(n: Nugget)
  {
    |n.asgs| == 0 && |n.amiSharedWith| == 0
  }

  /** Every member index of every bar names a nugget. */
  predicate MembersIn(nuggets: seq<Nugget>, bars: seq<Bar>)
  {
    forall b :: 0 <= b < |bars| ==> InRange(nuggets, bars[b].nuggets)
  }

  /**
   The links the Go pointers always provide: members name nuggets, and a
   member's parent bar exists and has a first member.
   */
  predicate Linked(nuggets: seq<Nugget>, bars: seq<Bar>)
  {
    && MembersIn(nuggets, bars)
    && forall b, j :: 0 <= b < |bars| && 0 <= j < |bars[b].nuggets| ==>
         && nuggets[bars[b].nuggets[j]].parentBar.Some?
         && nuggets[bars[b].nuggets[j]].parentBar.value < |bars|
         && |bars[nuggets[bars[b].nuggets[j]].parentBar.value].nuggets| > 0
  }

  /** The four plan lists, in the order they are written out. */
  datatype PlanLists = PlanLists(lts: seq<string>, lcs: seq<string>, amis: seq<string>, snaps: seq<string>)

  /** The deletable members of one bar, in member order. */
  function BarEntries(nuggets: seq<Nugget>, members: seq<nat>): (r: seq<nat>)
    requires InRange(nuggets, members)
    ensures InRange(nuggets, r)
  {
    if |members| == 0 then []
    else
      var e := members[|members| - 1];
      BarEntries(nuggets, members[..|members| - 1]) + (if Deletable(nuggets[e]) then [e] else [])
  }

  /** The members of one bar that are spared because they are in use. */
  function Spared(nuggets: seq<Nugget>, members: seq<nat>): nat
    requires InRange(nuggets, members)
  {
    if |members| == 0 then 0
    else Spared(nuggets, members[..|members| - 1]) + (if Deletable(nuggets[members[|members| - 1]]) then 0 else 1)
  }

  /** The deletable nuggets in the order the plan visits them: bar by bar, skipping bars whose volume exists. */
  function PlanEntries(nuggets: seq<Nugget>, bars: seq<Bar>): (r: seq<nat>)
    requires MembersIn(nuggets, bars)
    ensures InRange(nuggets, r)
  {
    if |bars| == 0 then []
    else
      var bar := bars[|bars| - 1];
      PlanEntries(nuggets, bars[..|bars| - 1]) + (if bar.hasVol then [] else BarEntries(nuggets, bar.nuggets))
  }

  /** countHasVol: the number of bars, not snapshots, whose volume exists. */
  function CountHasVol(bars: seq<Bar>): nat
  {
    if |bars| == 0 then 0 else CountHasVol(bars[..|bars| - 1]) + (if bars[|bars| - 1].hasVol then 1 else 0)
  }

  /** countAsgShare: the in-use members of the bars whose volume is gone. */
  function CountSpared(nuggets: seq<Nugget>, bars: seq<Bar>): nat
    requires MembersIn(nuggets, bars)
  {
    if |bars| == 0 then 0
    else
      var bar := bars[|bars| - 1];
      CountSpared(nuggets, bars[..|bars| - 1]) + (if bar.hasVol then 0 else Spared(nuggets, bar.nuggets))
  }

  /** The plan lists after one deletable nugget has been added. */
  function Extend(p: PlanLists, n: Nugget): PlanLists
  {
    PlanLists(p.lts + n.lts, p.lcs + n.lcs, p.amis + n.amiIds, p.snaps + [n.snap.snapshotId])
  }

  /** The plan lists `start` extended by the nuggets `entries`, in order. */
  function Gathered(start: PlanLists, nuggets: seq<Nugget>, entries: seq<nat>): PlanLists
    requires InRange(nuggets, entries)
  {
    if |entries| == 0 then start
    else Extend(Gathered(start, nuggets, entries[..|entries| - 1]), nuggets[entries[|entries| - 1]])
  }

  /** barsToDelete: the parent bar of each entry, one per entry; None stands for a nil pointer. */
  function Parents(nuggets: seq<Nugget>, entries: seq<nat>): (r: seq<Option<nat>>)
    requires InRange(nuggets, entries)
    ensures |r| == |entries| && forall k :: 0 <= k < |entries| ==> r[k] == nuggets[entries[k]].parentBar
  {
    if |entries| == 0 then [] else Parents(nuggets, entries[..|entries| - 1]) + [nuggets[entries[|entries| - 1]].parentBar]
  }

  /** Every bar pointer in `parents` can be followed to a first member. */
  predicate Derefable(nuggets: seq<Nugget>, bars: seq<Bar>, parents: seq<Option<nat>>)
  {
    forall k :: 0 <= k < |parents| ==>
      && parents[k].Some?
      && parents[k].value < |bars|
      && |bars[parents[k].value].nuggets| > 0
      && bars[parents[k].value].nuggets[0] < |nuggets|
  }

  /** The volume size of a bar's first nugget. */
  function FirstSize(nuggets: seq<Nugget>, bar: Bar): int
    requires |bar.nuggets| > 0 && bar.nuggets[0] < |nuggets|
  {
    nuggets[bar.nuggets[0]].snap.volumeSize
  }

  /** totalGbs: for each entry of barsToDelete whose bar has no volume, the size of the bar's first nugget. */
  function TotalGbs(nuggets: seq<Nugget>, bars: seq<Bar>, parents: seq<Option<nat>>): int
    requires Derefable(nuggets, bars, parents)
  {
    if |parents| == 0 then 0
    else
      var b := bars[parents[|parents| - 1].value];
      TotalGbs(nuggets, bars, parents[..|parents| - 1]) + (if b.hasVol then 0 else FirstSize(nuggets, b))
  }

  // ---------------------------------------------------------------------------
  // The loops of setRecommendations

  lemma {:induction false} GatheredAppend(start: PlanLists, nuggets: seq<Nugget>, a: seq<nat>, b: seq<nat>)
    requires InRange(nuggets, a) && InRange(nuggets, b)
    ensures InRange(nuggets, a + b)
    ensures Gathered(start, nuggets, a + b) == Gathered(Gathered(start, nuggets, a), nuggets, b)
  {
    if |b| > 0 {
      assert (a + b)[..|a + b| - 1] == a + b[..|b| - 1];
      GatheredAppend(start, nuggets, a, b[..|b| - 1]);
    } else {
      assert a + b == a;
    }
  }

  lemma ParentsAppend(nuggets: seq<Nugget>, a: seq<nat>, b: seq<nat>)
    requires InRange(nuggets, a) && InRange(nuggets, b)
    ensures InRange(nuggets, a + b)
    ensures Parents(nuggets, a + b) == Parents(nuggets, a) + Parents(nuggets, b)
  {
  }

  /** The inner loop over the members of one bar whose volume is gone. */
  method ClassifyMembers(nuggets: seq<Nugget>, members: seq<nat>, plan0: PlanLists,
                         parents0: seq<Option<nat>>, spared0: nat)
    returns (plan: PlanLists, parents: seq<Option<nat>>, spared: nat)
    requires InRange(nuggets, members)
    ensures plan == Gathered(plan0, nuggets, BarEntries(nuggets, members))
    ensures parents == parents0 + Parents(nuggets, BarEntries(nuggets, members))
    ensures spared == spared0 + Spared(nuggets, members)
  {
    plan, parents, spared := plan0, parents0, spared0;
    for j := 0 to |members|
      invariant plan == Gathered(plan0, nuggets, BarEntries(nuggets, members[..j]))
      invariant parents == parents0 + Parents(nuggets, BarEntries(nuggets, members[..j]))
      invariant spared == spared0 + Spared(nuggets, members[..j])
    {
      assert members[..j + 1][..j] == members[..j];
      ghost var before := BarEntries(nuggets, members[..j]);
      var nug := nuggets[members[j]];
      if |nug.asgs| == 0 && |nug.amiSharedWith| == 0 {
        ghost var after := before + [members[j]];
        assert BarEntries(nuggets, members[..j + 1]) == after;
        assert after[..|after| - 1] == before;
        assert Gathered(plan0, nuggets, after) == Extend(Gathered(plan0, nuggets, before), nug);
        plan := PlanLists(plan.lts + nug.lts, plan.lcs + nug.lcs, plan.amis + nug.amiIds,
                          plan.snaps + [nug.snap.snapshotId]);
        parents := parents + [nug.parentBar];
      } else {
        assert BarEntries(nuggets, members[..j + 1]) == before + [] == before;
        spared := spared + 1;
      }
    }
    assert members[..|members|] == members;
  }

  /**
   The classification loop: bar by bar, member by member, extending the
   plan lists with deletable nuggets and counting the spared ones.
   */
  method Classify(nuggets: seq<Nugget>, bars: seq<Bar>, start: PlanLists)
    returns (plan: PlanLists, countHasVol: nat, countAsgShare: nat, barsToDelete: seq<Option<nat>>)
    requires MembersIn(nuggets, bars)
    ensures plan == Gathered(start, nuggets, PlanEntries(nuggets, bars))
    ensures barsToDelete == Parents(nuggets, PlanEntries(nuggets, bars))
    ensures countHasVol == CountHasVol(bars)
    ensures countAsgShare == CountSpared(nuggets, bars)
  {
    plan, countHasVol, countAsgShare, barsToDelete := start, 0, 0, [];
    for i := 0 to |bars|
      invariant plan == Gathered(start, nuggets, PlanEntries(nuggets, bars[..i]))
      invariant barsToDelete == Parents(nuggets, PlanEntries(nuggets, bars[..i]))
      invariant countHasVol == CountHasVol(bars[..i])
      invariant countAsgShare == CountSpared(nuggets, bars[..i])
    {
      assert bars[..i + 1][..i] == bars[..i];
      var bar := bars[i];
      if !bar.hasVol {
        ghost var done := PlanEntries(nuggets, bars[..i]);
        plan, barsToDelete, countAsgShare := ClassifyMembers(nuggets, bar.nuggets, plan, barsToDelete, countAsgShare);
        GatheredAppend(start, nuggets, done, BarEntries(nuggets, bar.nuggets));
        ParentsAppend(nuggets, done, BarEntries(nuggets, bar.nuggets));
        assert PlanEntries(nuggets, bars[..i + 1]) == done + BarEntries(nuggets, bar.nuggets);
      } else {
        assert PlanEntries(nuggets, bars[..i + 1]) == PlanEntries(nuggets, bars[..i]) + [] == PlanEntries(nuggets, bars[..i]);
        countHasVol := countHasVol + 1;
      }
    }
    assert bars[..|bars|] == bars;
  }

  /** The cost loop over barsToDelete. */
  method SumGbs(nuggets: seq<Nugget>, bars: seq<Bar>, barsToDelete: seq<Option<nat>>) returns (totalGbs: int)
    requires Derefable(nuggets, bars, barsToDelete)
    ensures totalGbs == TotalGbs(nuggets, bars, barsToDelete)
  {
    totalGbs := 0;
    for k := 0 to |barsToDelete|
      invariant totalGbs == TotalGbs(nuggets, bars, barsToDelete[..k])
    {
      assert barsToDelete[..k + 1][..k] == barsToDelete[..k];
      var b := bars[barsToDelete[k].value];
      if !b.hasVol {
        totalGbs := totalGbs + nuggets[b.nuggets[0]].snap.volumeSize;
      }
    }
    assert barsToDelete[..|barsToDelete|] == barsToDelete;
  }

  // ---------------------------------------------------------------------------
  // The list section of the message

  // The four section headers, in the order the plan writes them.
  const LtsHeader := "Delete the following " + "LaunchTemplates first:"
  const LcsHeader := "then delete the following " + "LaunchConfigurations:"
  const AmisHeader := "then delete the following " + "AMIs:"
  const SnapsHeader := "then finally delete the following " + "Snapshots:"

  /** Each entry on its own line behind a tab. */
  function Tabbed(items: seq<string>): (r: seq<string>)
    ensures |r| == |items|
  {
    if |items| == 0 then [] else Tabbed(items[..|items| - 1]) + ["\t" + items[|items| - 1]]
  }

  /** A header line and the entries listed under it. */
  datatype Section = Section(header: string, items: seq<string>)

  /** Sections one after another, each header followed by its tabbed entries. */
  function Render(sections: seq<Section>): seq<string>
  {
    if |sections| == 0 then []
    else
      var last := sections[|sections| - 1];
      Render(sections[..|sections| - 1]) + [last.header] + Tabbed(last.items)
  }

  /** The deletion plan: each list under its header, templates first, snapshots last. */
  function PlanSections(p: PlanLists): seq<Section>
  {
    [Section(LtsHeader, p.lts), Section(LcsHeader, p.lcs), Section(AmisHeader, p.amis), Section(SnapsHeader, p.snaps)]
  }

  function PlanLines(p: PlanLists): seq<string>
  {
    Render(PlanSections(p))
  }

  /** The message loop for one list: header, then one tabbed line per entry. */
  method AppendSection(msg: seq<string>, header: string, items: seq<string>) returns (r: seq<string>)
    ensures r == msg + [header] + Tabbed(items)
  {
    r := msg + [header];
    for k := 0 to |items|
      invariant r == msg + [header] + Tabbed(items[..k])
    {
      assert items[..k + 1][..k] == items[..k];
      r := r + ["\t" + items[k]];
    }
    assert items[..|items|] == items;
  }

  /** The list section of the message: the four plan lists in order, each under its header. */
  method WritePlan(p: PlanLists) returns (msg: seq<string>)
    ensures msg == PlanLines(p)
  {
    var sections := PlanSections(p);
    msg := [];
    for s := 0 to |sections|
      invariant msg == Render(sections[..s])
    {
      assert sections[..s + 1][..s] == sections[..s];
      msg := AppendSection(msg, sections[s].header, sections[s].items);
    }
    assert sections[..|sections|] == sections;
  }

  // ---------------------------------------------------------------------------
  // Properties of the plan

  /** A bar's deletable members are exactly its members that no group or sharing uses. */
  lemma {:induction false} BarEntriesExactly(nuggets: seq<Nugget>, members: seq<nat>)
    requires InRange(nuggets, members)
    ensures forall e :: 0 <= e < |nuggets| ==>
      (e in BarEntries(nuggets, members) <==> e in members && Deletable(nuggets[e]))
  {
    if |members| > 0 {
      BarEntriesExactly(nuggets, members[..|members| - 1]);
      assert members == members[..|members| - 1] + [members[|members| - 1]];
    }
  }

  /**
   A nugget is in the plan iff it is deletable and a member of some bar
   whose volume is gone.
   */
  lemma {:induction false} PlanEntriesExactly(nuggets: seq<Nugget>, bars: seq<Bar>)
    requires MembersIn(nuggets, bars)
    ensures forall e :: 0 <= e < |nuggets| ==>
      (e in PlanEntries(nuggets, bars) <==>
        Deletable(nuggets[e]) && exists b :: 0 <= b < |bars| && !bars[b].hasVol && e in bars[b].nuggets)
  {
    if |bars| > 0 {
      var p := bars[..|bars| - 1];
      var last := bars[|bars| - 1];
      PlanEntriesExactly(nuggets, p);
      BarEntriesExactly(nuggets, last.nuggets);
      forall e | 0 <= e < |nuggets|
        ensures (exists b :: 0 <= b < |bars| && !bars[b].hasVol && e in bars[b].nuggets) <==>
                (exists b :: 0 <= b < |p| && !p[b].hasVol && e in p[b].nuggets) || (!last.hasVol && e in last.nuggets)
      {
        if exists b :: 0 <= b < |bars| && !bars[b].hasVol && e in bars[b].nuggets {
          var b :| 0 <= b < |bars| && !bars[b].hasVol && e in bars[b].nuggets;
          if b < |p| {
            assert p[b] == bars[b];
          }
        }
        if exists b :: 0 <= b < |p| && !p[b].hasVol && e in p[b].nuggets {
          var b :| 0 <= b < |p| && !p[b].hasVol && e in p[b].nuggets;
          assert bars[b] == p[b];
        }
      }
    }
  }

  /** What a plan list holds: the start entries and the matching field of every entry nugget, in order. */
  lemma {:induction false} GatheredMembers(start: PlanLists, nuggets: seq<Nugget>, entries: seq<nat>)
    requires InRange(nuggets, entries)
    ensures var g := Gathered(start, nuggets, entries);
      && |g.snaps| == |start.snaps| + |entries|
      && g.snaps[..|start.snaps|] == start.snaps
      && (forall k :: 0 <= k < |entries| ==> g.snaps[|start.snaps| + k] == nuggets[entries[k]].snap.snapshotId)
      && (forall x :: x in g.lts <==> x in start.lts || exists k :: 0 <= k < |entries| && x in nuggets[entries[k]].lts)
      && (forall x :: x in g.lcs <==> x in start.lcs || exists k :: 0 <= k < |entries| && x in nuggets[entries[k]].lcs)
      && (forall x :: x in g.amis <==> x in start.amis || exists k :: 0 <= k < |entries| && x in nuggets[entries[k]].amiIds)
  {
    if |entries| > 0 {
      var p := entries[..|entries| - 1];
      GatheredMembers(start, nuggets, p);
      var g := Gathered(start, nuggets, entries);
      var gp := Gathered(start, nuggets, p);
      assert g.snaps == gp.snaps + [nuggets[entries[|entries| - 1]].snap.snapshotId];
      assert forall k :: 0 <= k < |p| ==> p[k] == entries[k];
    }
  }

  /** The members of the bars whose volume still exists. */
  function HasVolMembers(bars: seq<Bar>): nat
  {
    if |bars| == 0 then 0
    else HasVolMembers(bars[..|bars| - 1]) + (if bars[|bars| - 1].hasVol then |bars[|bars| - 1].nuggets| else 0)
  }

  lemma {:induction false} BarEntriesSpared(nuggets: seq<Nugget>, members: seq<nat>)
    requires InRange(nuggets, members)
    ensures |BarEntries(nuggets, members)| + Spared(nuggets, members) == |members|
  {
    if |members| > 0 {
      BarEntriesSpared(nuggets, members[..|members| - 1]);
    }
  }

  /**
   Every bar member is counted exactly once: planned for deletion, spared
   for being in use, or a member of a bar whose volume exists.
   */
  lemma {:induction false} CountsPartition(nuggets: seq<Nugget>, bars: seq<Bar>)
    requires MembersIn(nuggets, bars)
    ensures |PlanEntries(nuggets, bars)| + CountSpared(nuggets, bars) + HasVolMembers(bars) == TotalMembers(bars)
  {
    if |bars| > 0 {
      CountsPartition(nuggets, bars[..|bars| - 1]);
      BarEntriesSpared(nuggets, bars[|bars| - 1].nuggets);
    }
  }

  lemma {:induction false} CountHasVolBounded(bars: seq<Bar>)
    requires forall b :: 0 <= b < |bars| ==> |bars[b].nuggets| > 0
    ensures CountHasVol(bars) <= HasVolMembers(bars)
  {
    if |bars| > 0 {
      CountHasVolBounded(bars[..|bars| - 1]);
    }
  }

  /**
   After grouping, the links hold, and the plan, the spared count and the
   snapshots of bars with a volume together account for every nugget;
   countHasVol counts bars, so it is at most the number of those snapshots.
   */
  lemma GroupedCounts(nuggets: seq<Nugget>, bars: seq<Bar>)
    requires Grouped(nuggets, bars)
    ensures Linked(nuggets, bars)
    ensures |PlanEntries(nuggets, bars)| + CountSpared(nuggets, bars) + HasVolMembers(bars) == |nuggets|
    ensures CountHasVol(bars) <= HasVolMembers(bars)
  {
    GroupedLinked(nuggets, bars);
    CountsPartition(nuggets, bars);
    GroupedTotal(nuggets, bars);
    CountHasVolBounded(bars);
  }

  lemma GroupedLinked(nuggets: seq<Nugget>, bars: seq<Bar>)
    requires Grouped(nuggets, bars)
    ensures Linked(nuggets, bars)
    ensures forall b, j :: 0 <= b < |bars| && 0 <= j < |bars[b].nuggets| ==>
      nuggets[bars[b].nuggets[j]].parentBar == Some(b)
  {
    GroupedMembership(nuggets, bars);
    var ids := VolumeIds(nuggets)[..|nuggets|];
    forall b, j | 0 <= b < |bars| && 0 <= j < |bars[b].nuggets|
      ensures bars[b].nuggets[j] < |nuggets|
      ensures nuggets[bars[b].nuggets[j]].parentBar == Some(b)
    {
      IndicesOfExactly(ids, bars[b].volumeId);
      assert bars[b].nuggets[j] in bars[b].nuggets;
    }
  }

  /**
   After grouping, a nugget is planned for deletion iff it is deletable and
   the first nugget of its volume had no volume: a bar's HasVol is its first
   nugget's.
   */
  lemma GroupedPlan(nuggets: seq<Nugget>, bars: seq<Bar>)
    requires Grouped(nuggets, bars)
    ensures MembersIn(nuggets, bars)
    ensures forall i :: 0 <= i < |nuggets| ==>
      (i in PlanEntries(nuggets, bars) <==>
        Deletable(nuggets[i]) && !nuggets[FirstIndex(VolumeIds(nuggets), nuggets[i].snap.volumeId)].hasVol)
  {
    GroupedLinked(nuggets, bars);
    PlanEntriesExactly(nuggets, bars);
    forall i | 0 <= i < |nuggets|
      ensures (exists b :: 0 <= b < |bars| && !bars[b].hasVol && i in bars[b].nuggets) <==>
              !nuggets[FirstIndex(VolumeIds(nuggets), nuggets[i].snap.volumeId)].hasVol
    {
      OrphanedAt(nuggets, bars, i);
    }
  }

  /** A grouped nugget sits in a bar without a volume exactly when its volume's first nugget has none. */
  lemma OrphanedAt(nuggets: seq<Nugget>, bars: seq<Bar>, i: nat)
    requires Grouped(nuggets, bars)
    requires i < |nuggets|
    ensures (exists b :: 0 <= b < |bars| && !bars[b].hasVol && i in bars[b].nuggets) <==>
            !nuggets[FirstIndex(VolumeIds(nuggets), nuggets[i].snap.volumeId)].hasVol
  {
    GroupedLinked(nuggets, bars);
    GroupedMembership(nuggets, bars);
    GroupedOrder(nuggets, bars);
    var p := nuggets[i].parentBar.value;
    assert i in bars[p].nuggets;
    assert VolumeIds(nuggets)[i] == bars[p].volumeId;
  }

  /** The contribution each bar makes to totalGbs: its first nugget's size once per deletable member. */
  function PerBarGbs(nuggets: seq<Nugget>, bars: seq<Bar>): int
    requires MembersIn(nuggets, bars)
    requires forall b :: 0 <= b < |bars| ==> |bars[b].nuggets| > 0
  {
    if |bars| == 0 then 0
    else
      var bar := bars[|bars| - 1];
      PerBarGbs(nuggets, bars[..|bars| - 1])
        + (if bar.hasVol then 0 else |BarEntries(nuggets, bar.nuggets)| * FirstSize(nuggets, bar))
  }

  lemma {:induction false} TotalGbsAppend(nuggets: seq<Nugget>, bars: seq<Bar>, p: seq<Option<nat>>, q: seq<Option<nat>>)
    requires Derefable(nuggets, bars, p) && Derefable(nuggets, bars, q)
    ensures Derefable(nuggets, bars, p + q)
    ensures TotalGbs(nuggets, bars, p + q) == TotalGbs(nuggets, bars, p) + TotalGbs(nuggets, bars, q)
  {
    if |q| > 0 {
      assert (p + q)[..|p + q| - 1] == p + q[..|q| - 1];
      TotalGbsAppend(nuggets, bars, p, q[..|q| - 1]);
    } else {
      assert p + q == p;
    }
  }

  lemma {:induction false} TotalGbsOneBar(nuggets: seq<Nugget>, bars: seq<Bar>, q: seq<Option<nat>>, b: nat)
    requires b < |bars| && |bars[b].nuggets| > 0 && bars[b].nuggets[0] < |nuggets| && !bars[b].hasVol
    requires forall k :: 0 <= k < |q| ==> q[k] == Some(b)
    ensures Derefable(nuggets, bars, q)
    ensures TotalGbs(nuggets, bars, q) == |q| * FirstSize(nuggets, bars[b])
  {
    if |q| > 0 {
      TotalGbsOneBar(nuggets, bars, q[..|q| - 1], b);
    }
  }

  /** Every member of every bar names a nugget whose parent is that bar. */
  predicate PointBack(nuggets: seq<Nugget>, bars: seq<Bar>)
  {
    forall b, j :: 0 <= b < |bars| && 0 <= j < |bars[b].nuggets| ==>
      bars[b].nuggets[j] < |nuggets| && nuggets[bars[b].nuggets[j]].parentBar == Some(b)
  }

  /** When members point back at their bar, the barsToDelete entries of one bar all name it. */
  lemma BarGbs(nuggets: seq<Nugget>, bars: seq<Bar>, b: nat)
    requires PointBack(nuggets, bars) && MembersIn(nuggets, bars)
    requires b < |bars| && |bars[b].nuggets| > 0 && !bars[b].hasVol
    ensures Derefable(nuggets, bars, Parents(nuggets, BarEntries(nuggets, bars[b].nuggets)))
    ensures TotalGbs(nuggets, bars, Parents(nuggets, BarEntries(nuggets, bars[b].nuggets)))
         == |BarEntries(nuggets, bars[b].nuggets)| * FirstSize(nuggets, bars[b])
  {
    var e := BarEntries(nuggets, bars[b].nuggets);
    BarEntriesExactly(nuggets, bars[b].nuggets);
    forall k | 0 <= k < |e|
      ensures Parents(nuggets, e)[k] == Some(b)
    {
      assert e[k] in e;
      var j :| 0 <= j < |bars[b].nuggets| && bars[b].nuggets[j] == e[k];
    }
    TotalGbsOneBar(nuggets, bars, Parents(nuggets, e), b);
  }

  /** The prefixes of well-formed bars are well-formed. */
  lemma PrefixMembers(nuggets: seq<Nugget>, bars: seq<Bar>, n: nat)
    requires MembersIn(nuggets, bars) && n <= |bars|
    requires forall b :: 0 <= b < |bars| ==> |bars[b].nuggets| > 0
    ensures MembersIn(nuggets, bars[..n])
    ensures forall b :: 0 <= b < |bars[..n]| ==> |bars[..n][b].nuggets| > 0
  {
    assert forall b :: 0 <= b < n ==> bars[..n][b] == bars[b];
  }

  lemma {:induction false} TotalGbsUpTo(nuggets: seq<Nugget>, bars: seq<Bar>, n: nat)
    requires PointBack(nuggets, bars) && MembersIn(nuggets, bars) && n <= |bars|
    requires forall b :: 0 <= b < |bars| ==> |bars[b].nuggets| > 0
    ensures MembersIn(nuggets, bars[..n])
    ensures Derefable(nuggets, bars, Parents(nuggets, PlanEntries(nuggets, bars[..n])))
    ensures forall b :: 0 <= b < |bars[..n]| ==> |bars[..n][b].nuggets| > 0
    ensures TotalGbs(nuggets, bars, Parents(nuggets, PlanEntries(nuggets, bars[..n]))) == PerBarGbs(nuggets, bars[..n])
  {
    PrefixMembers(nuggets, bars, n);
    if n > 0 {
      TotalGbsUpTo(nuggets, bars, n - 1);
      TotalGbsStep(nuggets, bars, n);
    }
  }

  lemma TotalGbsStep(nuggets: seq<Nugget>, bars: seq<Bar>, n: nat)
    requires PointBack(nuggets, bars) && MembersIn(nuggets, bars) && 0 < n <= |bars|
    requires forall b :: 0 <= b < |bars| ==> |bars[b].nuggets| > 0
    requires MembersIn(nuggets, bars[..n]) && MembersIn(nuggets, bars[..n - 1])
    requires Derefable(nuggets, bars, Parents(nuggets, PlanEntries(nuggets, bars[..n - 1])))
    requires TotalGbs(nuggets, bars, Parents(nuggets, PlanEntries(nuggets, bars[..n - 1])))
          == PerBarGbs(nuggets, bars[..n - 1])
    ensures Derefable(nuggets, bars, Parents(nuggets, PlanEntries(nuggets, bars[..n])))
    ensures TotalGbs(nuggets, bars, Parents(nuggets, PlanEntries(nuggets, bars[..n]))) == PerBarGbs(nuggets, bars[..n])
  {
    var a := PlanEntries(nuggets, bars[..n - 1]);
    var e := OwnEntries(nuggets, bars[n - 1]);
    PlanSnoc(nuggets, bars, n);
    OwnGbs(nuggets, bars, n - 1);
    ParentsAppend(nuggets, a, e);
    TotalGbsAppend(nuggets, bars, Parents(nuggets, a), Parents(nuggets, e));
  }

  /**
   The barsToDelete entries one bar contributes, the per-bar term of
   PlanEntries: none when its volume exists.
   */
  function OwnEntries(nuggets: seq<Nugget>, bar: Bar): (r: seq<nat>)
    requires InRange(nuggets, bar.nuggets)
    ensures InRange(nuggets, r)
  {
    if bar.hasVol then [] else BarEntries(nuggets, bar.nuggets)
  }

  /** The GBs one bar contributes to the total, the per-bar term of PerBarGbs. */
  function OwnGbsTerm(nuggets: seq<Nugget>, bar: Bar): int
    requires InRange(nuggets, bar.nuggets) && |bar.nuggets| > 0
  {
    if bar.hasVol then 0 else |BarEntries(nuggets, bar.nuggets)| * FirstSize(nuggets, bar)
  }

  lemma PlanSnoc(nuggets: seq<Nugget>, bars: seq<Bar>, n: nat)
    requires MembersIn(nuggets, bars) && 0 < n <= |bars|
    requires forall b :: 0 <= b < |bars| ==> |bars[b].nuggets| > 0
    requires MembersIn(nuggets, bars[..n]) && MembersIn(nuggets, bars[..n - 1])
    ensures PlanEntries(nuggets, bars[..n]) == PlanEntries(nuggets, bars[..n - 1]) + OwnEntries(nuggets, bars[n - 1])
    ensures PerBarGbs(nuggets, bars[..n]) == PerBarGbs(nuggets, bars[..n - 1]) + OwnGbsTerm(nuggets, bars[n - 1])
  {
    assert bars[..n][..n - 1] == bars[..n - 1];
  }

  lemma OwnGbs(nuggets: seq<Nugget>, bars: seq<Bar>, b: nat)
    requires PointBack(nuggets, bars) && MembersIn(nuggets, bars)
    requires b < |bars| && |bars[b].nuggets| > 0
    ensures Derefable(nuggets, bars, Parents(nuggets, OwnEntries(nuggets, bars[b])))
    ensures TotalGbs(nuggets, bars, Parents(nuggets, OwnEntries(nuggets, bars[b]))) == OwnGbsTerm(nuggets, bars[b])
  {
    if !bars[b].hasVol {
      BarGbs(nuggets, bars, b);
    }
  }

  /**
   After grouping, totalGbs adds a bar's first-nugget size once for every
   deletable member of the bar, not once per bar: barsToDelete is never
   deduplicated.
   */
  lemma GroupedTotalGbs(nuggets: seq<Nugget>, bars: seq<Bar>)
    requires Grouped(nuggets, bars)
    ensures MembersIn(nuggets, bars) && forall b :: 0 <= b < |bars| ==> |bars[b].nuggets| > 0
    ensures Derefable(nuggets, bars, Parents(nuggets, PlanEntries(nuggets, bars)))
    ensures TotalGbs(nuggets, bars, Parents(nuggets, PlanEntries(nuggets, bars))) == PerBarGbs(nuggets, bars)
  {
    GroupedLinked(nuggets, bars);
    assert PointBack(nuggets, bars);
    TotalGbsUpTo(nuggets, bars, |bars|);
    assert bars[..|bars|] == bars;
  }

  /** Under the pointer links, every barsToDelete entry can be followed. */
  lemma LinkedDerefable(nuggets: seq<Nugget>, bars: seq<Bar>)
    requires Linked(nuggets, bars)
    ensures Derefable(nuggets, bars, Parents(nuggets, PlanEntries(nuggets, bars)))
  {
    PlanEntriesExactly(nuggets, bars);
    var entries := PlanEntries(nuggets, bars);
    forall k | 0 <= k < |entries|
      ensures nuggets[entries[k]].parentBar.Some?
      ensures nuggets[entries[k]].parentBar.value < |bars|
      ensures |bars[nuggets[entries[k]].parentBar.value].nuggets| > 0
      ensures bars[nuggets[entries[k]].parentBar.value].nuggets[0] < |nuggets|
    {
      assert entries[k] in entries;
      var b :| 0 <= b < |bars| && !bars[b].hasVol && entries[k] in bars[b].nuggets;
      var j :| 0 <= j < |bars[b].nuggets| && bars[b].nuggets[j] == entries[k];
      var p := nuggets[entries[k]].parentBar.value;
      assert InRange(nuggets, bars[p].nuggets);
    }
  }

  /** A line that does not start with a tab. */
  predicate IsHeader(h: string)
  {
    |h| == 0 || h[0] != '\t'
  }

  /**
   Reads a message back into sections: a line without a tab opens a new
   section, a tabbed line is an entry of the section above it.
   */
  function Parse(lines: seq<string>): seq<Section>
  {
    if |lines| == 0 then []
    else
      var before := Parse(lines[..|lines| - 1]);
      var l := lines[|lines| - 1];
      if IsHeader(l) then before + [Section(l, [])]
      else if |before| == 0 then before
      else
        var open := before[|before| - 1];
        before[..|before| - 1] + [open.(items := open.items + [l[1..]])]
  }

  lemma {:induction false} ParseSection(lines: seq<string>, header: string, items: seq<string>)
    requires IsHeader(header)
    ensures Parse(lines + [header] + Tabbed(items)) == Parse(lines) + [Section(header, items)]
  {
    if |items| == 0 {
      assert lines + [header] + Tabbed(items) == lines + [header];
      assert (lines + [header])[..|lines|] == lines;
    } else {
      var p := items[..|items| - 1];
      var x := items[|items| - 1];
      ParseSection(lines, header, p);
      var whole := lines + [header] + Tabbed(items);
      assert whole == lines + [header] + Tabbed(p) + ["\t" + x];
      assert whole[..|whole| - 1] == lines + [header] + Tabbed(p);
      assert ("\t" + x)[1..] == x;
      assert p + [x] == items;
    }
  }

  /** Rendering sections whose headers carry no tab and parsing the lines gives the sections back. */
  lemma {:induction false} ParseRender(sections: seq<Section>)
    requires forall k :: 0 <= k < |sections| ==> IsHeader(sections[k].header)
    ensures Parse(Render(sections)) == sections
  {
    if |sections| > 0 {
      var p := sections[..|sections| - 1];
      var last := sections[|sections| - 1];
      ParseRender(p);
      ParseSection(Render(p), last.header, last.items);
    }
  }

  /**
   The list section reads back as four sections in the fixed order
   templates, configurations, AMIs, snapshots, each holding its plan list.
   */
  lemma PlanLinesRoundTrip(p: PlanLists)
    ensures Parse(PlanLines(p)) == [Section(LtsHeader, p.lts), Section(LcsHeader, p.lcs),
                                    Section(AmisHeader, p.amis), Section(SnapsHeader, p.snaps)]
  {
    assert IsHeader(LtsHeader) && IsHeader(LcsHeader) && IsHeader(AmisHeader) && IsHeader(SnapsHeader);
    ParseRender(PlanSections(p));
  }
}

=== FILE: records.dfy ===
/**
 The two records the analysis builds: a Nugget is a snapshot with the
 associations found for it, a Bar groups the nuggets of one volume.
 */
module Records {
  import opened Wrappers
  import opened Resources

  /**
   A snapshot with its associations. `parentBar` stands for the Go pointer
   to the nugget's Bar: it is the index of that bar in the expedition's
   list of bars, None while the nugget belongs to no bar.
   */
  datatype Nugget = Nugget(
    snap: Snapshot,
    hasVol: bool,
    amiIds: seq<string>,
    amiSharedWith: seq<string>,
    lcs: seq<string>,
    lts: seq<string>,
    asgs: seq<string>,
    parentBar: Option<nat>)

  /** The nugget buildNuggets makes for a snapshot before any lookup. */
  function NewNugget(snap: Snapshot): Nugget
  {
    Nugget(snap, false, [], [], [], [], [], None)
  }

  /**
   The snapshots of one volume. `nuggets` holds indices into the
   expedition's list of nuggets, in the order they were added.
   */
  datatype Bar = Bar(volumeId: string, nuggets: seq<nat>, hasVol: bool)

  /** The volume id of each nugget's snapshot, in order. */
  function VolumeIds(nuggets: seq<Nugget>): (r: seq<string>)
    ensures |r| == |nuggets|
    ensures forall i :: 0 <= i < |nuggets| ==> r[i] == nuggets[i].snap.volumeId
  {
    if |nuggets| == 0 then [] else VolumeIds(nuggets[..|nuggets| - 1]) + [nuggets[|nuggets| - 1].snap.volumeId]
  }

  /** The snapshot of each nugget, in order. */
  function Snaps(nuggets: seq<Nugget>): (r: seq<Snapshot>)
    ensures |r| == |nuggets|
    ensures forall i :: 0 <= i < |nuggets| ==> r[i] == nuggets[i].snap
  {
    if |nuggets| == 0 then [] else Snaps(nuggets[..|nuggets| - 1]) + [nuggets[|nuggets| - 1].snap]
  }

  lemma SnapsAppend(a: seq<Nugget>, b: seq<Nugget>)
    ensures Snaps(a + b) == Snaps(a) + Snaps(b)
  {
    assert forall i :: 0 <= i < |a + b| ==> Snaps(a + b)[i] == (Snaps(a) + Snaps(b))[i];
  }

  /** Changing only the nuggets' bars leaves their snapshots as they were. */
  lemma SnapsKept(before: seq<Nugget>, after: seq<Nugget>)
    requires |after| == |before|
    requires forall k :: 0 <= k < |after| ==> after[k] == before[k].(parentBar := after[k].parentBar)
    ensures Snaps(after) == Snaps(before)
  {
    assert forall k :: 0 <= k < |after| ==> Snaps(after)[k] == Snaps(before)[k];
  }

  /** Every index in `xs` names a nugget. */
  predicate InRange(nuggets: seq<Nugget>, xs: seq<nat>)
  {
    forall k :: 0 <= k < |xs| ==> xs[k] < |nuggets|
  }
}

=== FILE: resources.dfy ===
/**
 The cloud-provider records the analysis reads. Only the attributes the
 analysis looks at are kept. Where the Go code dereferences a pointer
 without a nil check, the attribute is modelled as always present; where it
 checks for nil first, it is an Option.
 */
module Resources {
  import opened Wrappers

  datatype Tag = Tag(key: string, value: string)

  /**
   An EBS snapshot as returned by the describe-snapshots call. The start time
   is an integer timestamp; its calendar rendering is an input of its own.
   */
  datatype Snapshot = Snapshot(
    ownerId: string,
    snapshotId: string,
    volumeId: string,
    startTime: int,
    volumeSize: int,
    tags: seq<Tag>,
    description: string)

  /** The EBS part of a block-device mapping; its snapshot id may be absent. */
  datatype EbsBlockDevice = EbsBlockDevice(snapshotId: Option<string>)

  /** A block-device mapping of an image or a launch configuration: its EBS part may be absent. */
  datatype BlockDeviceMapping = BlockDeviceMapping(ebs: Option<EbsBlockDevice>)

  /** A block-device mapping of a launch template, whose EBS part the code always dereferences. */
  datatype LaunchTemplateBlockDeviceMapping = LaunchTemplateBlockDeviceMapping(ebs: EbsBlockDevice)

  datatype Image = Image(imageId: string, blockDeviceMappings: seq<BlockDeviceMapping>)

  datatype LaunchConfiguration = LaunchConfiguration(
    launchConfigurationName: string,
    imageId: string,
    blockDeviceMappings: seq<BlockDeviceMapping>)

  /** The latest version of a launch template. */
  datatype LaunchTemplateVersion = LaunchTemplateVersion(
    launchTemplateName: string,
    imageId: string,
    blockDeviceMappings: seq<LaunchTemplateBlockDeviceMapping>)

  datatype LaunchTemplateSpecification = LaunchTemplateSpecification(launchTemplateName: Option<string>)

  datatype AutoScalingGroup = AutoScalingGroup(
    autoScalingGroupName: string,
    launchConfigurationName: Option<string>,
    launchTemplate: Option<LaunchTemplateSpecification>)

  /** True when an image or launch-configuration mapping is an EBS mapping of `snapshotId`. */
  predicate MapsSnapshot(bdm: BlockDeviceMapping, snapshotId: string)
  {
    bdm.ebs.Some? && bdm.ebs.value.snapshotId == Some(snapshotId)
  }

  /** True when a launch-template mapping refers to `snapshotId`. */
  predicate TemplateMapsSnapshot(bdm: LaunchTemplateBlockDeviceMapping, snapshotId: string)
  {
    bdm.ebs.snapshotId == Some(snapshotId)
  }

  /** True when the group runs from the launch configuration `lcName`. */
  predicate UsesLaunchConfiguration(asg: AutoScalingGroup, lcName: string)
  {
    asg.launchConfigurationName == Some(lcName)
  }

  /** True when the group runs from the launch template `ltName`. */
  predicate UsesLaunchTemplate(asg: AutoScalingGroup, ltName: string)
  {
    asg.launchTemplate.Some? && asg.launchTemplate.value.launchTemplateName == Some(ltName)
  }
}

=== FILE: rows.dfy ===
/**
 The CSV rows of Bar.dumpString and Nugget.dumpString (dustcollector.go):
 list-valued fields are joined with "|", booleans and integers are written
 in Go's decimal notation, and the calendar date of a start time is an
 input. Each join is paired with the split that reads it back.
 */
module Rows {
  import opened Resources
  import opened Records
  import opened Slices

  // ---------------------------------------------------------------------------
  // Text helpers of the Go standard library

  /** strings.Join: the parts with `sep` between each two; no parts give "". */
  function Join(parts: seq<string>, sep: string): string
  {
    if |parts| == 0 then ""
    else if |parts| == 1 then parts[0]
    else Join(parts[..|parts| - 1], sep) + sep + parts[|parts| - 1]
  }

  /** strings.Split on a one-character separator: "" splits into [""]. */
  function Split(s: string, c: char): (r: seq<string>)
    ensures |r| > 0
  {
    if |s| == 0 then [""]
    else
      var before := Split(s[..|s| - 1], c);
      var ch := s[|s| - 1];
      if ch == c then before + [""]
      else before[..|before| - 1] + [before[|before| - 1] + [ch]]
  }

  /** Parts that are non-empty and free of the "|" separator. */
  predicate Clean(parts: seq<string>)
  {
    forall k :: 0 <= k < |parts| ==> parts[k] != "" && '|' !in parts[k]
  }

  /** A joined field read back: "" is the empty list, anything else is split at "|". */
  function ReadList(s: string): seq<string>
  {
    if s == "" then [] else Split(s, '|')
  }

  lemma SplitSnoc(s: string, ch: char, c: char)
    requires ch != c
    ensures var before := Split(s, c);
      Split(s + [ch], c) == before[..|before| - 1] + [before[|before| - 1] + [ch]]
  {
    assert (s + [ch])[..|s|] == s;
  }

  /** Extending the last part of `B + [L + p]` by one character. */
  lemma ExtendLast(mid: seq<string>, b: seq<string>, l: string, p: string, ch: char)
    requires mid == b + [l + p]
    ensures mid[..|mid| - 1] + [mid[|mid| - 1] + [ch]] == b + [l + (p + [ch])]
  {
    assert mid[..|mid| - 1] == b;
    assert (l + p) + [ch] == l + (p + [ch]);
  }

  lemma {:induction false} SplitAppendPlain(s: string, t: string, c: char)
    requires c !in t
    ensures var before := Split(s, c);
      Split(s + t, c) == before[..|before| - 1] + [before[|before| - 1] + t]
  {
    var before := Split(s, c);
    if |t| == 0 {
      assert s + t == s;
      assert before[|before| - 1] + t == before[|before| - 1];
      assert before[..|before| - 1] + [before[|before| - 1]] == before;
    } else {
      var p := t[..|t| - 1];
      var ch := t[|t| - 1];
      assert ch in t;
      assert t == p + [ch];
      SplitAppendPlain(s, p, c);
      SplitSnoc(s + p, ch, c);
      assert s + t == (s + p) + [ch];
      ExtendLast(Split(s + p, c), before[..|before| - 1], before[|before| - 1], p, ch);
    }
  }

  /** Splitting a join of separator-free parts gives the parts back. */
  lemma {:induction false} SplitJoin(parts: seq<string>, c: char)
    requires |parts| > 0
    requires forall k :: 0 <= k < |parts| ==> c !in parts[k]
    ensures Split(Join(parts, [c]), c) == parts
  {
    if |parts| == 1 {
      SplitAppendPlain("", parts[0], c);
      assert "" + parts[0] == parts[0];
    } else {
      var p := parts[..|parts| - 1];
      var x := parts[|parts| - 1];
      assert parts == p + [x];
      SplitJoin(p, c);
      SplitJoinStep(p, x, c);
    }
  }

  /** One more part, joined after a separator, is split off again. */
  lemma SplitJoinStep(p: seq<string>, x: string, c: char)
    requires |p| > 0 && c !in x
    requires Split(Join(p, [c]), c) == p
    ensures Split(Join(p + [x], [c]), c) == p + [x]
  {
    var j := Join(p, [c]) + [c];
    SplitSep(Join(p, [c]), c);
    assert (p + [x])[..|p|] == p;
    assert Join(p + [x], [c]) == j + x;
    SplitAppendPlain(j, x, c);
    LastOfEmpty(p, x);
  }

  /** A trailing separator starts a new, empty part. */
  lemma SplitSep(s: string, c: char)
    ensures Split(s + [c], c) == Split(s, c) + [""]
  {
    assert (s + [c])[..|s|] == s;
  }

  lemma LastOfEmpty(p: seq<string>, x: string)
    ensures var before := p + [""];
      before[..|before| - 1] + [before[|before| - 1] + x] == p + [x]
  {
    var before := p + [""];
    assert before[..|before| - 1] == p;
    assert before[|before| - 1] + x == x;
  }

  /** A "|"-joined list of non-empty, "|"-free entries reads back as that list. */
  lemma ListRoundTrip(parts: seq<string>)
    requires Clean(parts)
    ensures ReadList(Join(parts, "|")) == parts
  {
    if |parts| > 0 {
      assert Join(parts, "|") != "" by {
        var last := parts[|parts| - 1];
        assert |Join(parts, "|")| >= |last| > 0;
      }
      SplitJoin(parts, '|');
    }
  }

  /** strconv.FormatBool. */
  function FormatBool(b: bool): string
  {
    if b then "true" else "false"
  }

  /** strconv.ParseBool restricted to what FormatBool writes. */
  function ParseBool(s: string): bool
  {
    s == "true"
  }

  function DigitChar(d: nat): char
    requires d < 10
  {
    ('0' as int + d) as char
  }

  function DigitValue(ch: char): nat
  {
    if '0' <= ch <= '9' then ch as int - '0' as int else 0
  }

  /** The decimal digits of `n`, most significant first, without leading zeros. */
  function NatString(n: nat): (r: string)
    ensures |r| > 0 && forall k :: 0 <= k < |r| ==> '0' <= r[k] <= '9'
  {
    if n < 10 then [DigitChar(n)] else NatString(n / 10) + [DigitChar(n % 10)]
  }

  /** strconv.FormatInt(n, 10): a minus sign for negative numbers, then the digits. */
  function FormatInt(n: int): string
  {
    if n < 0 then "-" + NatString(-n) else NatString(n)
  }

  function ParseNat(s: string): nat
  {
    if |s| == 0 then 0 else 10 * ParseNat(s[..|s| - 1]) + DigitValue(s[|s| - 1])
  }

  /** strconv.ParseInt(s, 10, 64) on what FormatInt writes. */
  function ParseInt(s: string): int
  {
    if |s| > 0 && s[0] == '-' then 0 - ParseNat(s[1..]) else ParseNat(s)
  }

  lemma {:induction false} NatRoundTrip(n: nat)
    ensures ParseNat(NatString(n)) == n
  {
    if n >= 10 {
      NatRoundTrip(n / 10);
      var s := NatString(n);
      assert s[..|s| - 1] == NatString(n / 10);
    }
  }

  /** FormatInt writes every integer so that it reads back unchanged. */
  lemma FormatIntRoundTrip(n: int)
    ensures ParseInt(FormatInt(n)) == n
  {
    if n < 0 {
      NatRoundTrip(-n);
      assert FormatInt(n)[1..] == NatString(-n);
    } else {
      NatRoundTrip(n);
    }
  }

  // ---------------------------------------------------------------------------
  // Bar.dumpString

  /** The snapshot ids of the members, in member order. */
  function SnapshotIds(nuggets: seq<Nugget>, members: seq<nat>): (r: seq<string>)
    requires InRange(nuggets, members)
    ensures |r| == |members| && forall k :: 0 <= k < |members| ==> r[k] == nuggets[members[k]].snap.snapshotId
  {
    if |members| == 0 then []
    else SnapshotIds(nuggets, members[..|members| - 1]) + [nuggets[members[|members| - 1]].snap.snapshotId]
  }

  /**
   A bar's row: the first nugget's owner, the member snapshot ids joined
   with "|", HasVol, the first nugget's start date and volume size.
   */
  function BarRow(nuggets: seq<Nugget>, bar: Bar, formatDate: int -> string): seq<string>
    requires InRange(nuggets, bar.nuggets) && |bar.nuggets| > 0
  {
    var first := nuggets[bar.nuggets[0]].snap;
    [first.ownerId, Join(SnapshotIds(nuggets, bar.nuggets), "|"), FormatBool(bar.hasVol),
     formatDate(first.startTime), FormatInt(first.volumeSize)]
  }

  /**
   Bar.dumpString: collects the member snapshot ids in a loop, joins them
   when there are several and takes the only one otherwise. Indexing the
   first member is why a bar must not be empty.
   */
  method BarDump(nuggets: seq<Nugget>, bar: Bar, formatDate: int -> string) returns (s: seq<string>)
    requires InRange(nuggets, bar.nuggets) && |bar.nuggets| > 0
    ensures s == BarRow(nuggets, bar, formatDate)
  {
    var sids: seq<string> := [];
    for k := 0 to |bar.nuggets|
      invariant sids == SnapshotIds(nuggets, bar.nuggets[..k])
    {
      assert bar.nuggets[..k + 1][..k] == bar.nuggets[..k];
      sids := sids + [nuggets[bar.nuggets[k]].snap.snapshotId];
    }
    assert bar.nuggets[..|bar.nuggets|] == bar.nuggets;
    var ssid: string;
    if |sids| > 1 {
      ssid := Join(sids, "|");
    } else {
      ssid := sids[0];
    }
    var first := nuggets[bar.nuggets[0]].snap;
    s := [first.ownerId, ssid, FormatBool(bar.hasVol), formatDate(first.startTime), FormatInt(first.volumeSize)];
  }

  /**
   A bar's row reads back: its second field splits into the member
   snapshot ids in member order, HasVol and the volume size parse back,
   and owner and date are the first nugget's.
   */
  lemma BarRowReadsBack(nuggets: seq<Nugget>, bar: Bar, formatDate: int -> string)
    requires InRange(nuggets, bar.nuggets) && |bar.nuggets| > 0
    requires Clean(SnapshotIds(nuggets, bar.nuggets))
    ensures var row := BarRow(nuggets, bar, formatDate);
      var first := nuggets[bar.nuggets[0]].snap;
      && |row| == 5
      && row[0] == first.ownerId
      && ReadList(row[1]) == SnapshotIds(nuggets, bar.nuggets)
      && ParseBool(row[2]) == bar.hasVol
      && row[3] == formatDate(first.startTime)
      && ParseInt(row[4]) == first.volumeSize
  {
    ListRoundTrip(SnapshotIds(nuggets, bar.nuggets));
    FormatIntRoundTrip(nuggets[bar.nuggets[0]].snap.volumeSize);
  }

  // ---------------------------------------------------------------------------
  // Nugget.dumpString

  /** A tag as "key=value". */
  function TagString(t: Tag): string
  {
    t.key + "=" + t.value
  }

  function TagStrings(tags: seq<Tag>): (r: seq<string>)
    ensures |r| == |tags| && forall k :: 0 <= k < |tags| ==> r[k] == TagString(tags[k])
  {
    if |tags| == 0 then [] else TagStrings(tags[..|tags| - 1]) + [TagString(tags[|tags| - 1])]
  }

  /**
   A nugget's row: owner, snapshot id, the deduplicated AMI ids, launch
   configurations, launch templates, ASGs and sharing accounts each joined
   with "|", HasVol, start date, the tags joined with "|", volume size and
   description.
   */
  function NuggetRow(n: Nugget, formatDate: int -> string): seq<string>
  {
    [n.snap.ownerId, n.snap.snapshotId,
     Join(Dedupe(n.amiIds), "|"), Join(Dedupe(n.lcs), "|"), Join(Dedupe(n.lts), "|"),
     Join(Dedupe(n.asgs), "|"), Join(Dedupe(n.amiSharedWith), "|"),
     FormatBool(n.hasVol), formatDate(n.snap.startTime), Join(TagStrings(n.snap.tags), "|"),
     FormatInt(n.snap.volumeSize), n.snap.description]
  }

  /** Nugget.dumpString: renders the tags in a loop and deduplicates each association list. */
  method NuggetDump(nug: Nugget, formatDate: int -> string) returns (s: seq<string>)
    ensures s == NuggetRow(nug, formatDate)
  {
    var tags: seq<string> := [];
    for k := 0 to |nug.snap.tags|
      invariant tags == TagStrings(nug.snap.tags[..k])
    {
      assert nug.snap.tags[..k + 1][..k] == nug.snap.tags[..k];
      var tag := nug.snap.tags[k];
      tags := tags + [tag.key + "=" + tag.value];
    }
    assert nug.snap.tags[..|nug.snap.tags|] == nug.snap.tags;
    var stags := Join(tags, "|");
    var imageIds := DedupeString(nug.amiIds);
    var lcs := DedupeString(nug.lcs);
    var lts := DedupeString(nug.lts);
    var asgs := DedupeString(nug.asgs);
    var shared := DedupeString(nug.amiSharedWith);
    s := [nug.snap.ownerId, nug.snap.snapshotId,
          Join(imageIds, "|"), Join(lcs, "|"), Join(lts, "|"), Join(asgs, "|"), Join(shared, "|"),
          FormatBool(nug.hasVol), formatDate(nug.snap.startTime), stags,
          FormatInt(nug.snap.volumeSize), nug.snap.description];
  }

  lemma DedupedJoinReadsBack(parts: seq<string>)
    requires Clean(parts)
    ensures ReadList(Join(Dedupe(parts), "|")) == Dedupe(parts)
  {
    DedupeSameElements(parts);
    var d := Dedupe(parts);
    forall k | 0 <= k < |d|
      ensures d[k] != "" && '|' !in d[k]
    {
      assert d[k] in parts;
    }
    ListRoundTrip(d);
  }

  /** A deduplicated list of clean entries reads back as itself: distinct, with the entries of the list. */
  lemma DedupedListReadsBack(parts: seq<string>)
    requires Clean(parts)
    ensures var back := ReadList(Join(Dedupe(parts), "|"));
      && back == Dedupe(parts)
      && NoDuplicates(back)
      && forall x :: x in back <==> x in parts
  {
    DedupeSameElements(parts);
    DedupeNoDuplicates(parts);
    DedupedJoinReadsBack(parts);
  }

  /**
   A nugget's association fields read back as the distinct entries of its
   AMI ids, launch configurations, launch templates, ASGs and sharing
   accounts, each in first-occurrence order.
   */
  lemma NuggetRowListsReadBack(n: Nugget, formatDate: int -> string)
    requires Clean(n.amiIds) && Clean(n.lcs) && Clean(n.lts) && Clean(n.asgs) && Clean(n.amiSharedWith)
    ensures var row := NuggetRow(n, formatDate);
      && |row| == 12
      && ReadList(row[2]) == Dedupe(n.amiIds)
      && ReadList(row[3]) == Dedupe(n.lcs)
      && ReadList(row[4]) == Dedupe(n.lts)
      && ReadList(row[5]) == Dedupe(n.asgs)
      && ReadList(row[6]) == Dedupe(n.amiSharedWith)
  {
    var row := NuggetRow(n, formatDate);
    DedupedJoinReadsBack(n.amiIds);
    DedupedJoinReadsBack(n.lcs);
    DedupedJoinReadsBack(n.lts);
    DedupedJoinReadsBack(n.asgs);
    DedupedJoinReadsBack(n.amiSharedWith);
    assert row[2] == Join(Dedupe(n.amiIds), "|");
    assert row[3] == Join(Dedupe(n.lcs), "|");
    assert row[4] == Join(Dedupe(n.lts), "|");
    assert row[5] == Join(Dedupe(n.asgs), "|");
    assert row[6] == Join(Dedupe(n.amiSharedWith), "|");
  }

  /** A nugget's snapshot id, HasVol, tags (in order) and volume size read back from its row. */
  lemma NuggetRowFieldsReadBack(n: Nugget, formatDate: int -> string)
    requires Clean(TagStrings(n.snap.tags))
    ensures var row := NuggetRow(n, formatDate);
      && |row| == 12
      && row[0] == n.snap.ownerId
      && row[1] == n.snap.snapshotId
      && ParseBool(row[7]) == n.hasVol
      && row[8] == formatDate(n.snap.startTime)
      && ReadList(row[9]) == TagStrings(n.snap.tags)
      && ParseInt(row[10]) == n.snap.volumeSize
      && row[11] == n.snap.description
  {
    var row := NuggetRow(n, formatDate);
    ListRoundTrip(TagStrings(n.snap.tags));
    FormatIntRoundTrip(n.snap.volumeSize);
    assert row[7] == FormatBool(n.hasVol);
    assert row[9] == Join(TagStrings(n.snap.tags), "|");
    assert row[10] == FormatInt(n.snap.volumeSize);
  }
}

=== FILE: slices.dfy ===
/**
 Slice helpers of dustcollector-common.go: membership tests, order-preserving
 deduplication and fixed-size batching. Each Go helper is a `for range` loop
 over its argument growing a local accumulator; each is modelled as a method
 with that loop, proved against a specification function, and the properties
 the program relies on are proved about the specification function.
 */
module Slices {

  /** A Go `*string`: an object whose pointee never changes. */
  class StrRef {
    const value: string

    constructor (value: string)
      ensures this.value == value
    {
      this.value := value;
    }
  }

  /** The pointees of a slice of string pointers, in order. */
  function Values(s: seq<StrRef>): (r: seq<string>)
    ensures |r| == |s|
    ensures forall i :: 0 <= i < |s| ==> r[i] == s[i].value
  {
    if |s| == 0 then [] else Values(s[..|s| - 1]) + [s[|s| - 1].value]
  }

  /** The pointees of a concatenation are the pointees of its parts. */
  lemma ValuesAppend(a: seq<StrRef>, b: seq<StrRef>)
    ensures Values(a + b) == Values(a) + Values(b)
  {
  }

  predicate NoDuplicates<T(==)>(s: seq<T>)
  {
    forall i, j :: 0 <= i < j < |s| ==> s[i] != s[j]
  }

  /** Index of the first occurrence of `x` in `s`. */
  function FirstIndex<T(==)>(s: seq<T>, x: T): (k: nat)
    requires x in s
    ensures k < |s| && s[k] == x && x !in s[..k]
  {
    if s[0] == x then 0 else 1 + FirstIndex(s[1..], x)
  }

  // ---------------------------------------------------------------------------
  // containsString / containsStringPointer

  /** Go's containsString: linear scan with an early return. */
  method ContainsString(strSlice: seq<string>, searchStr: string) returns (found: bool)
    ensures found <==> searchStr in strSlice
  {
    for i := 0 to |strSlice|
      invariant searchStr !in strSlice[..i]
    {
      if strSlice[i] == searchStr {
        return true;
      }
    }
    return false;
  }

  /** Go's containsStringPointer: compares pointees, not pointers. */
  method ContainsStringPointer(strSlice: seq<StrRef>, searchStr: StrRef) returns (found: bool)
    ensures found <==> exists i :: 0 <= i < |strSlice| && strSlice[i].value == searchStr.value
  {
    for i := 0 to |strSlice|
      invariant forall k :: 0 <= k < i ==> strSlice[k].value != searchStr.value
    {
      if strSlice[i].value == searchStr.value {
        return true;
      }
    }
    return false;
  }

  // ---------------------------------------------------------------------------
  // dedupeString

  /**
   What dedupeString computes: scanning left to right, an element is kept
   when no equal element has been kept before it.
   */
  function Dedupe<T(==)>(s: seq<T>): seq<T>
  {
    if |s| == 0 then []
    else
      var d := Dedupe(s[..|s| - 1]);
      if s[|s| - 1] in d then d else d + [s[|s| - 1]]
  }

  /** Go's dedupeString. */
  method DedupeString(strSlice: seq<string>) returns (returnSlice: seq<string>)
    ensures returnSlice == Dedupe(strSlice)
  {
    returnSlice := [];
    for i := 0 to |strSlice|
      invariant returnSlice == Dedupe(strSlice[..i])
    {
      var value := strSlice[i];
      assert strSlice[..i + 1][..i] == strSlice[..i];
      var present := ContainsString(returnSlice, value);
      if !present {
        returnSlice := returnSlice + [value];
      }
    }
    assert strSlice[..|strSlice|] == strSlice;
  }

  /** Deduplication keeps exactly the elements of its input. */
  lemma {:induction false} DedupeSameElements<T>(s: seq<T>)
    ensures forall x :: x in Dedupe(s) <==> x in s
  {
    if |s| > 0 {
      var p := s[..|s| - 1];
      DedupeSameElements(p);
      assert s == p + [s[|s| - 1]];
    }
  }

  /** No element occurs twice in the output of deduplication. */
  lemma {:induction false} DedupeNoDuplicates<T>(s: seq<T>)
    ensures NoDuplicates(Dedupe(s))
  {
    if |s| > 0 {
      DedupeNoDuplicates(s[..|s| - 1]);
    }
  }

  /**
   The output lists the elements in the order of their first occurrence in
   the input: the positions `FirstIndex(s, r[i])` are strictly increasing, so
   they also witness that the output is a subsequence of the input.
   */
  lemma {:induction false} DedupeFirstOccurrenceOrder<T>(s: seq<T>)
    ensures forall x :: x in Dedupe(s) ==> x in s
    ensures forall i, j :: 0 <= i < j < |Dedupe(s)| ==>
      FirstIndex(s, Dedupe(s)[i]) < FirstIndex(s, Dedupe(s)[j])
  {
    DedupeSameElements(s);
    if |s| > 0 {
      var p := s[..|s| - 1];
      var d := Dedupe(p);
      DedupeFirstOccurrenceOrder(p);
      DedupeSameElements(p);
      assert s == p + [s[|s| - 1]];
      forall x | x in d
        ensures FirstIndex(s, x) == FirstIndex(p, x) < |p|
      {
        FirstIndexOfPrefix(p, [s[|s| - 1]], x);
      }
      if s[|s| - 1] !in d {
        var last := s[|s| - 1];
        assert last !in p;
        LastIsFirstOccurrence(s);
      }
    }
  }

  lemma {:induction false} FirstIndexOfPrefix<T>(p: seq<T>, q: seq<T>, x: T)
    requires x in p
    ensures FirstIndex(p + q, x) == FirstIndex(p, x)
  {
    if p[0] != x {
      assert (p + q)[1..] == p[1..] + q;
      FirstIndexOfPrefix(p[1..], q, x);
    }
  }

  lemma LastIsFirstOccurrence<T>(s: seq<T>)
    requires |s| > 0 && s[|s| - 1] !in s[..|s| - 1]
    ensures FirstIndex(s, s[|s| - 1]) == |s| - 1
  {
    assert forall j :: 0 <= j < |s| - 1 ==> s[j] == s[..|s| - 1][j];
  }

  /** A duplicate-free sequence is its own deduplication. */
  lemma {:induction false} DedupeOfDistinct<T>(s: seq<T>)
    requires NoDuplicates(s)
    ensures Dedupe(s) == s
  {
    if |s| > 0 {
      var p := s[..|s| - 1];
      assert NoDuplicates(p);
      DedupeOfDistinct(p);
      assert s[|s| - 1] !in p;
      assert s == p + [s[|s| - 1]];
    }
  }

  /** Deduplication is idempotent. */
  lemma DedupeIdempotent<T>(s: seq<T>)
    ensures Dedupe(Dedupe(s)) == Dedupe(s)
  {
    DedupeNoDuplicates(s);
    DedupeOfDistinct(Dedupe(s));
  }

  // ---------------------------------------------------------------------------
  // dedupeStringPointer

  /**
   What dedupeStringPointer computes: the first pointer for each pointee,
   in input order.
   */
  function DedupeRefs(s: seq<StrRef>): seq<StrRef>
  {
    if |s| == 0 then []
    else
      var d := DedupeRefs(s[..|s| - 1]);
      if s[|s| - 1].value in Values(d) then d else d + [s[|s| - 1]]
  }

  /** Go's dedupeStringPointer. */
  method DedupeStringPointer(strSlice: seq<StrRef>) returns (returnSlice: seq<StrRef>)
    ensures returnSlice == DedupeRefs(strSlice)
  {
    returnSlice := [];
    for i := 0 to |strSlice|
      invariant returnSlice == DedupeRefs(strSlice[..i])
    {
      var value := strSlice[i];
      assert strSlice[..i + 1][..i] == strSlice[..i];
      var present := ContainsStringPointer(returnSlice, value);
      if !present {
        returnSlice := returnSlice + [value];
      }
    }
    assert strSlice[..|strSlice|] == strSlice;
  }

  /**
   Pointer deduplication returns pointers taken from its input whose
   pointees are exactly the string deduplication of the input's pointees.
   */
  lemma {:induction false} DedupeRefsValues(s: seq<StrRef>)
    ensures Values(DedupeRefs(s)) == Dedupe(Values(s))
    ensures forall r :: r in DedupeRefs(s) ==> r in s
  {
    if |s| > 0 {
      var p := s[..|s| - 1];
      DedupeRefsValues(p);
      assert Values(s)[..|s| - 1] == Values(p);
      var d := DedupeRefs(p);
      if s[|s| - 1].value !in Values(d) {
        assert Values(d + [s[|s| - 1]]) == Values(d) + [s[|s| - 1].value];
      }
    }
  }

  // ---------------------------------------------------------------------------
  // makeBatchesStringPointer

  function Abs(n: int): nat
  {
    if n < 0 then -n else n
  }

  /**
   Go's integer division of a length by `b`, which truncates toward zero:
   for a negative divisor the quotient is the negated quotient by |b|.
   */
  function GoDiv(a: nat, b: int): int
    requires b != 0
  {
    if b > 0 then a / b else -(a / Abs(b))
  }

  /** Go's remainder of a length by `b`: it takes the sign of the dividend. */
  function GoMod(a: nat, b: int): nat
    requires b != 0
  {
    a % Abs(b)
  }

  lemma BatchCounts(len: nat, b: int)
    requires b != 0
    ensures b > 0 ==> GoDiv(len, b) * b + GoMod(len, b) == len && GoMod(len, b) < b
    ensures b > 0 ==> (len + b - 1) / b == GoDiv(len, b) + (if GoMod(len, b) > 0 then 1 else 0)
    ensures b < 0 ==> GoDiv(len, b) <= 0 && GoMod(len, b) <= len
  {
    if b > 0 {
      DivShape(len, b);
    }
  }

  /** The concatenation of a list of batches. */
  function Flatten<T>(batches: seq<seq<T>>): seq<T>
  {
    if |batches| == 0 then [] else Flatten(batches[..|batches| - 1]) + batches[|batches| - 1]
  }

  lemma ConcatAssoc<T>(a: seq<T>, b: seq<T>, c: seq<T>)
    ensures a + b + c == a + (b + c)
  {
  }

  /** Flattening one more batch appends that batch. */
  lemma FlattenSnoc<T>(batches: seq<seq<T>>, x: seq<T>)
    ensures Flatten(batches + [x]) == Flatten(batches) + x
  {
    assert (batches + [x])[..|batches|] == batches;
  }

  /** Appending the next slice as a batch extends the covered prefix to its end. */
  lemma TakeBatch<T>(s: seq<T>, batches: seq<seq<T>>, start: int, end: int)
    requires 0 <= start <= end <= |s|
    requires Flatten(batches) == s[..start]
    ensures Flatten(batches + [s[start..end]]) == s[..end]
  {
    FlattenSnoc(batches, s[start..end]);
    assert s[..end] == s[..start] + s[start..end];
  }

  lemma MulMonotone(a: nat, b: nat, n: nat)
    requires a <= b
    ensures a * n <= b * n
  {
  }

  lemma {:induction false} DivShape(len: nat, n: nat)
    requires n > 0
    ensures (len / n) * n + len % n == len
    ensures (len / n) * n <= len
    ensures len % n == 0 ==> (len + n - 1) / n == len / n
    ensures len % n > 0 ==> (len + n - 1) / n == len / n + 1
  {
    var q, r := len / n, len % n;
    if r == 0 {
      assert len + n - 1 == q * n + (n - 1);
      DivUnique(len + n - 1, n, q, n - 1);
    } else {
      assert len + n - 1 == (q + 1) * n + (r - 1);
      DivUnique(len + n - 1, n, q + 1, r - 1);
    }
  }

  lemma DivUnique(a: nat, n: nat, q: nat, r: nat)
    requires n > 0 && r < n && a == q * n + r
    ensures a / n == q
  {
    var q', r' := a / n, a % n;
    assert (q - q') * n == r' - r;
    MulSmall(q - q', n);
  }

  lemma MulSmall(d: int, n: int)
    requires n > 0 && -n < d * n < n
    ensures d == 0
  {
  }

  /** `batches` are the first |batches| full batches of size `n` cut from `s`. */
  ghost predicate FullBatches<T>(s: seq<T>, n: int, batches: seq<seq<T>>)
  {
    && n > 0
    && |batches| * n <= |s|
    && Flatten(batches) == s[..|batches| * n]
    && forall k :: 0 <= k < |batches| ==> |batches[k]| == n
  }

  /** Cutting the `i`-th full batch, as the loop of makeBatchesStringPointer computes its bounds. */
  lemma NextFullBatch<T>(s: seq<T>, n: int, batches: seq<seq<T>>, i: int, numBatches: int)
    requires FullBatches(s, n, batches) && |batches| == i - 1
    requires 1 <= i <= numBatches && numBatches * n <= |s|
    ensures 0 <= n * (i - 1) == (i - 1) * n <= i * n <= |s|
    ensures FullBatches(s, n, batches + [s[n * (i - 1)..i * n]])
  {
    MulMonotone(i, numBatches, n);
    var b := s[n * (i - 1)..i * n];
    assert i * n == (i - 1) * n + n;
    TakeBatch(s, batches, (i - 1) * n, i * n);
    var next := batches + [b];
    assert forall k :: 0 <= k < |next| ==> |next[k]| == n;
  }

  /**
   The |s| / n full batches followed, when |s| % n is positive, by the
   batch of the remaining elements: they cover `s` and there are
   ceil(|s| / n) of them.
   */
  lemma BatchesShape<T>(s: seq<T>, n: int, full: seq<seq<T>>, remainder: int, batches: seq<seq<T>>)
    requires FullBatches(s, n, full) && |full| == |s| / n
    requires 0 <= remainder <= |s| && remainder == |s| % n
    requires batches == if remainder > 0 then full + [s[|s| - remainder..|s|]] else full
    ensures Flatten(batches) == s
    ensures |batches| == (|s| + n - 1) / n
    ensures forall k :: 0 <= k < |s| / n ==> |batches[k]| == n
    ensures remainder > 0 ==> |batches| > 0 && |batches[|batches| - 1]| == remainder
  {
    DivShape(|s|, n);
    if remainder > 0 {
      TakeBatch(s, full, |s| - remainder, |s|);
    }
    assert s[..|s|] == s;
  }

  /**
   Go's makeBatchesStringPointer: `len/batchSize` full batches of
   `batchSize` elements, then one batch of the `len % batchSize` remaining
   elements when that remainder is positive. With a positive batch size the
   batches concatenate back to the input and there are ceil(len/batchSize)
   of them. A negative batch size (which Go divides by without complaint)
   yields no full batch, so at most the trailing remainder survives.
   */
  method MakeBatches<T>(strSlice: seq<T>, batchSize: int) returns (batches: seq<seq<T>>)
    requires batchSize != 0
    ensures batchSize > 0 ==> Flatten(batches) == strSlice
    ensures batchSize > 0 ==> |batches| == (|strSlice| + batchSize - 1) / batchSize
    ensures batchSize > 0 ==> forall k :: 0 <= k < |strSlice| / batchSize ==> |batches[k]| == batchSize
    ensures batchSize > 0 && |strSlice| % batchSize > 0 ==>
      |batches| > 0 && |batches[|batches| - 1]| == |strSlice| % batchSize
    ensures batchSize < 0 ==>
      var rem := |strSlice| % Abs(batchSize);
      rem <= |strSlice| && batches == if rem > 0 then [strSlice[|strSlice| - rem..]] else []
  {
    var numBatches, remainder := GoDiv(|strSlice|, batchSize), GoMod(|strSlice|, batchSize);
    BatchCounts(|strSlice|, batchSize);
    batches := [];
    var i := 1;
    // build full batches
    while i <= numBatches
      invariant 1 <= i && (i == 1 || i <= numBatches + 1)
      invariant |batches| == i - 1
      invariant batchSize > 0 ==> FullBatches(strSlice, batchSize, batches)
    {
      var startIndex: int;
      var endIndex := i * batchSize;
      NextFullBatch(strSlice, batchSize, batches, i, numBatches);
      if i == 1 {
        startIndex := 0;
      } else {
        startIndex := batchSize * (i - 1);
      }
      batches := batches + [strSlice[startIndex..endIndex]];
      i := i + 1;
    }
    ghost var full := batches;
    assert batchSize < 0 ==> full == [];
    if remainder > 0 {
      // build last partial batch
      var startIndex := |strSlice| - remainder;
      var endIndex := |strSlice|;
      assert strSlice[startIndex..endIndex] == strSlice[|strSlice| - remainder..];
      batches := batches + [strSlice[startIndex..endIndex]];
    }
    if batchSize > 0 {
      BatchesShape(strSlice, batchSize, full, remainder, batches);
    }
  }
}

=== FILE: wrappers.dfy ===
/** Optional values: the model's stand-in for a Go pointer that may be nil. */
module Wrappers {

  datatype Option<+T> = None | Some(value: T)
}
